=== FILE: README.md ===
# BER codec and z3950 shape checkers, modelled in Dafny

This project models the Basic Encoding Rules codec of the z3950 Java library, `asn1/BEREncoding.java`.
That file implements ITU-T X.690 / ISO/IEC 8825-1. The model covers four parts:

- the identifier octets of `make_identifier` (section 8.1.2 of X.690);
- the length octets of `make_length` (section 8.1.3);
- the size bookkeeping of `init`;
- the recursive stream reader `doInput` / `input`. It reads the short, long and indefinite
  length forms and stops at the end-of-contents octets (section 8.1.5).

The project also models six generated z3950 classes that check the shape of a decoded node
against a fixed ASN.1 definition:

- the SEQUENCEs `PackageSpec`, `FormattedSceneSelectionOptions` and `Costs_otherCharges`;
- the CHOICEs `ProcessingOptionValue`, `OrderStatusInfo_orderState` and
  `ProximitySupport_unitsSupported`.

Everything is pure. A BER object is the immutable `BerNode.Node`: a `Primitive` with its
content octets, or a `Constructed` node with its components. The reader works on the whole
source as a `seq<byte>` plus a read position. The position it returns replaces the shared
counter `numBytesRead`. Errors are `Result` values rather than exceptions. A generated
`Decode` builds a fresh object, as the constructors taking a BER do. The one place where
decoding into an object that already holds values makes a difference is modelled apart, as
`PackageSpecSchema.DecodeIntoAsWritten` (see Findings).

Modules, in dependency order:

- `Results`: the `Option`/`Result` types.
- `Digits`: base-256 and base-128 numerals.
- `Octets`: the `At` framing predicate, "these octets stand at this position".
- `BerNode`: tag classes, nodes, error kinds and constants.
- `BerLength`, `BerIdentifier`: the two header parts, encoder and reader for each.
- `BerEncoding`: total length, `encoding_get`, `init`.
- `BerDecoder`: `doInput`.
- `BerRoundTrip`: decoding a definite encoding gives the node back.
- `BerIndefinite`: the same for the indefinite form.
- `BerPrefix`: the reader never looks past what it returns, so a truncated encoding is an error.
- `BerExamples`: concrete octet strings, including the reader's quirks.
- `AsnSchema`: the generic field-by-field SEQUENCE walk shared by the generated classes.
- `AsnChoice`: the generic CHOICE walk.
- One module per generated class, e.g. `PackageSpecSchema`.

The model follows the code where X.690 says otherwise:

- A definite-length constructed node whose components run past its length is accepted
  (`BerExamples.OvershootAccepted`).
- The end-of-contents test is "tag 0, class UNIVERSAL, total length 2". A constructed
  `0x20 0x00` therefore also ends an indefinite-length node
  (`BerExamples.ConstructedMarkerAccepted`). The round trip of the indefinite form is stated
  for components that do not pass that test (`BerIndefinite.Enclosable`).
- An empty source at the first octet gives the end sentinel (`Read.EndOfSource`), not an error.

In the generated classes every field type is opaque, whether it is another generated class or a
library type such as `InternationalString` or `ASN1Integer`:
- an explicitly tagged field is the node inside its wrapper (`AsnSchema.FieldValue.Wrapped`);
- an implicitly tagged one is the node's form and contents without its identifier
  (`AsnSchema.Body`).

The parameterless `ber_encode()` of a SEQUENCE uses `ASN1Sequence.TAG`. It is taken to be
universal tag 16, the tag X.690 gives SEQUENCE (`AsnSchema.SequenceTag`).

## Model

| member | source | states |
|---|---|---|
| BerNode.ClassFromBits | src/main/java/asn1/BEREncoding.java:462-463 | a tag type is accepted exactly when it has no bit outside 0xC0, and the class it names has that bit pattern |
| BerNode.ClassOfOctet | src/main/java/asn1/BEREncoding.java:193 | the class read from an identifier octet is the one whose pattern is the octet's top two bits |
| BerNode.ClassOfOctetInverse | src/main/java/asn1/BEREncoding.java:51-71 | an octet built from a class's pattern is read back as that class |
| BerLength.OctetCount | src/main/java/asn1/BEREncoding.java:539-546 | the long-form digit count is the fewest base-256 digits that hold the length |
| BerLength.EncodeLength | src/main/java/asn1/BEREncoding.java:520-560 | a negative length gives [0x80]; 0..127 gives one octet equal to it; a larger one gives 0x80+N, then N octets, where N is minimal and 1..4 |
| BerLength.EncodeLengthLongForm | src/main/java/asn1/BEREncoding.java:536-559 | the long-form octets after the count are big-endian digits worth the length |
| BerLength.CountOfInt | src/main/java/asn1/BEREncoding.java:539-549 | a Java int never needs more than four length octets |
| BerLength.ToInt32 | src/main/java/asn1/BEREncoding.java:245-257 | the assembled length is the signed 32-bit value congruent to the octets' value modulo 2^32 |
| BerLength.LengthDigitsBound | src/main/java/asn1/BEREncoding.java:242-257 | at most four octets assemble a value below 2^32 |
| BerLength.DecodeLength | src/main/java/asn1/BEREncoding.java:223-267 | the end of the source is "unexpected end"; below 0x80 is the short form; 0x80 is indefinite; more than four length octets is "too long"; the result is at most MAX_BER_SIZE and ends within five octets |
| BerLength.DecodeLengthLongForm | src/main/java/asn1/BEREncoding.java:240-263 | a long form of one to four octets gives their base-256 value when that is at most MAX_BER_SIZE, and "too long" otherwise, negative ints included |
| BerLength.DecodeEncodedLength | src/main/java/asn1/BEREncoding.java:223-267 | decoding the octets `make_length` writes gives the length back and stops right after them; -1 comes back as the indefinite form |
| BerIdentifier.EncodeIdentifier | src/main/java/asn1/BEREncoding.java:467-507 | the first octet carries the class, the constructed bit and either the tag (≤ 30, one octet) or 0x1F (more octets follow) |
| BerIdentifier.TagDigitsValue | src/main/java/asn1/BEREncoding.java:485-506 | the base-128 digits are worth the tag, have no leading zero digit, and have bit 8 set on every digit but the last |
| BerIdentifier.EncodeIdentifierHighTag | src/main/java/asn1/BEREncoding.java:485-507 | a tag ≥ 31 is followed by the minimal base-128 numeral of the tag, with the continuation bit set on all but the last octet |
| BerIdentifier.MakeIdentifier | src/main/java/asn1/BEREncoding.java:456-508 | a bad tag type is "invalid tag type"; a negative tag is "tag value is negative"; otherwise the octets carry the tag type and form and decode back to the same triple |
| BerIdentifier.ReadTagDigits | src/main/java/asn1/BEREncoding.java:200-217 | the high-tag loop stops at the first octet with bit 8 clear; it is "unexpected end" exactly when no such octet remains |
| BerIdentifier.ReadTagDigitsShape | src/main/java/asn1/BEREncoding.java:200-217 | what the loop reads is a well-formed base-128 numeral and the tag is its value |
| BerIdentifier.DecodeIdentifier | src/main/java/asn1/BEREncoding.java:191-217 | class and form come from the first octet; a low tag is its five low bits in one octet; it fails only when a high tag runs off the end |
| BerIdentifier.DecodeIdentifierHighTag | src/main/java/asn1/BEREncoding.java:199-217 | after the escape 0x1F, the octets read are a base-128 numeral whose value is the tag |
| BerIdentifier.DecodeEncodedIdentifier | src/main/java/asn1/BEREncoding.java:193-217 | decoding the identifier octets of (class, form, tag) recovers the triple and stops right after them |
| BerEncoding.TotalLengthAtLeastTwo | src/main/java/asn1/BEREncoding.java:371-373 | every object takes at least two octets |
| BerEncoding.HeadSize | src/main/java/asn1/BEREncoding.java:371-373 | identifier octets, length octets and content length add up to the total length |
| BerEncoding.Encoding | src/main/java/asn1/BEREncoding.java:104-110 | `encoding_get` yields exactly `total_length` octets |
| BerEncoding.EncodeAll | src/main/java/asn1/BEREncoding.java:168-173 | the components' encodings together take the sum of their total lengths |
| BerEncoding.Init | src/main/java/asn1/BEREncoding.java:364-374 | `init` fails exactly as `make_identifier` does; otherwise the total length is identifier octets plus length octets plus the length, and the length octets decode to the length |
| BerEncoding.InitMatchesNode | src/main/java/asn1/BEREncoding.java:364-374 | `init` on a node's tag and content length gives the node's own identifier octets, length octets and total length |
| BerEncoding.MakeConstructed | src/main/java/asn1/BEREncoding.java:456-465 | a constructed object is refused on a bad tag type or a negative tag; otherwise it holds the given class, tag and components |
| BerDecoder.ReadOctets | src/main/java/asn1/BEREncoding.java:280-292 | the primitive loop returns the next `count` octets verbatim: the slice of the source they occupy |
| BerDecoder.DecodeNode | src/main/java/asn1/BEREncoding.java:184-345 | the end sentinel comes back exactly at the end of the source; a node takes at least two octets, and its class and form come from its first octet |
| BerDecoder.DecodeContents | src/main/java/asn1/BEREncoding.java:231-343 | an indefinite length on a primitive is "corrupted primitive"; a primitive whose contents run past the source is "unexpected end", and otherwise it holds exactly the next `length` octets and the read stops after them; any node read has the identifier's class, tag and form |
| BerDecoder.ReadDefinite | src/main/java/asn1/BEREncoding.java:302-316 | the octets consumed end at or above the length; no component is read, and nothing is consumed, exactly when the length is already reached; overshoot is not refused |
| BerDecoder.ReadDefiniteStops | src/main/java/asn1/BEREncoding.java:305-314 | the last component read started while the count of octets consumed was still below the length, so reading stops as soon as the length is reached |
| BerDecoder.ReadUntilEndOfContents | src/main/java/asn1/BEREncoding.java:321-333 | no component kept passes the end-of-contents test; when none is kept, the first node read passes it and the read ends right after that node |
| BerDecoder.ReadUntilEndsAtMarker | src/main/java/asn1/BEREncoding.java:321-333 | a successful read ends right after a node that passes the end-of-contents test, which is consumed and not kept |
| BerDecoder.Input | src/main/java/asn1/BEREncoding.java:154-161 | `input` starts at position 0 and gives the end sentinel exactly on an empty source |
| BerRoundTrip.DecodableIsEncodable | src/main/java/asn1/BEREncoding.java:259-260 | a node within MAX_BER_SIZE everywhere has length octets for every level |
| BerRoundTrip.EncodingAt | src/main/java/asn1/BEREncoding.java:413-423 | an encoding is the identifier octets, then the length octets, then the contents, each at its own position |
| BerRoundTrip.DecodeEncoding | src/main/java/asn1/BEREncoding.java:184-345 | reading a node's definite encoding, at any position of any source, gives the node back and stops right after it |
| BerRoundTrip.ReadEncodedComponents | src/main/java/asn1/BEREncoding.java:302-316 | the definite loop reads back every component of a concatenation of encodings and stops after the last |
| BerRoundTrip.InputEncoding | src/main/java/asn1/BEREncoding.java:154-161 | `input` on an encoding followed by anything gives the node back and consumes exactly its total length |
| BerRoundTrip.InputAt | src/main/java/asn1/BEREncoding.java:154-161 | `input` on a source starting with an encoding gives the node back |
| BerIndefinite.EndOfContentsOctets | src/main/java/asn1/BEREncoding.java:328 | the marker is the octets 0x00 0x00 and passes the end-of-contents test |
| BerIndefinite.IndefiniteEncoding | src/main/java/asn1/BEREncoding.java:321-333 | an indefinite encoding takes identifier, one length octet, the components and two marker octets |
| BerIndefinite.ReadComponentsToMarker | src/main/java/asn1/BEREncoding.java:321-333 | the indefinite loop reads back every component and then consumes the marker |
| BerIndefinite.IndefiniteDecoding | src/main/java/asn1/BEREncoding.java:231-238 | reading an indefinite-length encoding gives the node back with the marker dropped, and stops right after the marker |
| BerPrefix.TagDigitsExtend | src/main/java/asn1/BEREncoding.java:205-216 | the high-tag loop reads the same tag, ending at the same position, from any longer source that starts with the shorter one |
| BerPrefix.IdentifierExtends | src/main/java/asn1/BEREncoding.java:191-217 | the identifier octets read the same from any longer source |
| BerPrefix.LengthDigitsExtend | src/main/java/asn1/BEREncoding.java:247-257 | the long-form loop assembles the same value from any longer source |
| BerPrefix.LengthExtends | src/main/java/asn1/BEREncoding.java:223-267 | the length octets read the same from any longer source |
| BerPrefix.NodeExtends | src/main/java/asn1/BEREncoding.java:184-345 | a node read from a source is read identically, ending at the same position, from any longer source that starts with it: the reader never looks past the last octet it returns |
| BerPrefix.ContentsExtends | src/main/java/asn1/BEREncoding.java:231-343 | the contents of a node read the same from any longer source |
| BerPrefix.DefiniteExtends | src/main/java/asn1/BEREncoding.java:302-316 | the definite-length loop reads the same components from any longer source |
| BerPrefix.UntilExtends | src/main/java/asn1/BEREncoding.java:321-333 | the indefinite-length loop reads the same components from any longer source |
| BerPrefix.Truncated | src/main/java/asn1/BEREncoding.java:154-161 | `input` on a nonempty proper prefix of a node's definite encoding is an error, never a node |
| BerPrefix.TruncatedIndefinite | src/main/java/asn1/BEREncoding.java:321-333 | `input` on a nonempty proper prefix of a node's indefinite encoding, the marker cut off in part or in full, is an error |
| BerExamples.LengthForms | src/main/java/asn1/BEREncoding.java:520-560 | the length octets at the boundaries -1, 0, 127, 128, 256 and MAX_BER_SIZE |
| BerExamples.IdentifierForms | src/main/java/asn1/BEREncoding.java:477-507 | the identifier octets at tags 30, 31 and 200 |
| BerExamples.ReadPrimitive | src/main/java/asn1/BEREncoding.java:271-293 | a short-form primitive is read with its content verbatim |
| BerExamples.ReadIndefinite | src/main/java/asn1/BEREncoding.java:321-333 | a concrete indefinite-length object is read without its marker |
| BerExamples.OvershootAccepted | src/main/java/asn1/BEREncoding.java:302-316 | a component running one octet past the definite length is accepted |
| BerExamples.ConstructedMarkerAccepted | src/main/java/asn1/BEREncoding.java:328 | a constructed 0x20 0x00 ends an indefinite-length node |
| BerExamples.EndsOfSource | src/main/java/asn1/BEREncoding.java:187-189 | an empty source is the end sentinel; a source ending in the tag, the length or the contents is "unexpected end" |
| BerExamples.TooManyLengthOctets | src/main/java/asn1/BEREncoding.java:242-243 | five length octets are "too long" |
| BerExamples.NegativeLength | src/main/java/asn1/BEREncoding.java:259-260 | four length octets 0xFF assemble a negative int, which is "too long" |
| BerExamples.LengthAboveMaximum | src/main/java/asn1/BEREncoding.java:259-260 | MAX_BER_SIZE + 1 is "too long" |
| BerExamples.PrimitiveIndefiniteRefused | src/main/java/asn1/BEREncoding.java:235-236 | an indefinite length on a primitive is "corrupted primitive" |
| AsnSchema.Retag | src/main/java/z3950/RS_Explain/Costs_otherCharges.java:190-205 | an implicit tag keeps the value's form and contents under the new class and tag |
| AsnSchema.BodyOf | src/main/java/z3950/RS_Explain/Costs_otherCharges.java:129 | a component handed to a field decoder without a tag check, retagged with its own tag, is the component again |
| AsnSchema.EncodeField | src/main/java/z3950/ESFormat_CIP2_4Order/PackageSpec.java:329-333 | every emitted field carries its context-specific tag |
| AsnSchema.DecodeField | src/main/java/z3950/ESFormat_CIP2_4Order/PackageSpec.java:174-183 | an explicit wrapper is refused unless it is constructed with one component; what is accepted is the encoding of what it gives |
| AsnSchema.DecodeEncodedField | src/main/java/z3950/ESFormat_CIP2_4Order/PackageSpec.java:174-183 | a field as emitted is taken back as the same value |
| AsnSchema.DecodeFields | src/main/java/z3950/ESFormat_CIP2_4Order/PackageSpec.java:105-275 | an accepted walk conforms to the layout and claims every component |
| AsnSchema.EncodeFields | src/main/java/z3950/ESFormat_CIP2_4Order/PackageSpec.java:313-369 | the walk succeeds exactly when every mandatory field is set, and emits one context-specific component per set field |
| AsnSchema.DecodeEncodedFields | src/main/java/z3950/ESFormat_CIP2_4Order/PackageSpec.java:105-275 | the decoding walk takes back exactly the values the encoding walk emitted |
| AsnSchema.EncodeDecodedFields | src/main/java/z3950/ESFormat_CIP2_4Order/PackageSpec.java:313-369 | the encoding walk re-emits exactly the components the decoding walk accepted |
| AsnSchema.ExtraComponentRefused | src/main/java/z3950/ESFormat_CIP2_4Order/PackageSpec.java:273-275 | a component behind the encoded fields whose tag belongs to no null field after the last present one is "extra data" |
| AsnSchema.ExtraComponentClaimed | src/main/java/z3950/ESFormat_CIP2_4Order/PackageSpec.java:247-269 | a component behind the encoded fields that such a trailing null field does claim is taken for that field: the walk succeeds or fails on its wrapper, never with "extra data" |
| AsnSchema.SettledSpan | src/main/java/z3950/ESFormat_CIP2_4Order/PackageSpec.java:247-275 | the settled count marks the point after the last present field: every field behind it is null, and the one before it is set |
| AsnSchema.EncodedFieldsHead | src/main/java/z3950/ESFormat_CIP2_4Order/PackageSpec.java:110-131 | seen by the decoder, a null first field emits nothing and the next component does not carry its tag; a present one is the next component, carries its tag and decodes back |
| AsnSchema.SettledPresent | src/main/java/z3950/ESFormat_CIP2_4Order/PackageSpec.java:247-275 | nothing is settled exactly when no field is present |
| AsnSchema.DecodeSequence | src/main/java/z3950/ESFormat_CIP2_4Order/PackageSpec.java:96-102 | a non-constructed node is "bad BER form"; an accepted one conforms and claims every component |
| AsnSchema.EncodeSequence | src/main/java/z3950/ESFormat_CIP2_4Order/PackageSpec.java:307-370 | the fields go under one constructed node with the given tag, and a null mandatory field fails |
| AsnSchema.SequenceRoundTrip | src/main/java/z3950/ESFormat_CIP2_4Order/PackageSpec.java:91-370 | a conforming field list is decoded back from its encoding |
| AsnSchema.SequenceCanonical | src/main/java/z3950/ESFormat_CIP2_4Order/PackageSpec.java:91-370 | a node the walk accepts is the encoding of the fields it decodes to |
| AsnSchema.SequenceExtraComponent | src/main/java/z3950/ESFormat_CIP2_4Order/PackageSpec.java:247-275 | an encoding with a component appended is "extra data" exactly when no null field after the last present one claims that component |
| AsnChoice.DecodeChoice | src/main/java/z3950/ESFormat_CIPOrder/OrderStatusInfo_orderState.java:85-128 | the first alternative whose tag the node carries is chosen (no earlier one carries it), and the node is its encoding; "choice not matched" exactly when no tag matches |
| AsnChoice.EncodeChoice | src/main/java/z3950/ESFormat_CIPOrder/OrderStatusInfo_orderState.java:139-167 | success exactly when one alternative is set; "multiply set" exactly when two are; "not set" exactly when none is |
| AsnChoice.EncodeOnly | src/main/java/z3950/ESFormat_CIPOrder/OrderStatusInfo_orderState.java:147-160 | with one alternative set, that alternative is emitted under its own tag |
| AsnChoice.DecodeEncodedChoice | src/main/java/z3950/ESFormat_CIPOrder/OrderStatusInfo_orderState.java:96-125 | an emitted alternative is decoded as that alternative with the same value |
| AsnChoice.OnlyAt | src/main/java/z3950/ESFormat_CIPOrder/OrderStatusInfo_orderState.java:92-93 | after decoding, exactly the chosen alternative is set |
| AsnChoice.ChoiceRoundTrip | src/main/java/z3950/ESFormat_CIPOrder/OrderStatusInfo_orderState.java:85-167 | a CHOICE with one alternative set is decoded back from its encoding |
| AsnChoice.ChoiceCanonical | src/main/java/z3950/ESFormat_CIPOrder/OrderStatusInfo_orderState.java:85-167 | a node the CHOICE accepts is the encoding of what it decodes to |
| AsnChoice.ImplicitTagLosesChoice | src/main/java/z3950/ESFormat_CIPOrder/OrderStatusInfo_orderState.java:190-202 | under one implicit tag, two alternatives holding the same value would be the same node |
| PackageSpecSchema.FieldsConform | src/main/java/z3950/ESFormat_CIP2_4Order/PackageSpec.java:313-319 | the fields conform exactly when package, packageMedium and packageKByteSize are set; then three plus the set optionals are emitted |
| PackageSpecSchema.FromFields | src/main/java/z3950/ESFormat_CIP2_4Order/PackageSpec.java:119-134 | the object built from a conforming decode has exactly those fields |
| PackageSpecSchema.Decode | src/main/java/z3950/ESFormat_CIP2_4Order/PackageSpec.java:91-276 | a non-constructed node is "bad BER form"; no components is "incomplete"; a first component tagged none of [1], [2], [3] is "bad tag"; one tagged so but not a one-component wrapper is refused; a decoded object, built fresh as the constructor at :73-77 does, has its mandatory fields set and one field per component |
| PackageSpecSchema.DecodeIntoAsWritten | src/main/java/z3950/ESFormat_CIP2_4Order/PackageSpec.java:111-159 | `ber_decode` on an object that already holds values, as written: it fails exactly when Decode does, with Decode's error; the mandatory fields and otherInfo are Decode's; packageId and packagePrice are set exactly when the input carries them or they were set before |
| PackageSpecSchema.DecodeIntoEmpty | src/main/java/z3950/ESFormat_CIP2_4Order/PackageSpec.java:56-77 | on the all-null object the constructors start from, the as-written decode is Decode |
| PackageSpecSchema.DecodeIntoAgrees | src/main/java/z3950/ESFormat_CIP2_4Order/PackageSpec.java:111-159 | decoding into a filled object agrees with Decode exactly when no optional field the input leaves out was set before |
| PackageSpecSchema.StalePackageIdAsWritten | src/main/java/z3950/ESFormat_CIP2_4Order/PackageSpec.java:242-245 | components [3][4][5] decoded into an object with packageId set keep that packageId, so the result has one optional field more than the input has components for |
| PackageSpecSchema.Encode | src/main/java/z3950/ESFormat_CIP2_4Order/PackageSpec.java:307-370 | succeeds exactly when the mandatory fields are set, giving 3 + (set optionals) components under the given tag |
| PackageSpecSchema.EncodeDefault | src/main/java/z3950/ESFormat_CIP2_4Order/PackageSpec.java:287-291 | the parameterless encoding is a universal SEQUENCE that decodes back to the object |
| PackageSpecSchema.RoundTrip | src/main/java/z3950/ESFormat_CIP2_4Order/PackageSpec.java:91-370 | every complete object is decoded back from its encoding under any outer tag |
| PackageSpecSchema.Canonical | src/main/java/z3950/ESFormat_CIP2_4Order/PackageSpec.java:91-370 | a node the decoder accepts is the encoding of its result under the node's own tag |
| PackageSpecSchema.ExtraComponent | src/main/java/z3950/ESFormat_CIP2_4Order/PackageSpec.java:247-275 | a component appended to an encoding is "extra data" exactly when otherInfo is set or the component does not carry [6] |
| PackageSpecSchema.MissingKByteSize | src/main/java/z3950/ESFormat_CIP2_4Order/PackageSpec.java:217-220 | running out of components before packageKByteSize is "incomplete" |
| PackageSpecSchema.WrongClassForPackage | src/main/java/z3950/ESFormat_CIP2_4Order/PackageSpec.java:169-172 | tag 3 in the wrong class is "bad tag" for a mandatory field |
| PackageSpecSchema.WrapperOfTwo | src/main/java/z3950/ESFormat_CIP2_4Order/PackageSpec.java:127-130 | an explicit wrapper with two components is refused |
| SceneSelectionSchema.FieldsConform | src/main/java/z3950/CIP2_4FormattedSceneSelectionOptions/FormattedSceneSelectionOptions.java:257-263 | the fields conform exactly when sceneType is set; then one plus the set optionals are emitted |
| SceneSelectionSchema.FromFields | src/main/java/z3950/CIP2_4FormattedSceneSelectionOptions/FormattedSceneSelectionOptions.java:133-141 | the object built from a conforming decode has exactly those fields |
| SceneSelectionSchema.Decode | src/main/java/z3950/CIP2_4FormattedSceneSelectionOptions/FormattedSceneSelectionOptions.java:89-220 | a non-constructed node is "bad BER form"; no components is "incomplete"; a first component not tagged [1] is "bad tag", and one tagged [1] that is not a one-component wrapper is refused; a decoded object has sceneType set and one field per component |
| SceneSelectionSchema.Encode | src/main/java/z3950/CIP2_4FormattedSceneSelectionOptions/FormattedSceneSelectionOptions.java:252-301 | with each guard testing its own field: succeeds exactly when sceneType is set, giving 1 + (set optionals) components |
| SceneSelectionSchema.EncodeDefault | src/main/java/z3950/CIP2_4FormattedSceneSelectionOptions/FormattedSceneSelectionOptions.java:231-235 | over the corrected encoder (see Findings), the parameterless encoding is a universal SEQUENCE that decodes back to the object |
| SceneSelectionSchema.RoundTrip | src/main/java/z3950/CIP2_4FormattedSceneSelectionOptions/FormattedSceneSelectionOptions.java:89-301 | every object with sceneType set is decoded back from the corrected encoding, horizontalSelection included |
| SceneSelectionSchema.Canonical | src/main/java/z3950/CIP2_4FormattedSceneSelectionOptions/FormattedSceneSelectionOptions.java:89-220 | a node the decoder accepts is the encoding of its result |
| SceneSelectionSchema.ExtraComponent | src/main/java/z3950/CIP2_4FormattedSceneSelectionOptions/FormattedSceneSelectionOptions.java:143-219 | a component appended to an encoding is "extra data" exactly when it does not carry the tag of a null optional field with only null fields behind it |
| SceneSelectionSchema.SceneTypeMistagged | src/main/java/z3950/CIP2_4FormattedSceneSelectionOptions/FormattedSceneSelectionOptions.java:117-120 | a first component tagged [2] is "bad tag", even though [2] is an optional field |
| SceneSelectionSchema.Wrap | src/main/java/z3950/CIP2_4FormattedSceneSelectionOptions/FormattedSceneSelectionOptions.java:273-275 | a field's wrapper carries its tag and holds the value as its one component |
| SceneSelectionSchema.WrapOptional | src/main/java/z3950/CIP2_4FormattedSceneSelectionOptions/FormattedSceneSelectionOptions.java:286-298 | an optional field is emitted exactly when it is set |
| SceneSelectionSchema.EncodeEmits | src/main/java/z3950/CIP2_4FormattedSceneSelectionOptions/FormattedSceneSelectionOptions.java:273-298 | the corrected encoder emits sceneType under [1], then each set optional under its own tag, in tag order |
| SceneSelectionSchema.FieldArrayAsWritten | src/main/java/z3950/CIP2_4FormattedSceneSelectionOptions/FormattedSceneSelectionOptions.java:257-301 | the array as written is sized by counting every set field; a null field it dereferences fails |
| SceneSelectionSchema.HorizontalDroppedAsWritten | src/main/java/z3950/CIP2_4FormattedSceneSelectionOptions/FormattedSceneSelectionOptions.java:279-283 | with horizontal set and vertical null, the code as written leaves horizontalSelection out and a null slot at the end |
| SceneSelectionSchema.NullHorizontalAsWritten | src/main/java/z3950/CIP2_4FormattedSceneSelectionOptions/FormattedSceneSelectionOptions.java:279-283 | with vertical set and horizontal null, the code as written dereferences the null field |
| SceneSelectionSchema.AsWrittenAgrees | src/main/java/z3950/CIP2_4FormattedSceneSelectionOptions/FormattedSceneSelectionOptions.java:252-301 | when horizontal and vertical are both set or both null, the array as written is what the corrected encoder emits |
| ProcessingOptionSchema.Values | src/main/java/z3950/Cip2_4FormattedProductProcessingOptions/ProcessingOptionValue.java:144-172 | the alternatives in order; the count of set ones is what the encoder tests |
| ProcessingOptionSchema.FromChoice | src/main/java/z3950/Cip2_4FormattedProductProcessingOptions/ProcessingOptionValue.java:97-130 | after a decode, exactly the matched alternative is set |
| ProcessingOptionSchema.Decode | src/main/java/z3950/Cip2_4FormattedProductProcessingOptions/ProcessingOptionValue.java:90-133 | tag [1] gives the numeric value and [2] the string value, each from a one-component wrapper; "choice not matched" exactly when neither tag is carried; "bad BER form" exactly for a bad wrapper |
| ProcessingOptionSchema.Encode | src/main/java/z3950/Cip2_4FormattedProductProcessingOptions/ProcessingOptionValue.java:144-172 | succeeds exactly when one alternative is set, wrapping it under its tag; "multiply set" exactly when both are; "not set" exactly when neither is |
| ProcessingOptionSchema.EncodeTagged | src/main/java/z3950/Cip2_4FormattedProductProcessingOptions/ProcessingOptionValue.java:195-207 | implicit tagging always fails with "cannot implicitly tag" |
| ProcessingOptionSchema.RoundTrip | src/main/java/z3950/Cip2_4FormattedProductProcessingOptions/ProcessingOptionValue.java:90-172 | an object with one alternative set is decoded back from its encoding |
| ProcessingOptionSchema.Canonical | src/main/java/z3950/Cip2_4FormattedProductProcessingOptions/ProcessingOptionValue.java:90-172 | a node the decoder accepts is the encoding of its result |
| ProcessingOptionSchema.ImplicitTagLoss | src/main/java/z3950/Cip2_4FormattedProductProcessingOptions/ProcessingOptionValue.java:195-207 | the two alternatives holding one value encode differently but would coincide under an implicit tag |
| OrderStateSchema.Values | src/main/java/z3950/ESFormat_CIPOrder/OrderStatusInfo_orderState.java:139-167 | the alternatives in order; the count of set ones is what the encoder tests |
| OrderStateSchema.FromChoice | src/main/java/z3950/ESFormat_CIPOrder/OrderStatusInfo_orderState.java:92-125 | after a decode, exactly the matched alternative is set |
| OrderStateSchema.Decode | src/main/java/z3950/ESFormat_CIPOrder/OrderStatusInfo_orderState.java:85-128 | tag [1] gives staticState and [2] dynamicState, each from a one-component wrapper; "choice not matched" exactly when neither tag is carried; "bad BER form" exactly for a bad wrapper |
| OrderStateSchema.Encode | src/main/java/z3950/ESFormat_CIPOrder/OrderStatusInfo_orderState.java:139-167 | succeeds exactly when one alternative is set, wrapping it under its tag; "multiply set" exactly when both are; "not set" exactly when neither is |
| OrderStateSchema.EncodeTagged | src/main/java/z3950/ESFormat_CIPOrder/OrderStatusInfo_orderState.java:190-202 | implicit tagging always fails with "cannot implicitly tag" |
| OrderStateSchema.RoundTrip | src/main/java/z3950/ESFormat_CIPOrder/OrderStatusInfo_orderState.java:85-167 | an object with one alternative set is decoded back from its encoding |
| OrderStateSchema.Canonical | src/main/java/z3950/ESFormat_CIPOrder/OrderStatusInfo_orderState.java:85-167 | a node the decoder accepts is the encoding of its result |
| OrderStateSchema.ImplicitTagLoss | src/main/java/z3950/ESFormat_CIPOrder/OrderStatusInfo_orderState.java:190-202 | the two alternatives holding one value encode differently but would coincide under an implicit tag |
| OtherChargesSchema.FieldsConform | src/main/java/z3950/RS_Explain/Costs_otherCharges.java:185-206 | the fields conform exactly when both are set, and then two are emitted |
| OtherChargesSchema.FromFields | src/main/java/z3950/RS_Explain/Costs_otherCharges.java:129-145 | the object built from a conforming decode has exactly those fields |
| OtherChargesSchema.Decode | src/main/java/z3950/RS_Explain/Costs_otherCharges.java:97-153 | a non-constructed node is "bad BER form"; fewer than two correctly tagged components is "incomplete"; a first component not tagged [1], or a second not tagged [2], is "bad tag"; more than two correctly tagged is "extra data" 2/n; a decoded object has both fields and exactly two components |
| OtherChargesSchema.Encode | src/main/java/z3950/RS_Explain/Costs_otherCharges.java:185-206 | succeeds exactly when both fields are set, giving two components under the given tag |
| OtherChargesSchema.EncodeEmits | src/main/java/z3950/RS_Explain/Costs_otherCharges.java:190-205 | forWhat's body is emitted under [1], then charge's under [2] |
| OtherChargesSchema.EncodeDefault | src/main/java/z3950/RS_Explain/Costs_otherCharges.java:164-168 | the parameterless encoding is a universal SEQUENCE that decodes back to the object |
| OtherChargesSchema.RoundTrip | src/main/java/z3950/RS_Explain/Costs_otherCharges.java:97-206 | an object with both fields set is decoded back from its encoding |
| OtherChargesSchema.Canonical | src/main/java/z3950/RS_Explain/Costs_otherCharges.java:97-206 | a node the decoder accepts is the encoding of its result |
| OtherChargesSchema.ExtraComponent | src/main/java/z3950/RS_Explain/Costs_otherCharges.java:150-152 | any third component, whatever its tag, is "extra data" 2/3 |
| OtherChargesSchema.ChargeMistagged | src/main/java/z3950/RS_Explain/Costs_otherCharges.java:140-143 | a second component not tagged [2] is "bad tag" |
| UnitsSupportedSchema.Values | src/main/java/z3950/RS_Explain/ProximitySupport_unitsSupported.java:131-153 | the alternatives in order; the count of set ones is what the encoder tests |
| UnitsSupportedSchema.FromChoice | src/main/java/z3950/RS_Explain/ProximitySupport_unitsSupported.java:102-117 | after a decode, exactly the matched alternative is set |
| UnitsSupportedSchema.Decode | src/main/java/z3950/RS_Explain/ProximitySupport_unitsSupported.java:97-120 | tag [1] gives known and [2] private, each being the node itself without a wrapper; "choice not matched" is the only error, exactly when neither tag is carried |
| UnitsSupportedSchema.Encode | src/main/java/z3950/RS_Explain/ProximitySupport_unitsSupported.java:131-153 | succeeds exactly when one alternative is set, retagging it under its tag; "multiply set" exactly when both are; "not set" exactly when neither is |
| UnitsSupportedSchema.EncodeTagged | src/main/java/z3950/RS_Explain/ProximitySupport_unitsSupported.java:176-188 | implicit tagging always fails with "cannot implicitly tag" |
| UnitsSupportedSchema.RoundTrip | src/main/java/z3950/RS_Explain/ProximitySupport_unitsSupported.java:97-153 | an object with one alternative set is decoded back from its encoding |
| UnitsSupportedSchema.Canonical | src/main/java/z3950/RS_Explain/ProximitySupport_unitsSupported.java:97-153 | a node the decoder accepts is the encoding of its result |
| UnitsSupportedSchema.ImplicitTagLoss | src/main/java/z3950/RS_Explain/ProximitySupport_unitsSupported.java:176-188 | a known and a private unit with one body encode differently but would coincide under an implicit tag |

## Left out

- Streams and I/O: `InputStream` reading, `IOException`, and the output methods `output`, `output_bytes` and `output_head` (asn1/BEREncoding.java:383-403). The source is a `seq<byte>` and the octets written are a returned sequence.
- `BERPrimitive` and `BERConstructed` are not part of this model. A node stands for them. A constructed node's contents are its components' definite encodings, and its size follows `init`.
- `i_encoding_get` of the subclasses: `BerEncoding.Encoding` gives the octets directly.
- BerIdentifier.DecodeIdentifier: the Java `int` wrap-around of `tag <<= 7` (asn1/BEREncoding.java:214) is not modelled. The tag is unbounded, so a tag numeral of more than 31 bits reads as its true value.
- BerRoundTrip.DecodeEncoding: the round trip is stated for nodes whose content lengths are all at most MAX_BER_SIZE, since the reader refuses larger ones.
- BerIndefinite.IndefiniteDecoding: the round trip is stated for components that do not pass the end-of-contents test, since the reader would stop at such a component.
- Lines 277-278 of asn1/BEREncoding.java ("Indefinite length primitive BER") cannot be reached. Lines 235-236 already refuse an indefinite primitive, and the model has only that one check.
- The field types the generated classes hold (`InternationalString`, `PriceInfo`, `HumanString`, `Charge`, `ASN1Integer`, ...) are opaque nodes or bodies. Their own decoding and its errors are not modelled.
- The `check_tag` argument of the generated `ber_decode` is never read, so the outer tag of a SEQUENCE or CHOICE is not checked. The model ignores it too.
- A null mandatory field is dereferenced by the generated `ber_encode`. The model gives that `NullField` instead of a `NullPointerException`.
- `ASN1Sequence.TAG` is not part of this model. It is taken to be 16.
- ProcessingOptionSchema.Decode: the class comment (ProcessingOptionValue.java:30-35) lists four alternatives. The code handles only two, and so does the model.
- PackageSpecSchema.Decode: decoding is modelled into a fresh object, as the constructor taking a BER does (src/main/java/z3950/ESFormat_CIP2_4Order/PackageSpec.java:73-77). Calling `ber_decode` again on a filled object keeps the old packageId and packagePrice when the input leaves them out, because only otherInfo is reset (src/main/java/z3950/ESFormat_CIP2_4Order/PackageSpec.java:245). `DecodeIntoAsWritten` models that call, and Findings lists it.
- `toString` methods: string formatting only.
- The archive and maintenance tasks (`ArchiveToMySQLTask`, `QuarterlyMaintenanceTask`): thread pools, databases, the file system and the network, outside the codec.

## Findings

| source | as written | input that shows it | evidently intended | confidence | as-written member | corrected member |
|---|---|---|---|---|---|---|
| src/main/java/z3950/CIP2_4FormattedSceneSelectionOptions/FormattedSceneSelectionOptions.java:279-283 | the horizontalSelection field is emitted only when `s_verticalSelection != null`, while line 258 counts it whenever it is set | sceneType and horizontalSelection set, verticalSelection null: the array gets a null last slot and horizontalSelection is lost; verticalSelection set and horizontalSelection null: a null is dereferenced | guard on `s_horizontalSelection != null`, so each set optional field is emitted under its own tag | not executed | SceneSelectionSchema.FieldArrayAsWritten, SceneSelectionSchema.HorizontalDroppedAsWritten, SceneSelectionSchema.NullHorizontalAsWritten | SceneSelectionSchema.Encode, SceneSelectionSchema.EncodeEmits, SceneSelectionSchema.RoundTrip, SceneSelectionSchema.EncodeDefault |
| src/main/java/z3950/ESFormat_CIP2_4Order/PackageSpec.java:242-245 | only the optional fields after the mandatory ones are reset to null before decoding; packageId [1] and packagePrice [2] are assigned only when present (:132, :157) | `ber_decode` called on an object whose packageId is set, with components [3][4][5]: the old packageId survives, so the object no longer matches its input and re-encodes with four components | every optional field the input leaves out is null after decoding, as in the other generated classes (FormattedSceneSelectionOptions.java:139-141) | not executed | PackageSpecSchema.DecodeIntoAsWritten, PackageSpecSchema.StalePackageIdAsWritten | PackageSpecSchema.Decode, PackageSpecSchema.DecodeIntoAgrees, PackageSpecSchema.Canonical |

=== FILE: asn_choice.dfy ===
/** The CHOICE half of the generated z3950 classes: `ber_decode` tries the
    alternatives in order against the node's own tag, `ber_encode` emits the
    one alternative that is set, and an implicit tag on the CHOICE itself is
    refused because it would overwrite the tag that tells the alternatives apart. */
module AsnChoice {
  import opened Results
  import opened BerNode
  import opened AsnSchema

  /** One line of a CHOICE definition: `name [tag] EXPLICIT|IMPLICIT Type`. */
  datatype Alternative = Alternative(tag: nat, tagging: Tagging)

  /** No two alternatives share a tag, as in every generated CHOICE. */
  predicate DistinctAlternatives(alts: seq<Alternative>) {
    forall i, j :: 0 <= i < j < |alts| ==> alts[i].tag != alts[j].tag
  }

  /** `vs` holds one value or null per alternative, each present value of
      the kind its alternative's tagging calls for. */
  predicate FitsAlternatives(alts: seq<Alternative>, vs: seq<Option<FieldValue>>) {
    && |vs| == |alts|
    && forall k :: 0 <= k < |vs| && vs[k].Some? ==> Fits(alts[k].tagging, vs[k].value)
  }

  /** Only alternative `k` is set. */
  predicate Only(vs: seq<Option<FieldValue>>, k: nat) {
    && k < |vs| && vs[k].Some?
    && forall j :: 0 <= j < |vs| && j != k ==> vs[j].None?
  }

  /** How many alternatives from index `i` on are set. */
  function CountFrom(vs: seq<Option<FieldValue>>, i: nat): nat
    decreases |vs| - i
  {
    if i >= |vs| then 0 else (if vs[i].Some? then 1 else 0) + CountFrom(vs, i + 1)
  }

  /** The decoding walk from alternative `i` on: the first alternative whose
      context-specific tag the node carries is decoded from the node (an
      explicit wrapper that is not one constructed component is "bad BER
      form"); no match at all is "choice not matched". The result is the
      index of the alternative chosen and its value; every other alternative
      is null. */
  function DecodeChoice(alts: seq<Alternative>, i: nat, n: Node): (r: Result<(nat, FieldValue), SchemaError>)
    requires i <= |alts|
    ensures r.Ok? ==> && i <= r.value.0 < |alts|
                      && HasTag(n, alts[r.value.0].tag)
                      && Fits(alts[r.value.0].tagging, r.value.1)
                      && EncodeField(alts[r.value.0].tag, alts[r.value.0].tagging, r.value.1) == n
    ensures r.Ok? ==> forall k :: i <= k < r.value.0 ==> !HasTag(n, alts[k].tag)
    ensures r == Err(ChoiceNotMatched) <==> forall k :: i <= k < |alts| ==> !HasTag(n, alts[k].tag)
    ensures r.Err? ==> r.error == ChoiceNotMatched || r.error == BadForm
    decreases |alts| - i
  {
    if i == |alts| then Err(ChoiceNotMatched)
    else if HasTag(n, alts[i].tag) then
      match DecodeField(alts[i].tagging, n)
      case None => Err(BadForm)
      case Some(v) => Ok((i, v))
    else DecodeChoice(alts, i + 1, n)
  }

  /** The encoding walk from alternative `i` on, `chosen` being what an
      earlier set alternative produced: a second set alternative is "CHOICE
      multiply set", none at all is "CHOICE not set". */
  function EncodeChoice(alts: seq<Alternative>, vs: seq<Option<FieldValue>>, i: nat, chosen: Option<Node>)
    : (r: Result<Node, SchemaError>)
    requires FitsAlternatives(alts, vs) && i <= |alts|
    ensures chosen.None? ==> (r.Ok? <==> CountFrom(vs, i) == 1)
    ensures chosen.None? ==> (r == Err(ChoiceNotSet) <==> CountFrom(vs, i) == 0)
    ensures chosen.Some? ==> (r.Ok? <==> CountFrom(vs, i) == 0)
    ensures chosen.Some? && r.Ok? ==> r.value == chosen.value
    ensures r == Err(ChoiceMultiplySet) <==> CountFrom(vs, i) + (if chosen.Some? then 1 else 0) >= 2
    decreases |alts| - i
  {
    if i == |alts| then
      if chosen.Some? then Ok(chosen.value) else Err(ChoiceNotSet)
    else if vs[i].None? then EncodeChoice(alts, vs, i + 1, chosen)
    else if chosen.Some? then Err(ChoiceMultiplySet)
    else EncodeChoice(alts, vs, i + 1, Some(EncodeField(alts[i].tag, alts[i].tagging, vs[i].value)))
  }

  /** With only alternative `k` set, the encoder emits that alternative tagged
      with its own tag. */
  lemma {:induction false} EncodeOnly(alts: seq<Alternative>, vs: seq<Option<FieldValue>>, i: nat, k: nat)
    requires FitsAlternatives(alts, vs) && Only(vs, k) && i <= k
    ensures EncodeChoice(alts, vs, i, None) == Ok(EncodeField(alts[k].tag, alts[k].tagging, vs[k].value))
    decreases |alts| - i
  {
    if i < k {
      EncodeOnly(alts, vs, i + 1, k);
    } else {
      NoneAfter(vs, k + 1);
    }
  }

  /** No alternative from `i` on is set: none is counted. */
  lemma {:induction false} NoneAfter(vs: seq<Option<FieldValue>>, i: nat)
    requires forall j :: i <= j < |vs| ==> vs[j].None?
    ensures CountFrom(vs, i) == 0
    decreases |vs| - i
  {
    if i < |vs| {
      NoneAfter(vs, i + 1);
    }
  }

  /** The node the encoder emits for a single set alternative decodes as that
      alternative with the same value. */
  lemma {:induction false} DecodeEncodedChoice(alts: seq<Alternative>, i: nat, k: nat, v: FieldValue)
    requires DistinctAlternatives(alts) && i <= k < |alts| && Fits(alts[k].tagging, v)
    ensures DecodeChoice(alts, i, EncodeField(alts[k].tag, alts[k].tagging, v)) == Ok((k, v))
    decreases k - i
  {
    if i < k {
      DecodeEncodedChoice(alts, i + 1, k, v);
    } else {
      DecodeEncodedField(alts[k].tag, alts[k].tagging, v);
    }
  }

  /** The value list of a CHOICE of `count` alternatives with only
      alternative `k` set, to `v`: what `ber_decode` leaves behind. */
  function OnlyAt(count: nat, k: nat, v: FieldValue): (vs: seq<Option<FieldValue>>)
    requires k < count
    ensures |vs| == count && Only(vs, k) && vs[k] == Some(v)
  {
    seq(count, j => if j == k then Some(v) else None)
  }

  /** A CHOICE with exactly one alternative set is decoded back from its
      encoding as that alternative with the same value. */
  lemma {:induction false} ChoiceRoundTrip(alts: seq<Alternative>, vs: seq<Option<FieldValue>>, k: nat)
    requires DistinctAlternatives(alts) && FitsAlternatives(alts, vs) && Only(vs, k)
    ensures EncodeChoice(alts, vs, 0, None).Ok?
    ensures DecodeChoice(alts, 0, EncodeChoice(alts, vs, 0, None).value) == Ok((k, vs[k].value))
  {
    EncodeOnly(alts, vs, 0, k);
    DecodeEncodedChoice(alts, 0, k, vs[k].value);
  }

  /** A node the decoder accepts is the encoding of what it decodes to. */
  lemma {:induction false} ChoiceCanonical(alts: seq<Alternative>, n: Node, k: nat, v: FieldValue)
    requires DecodeChoice(alts, 0, n) == Ok((k, v))
    ensures k < |alts| && FitsAlternatives(alts, OnlyAt(|alts|, k, v))
    ensures EncodeChoice(alts, OnlyAt(|alts|, k, v), 0, None) == Ok(n)
  {
    EncodeOnly(alts, OnlyAt(|alts|, k, v), 0, k);
  }

  /** An implicit tag on a CHOICE would make two alternatives carrying the
      same value indistinguishable: retagged, their encodings are one node. */
  lemma {:induction false} ImplicitTagLosesChoice(alts: seq<Alternative>, j: nat, k: nat, v: FieldValue, cls: TagClass, tag: nat)
    requires j < |alts| && k < |alts| && alts[j].tagging == alts[k].tagging && Fits(alts[j].tagging, v)
    ensures Retag(BodyOf(EncodeField(alts[j].tag, alts[j].tagging, v)), cls, tag)
            == Retag(BodyOf(EncodeField(alts[k].tag, alts[k].tagging, v)), cls, tag)
  {
  }
}

=== FILE: asn_schema.dfy ===
/** The machinery shared by the generated z3950 classes (each an `ASN1Any`):
    how one field of a SEQUENCE is tagged, and the field-by-field walk that
    every generated `ber_decode` performs over the components of a
    constructed node, with the `ber_encode` that rebuilds them. The field
    types themselves (InternationalString, PriceInfo, HumanString, ...) are
    opaque: an explicitly tagged field is the node inside its wrapper, an
    implicitly tagged one is a node's form and contents without its tag. */
module AsnSchema {
  import opened Results
  import opened Digits
  import opened BerNode

  /** `ASN1Sequence.TAG`, the universal tag number of SEQUENCE (section 8.9
      of ITU-T X.690), which the parameterless `ber_encode` puts on a SEQUENCE. */
  const SequenceTag: nat := 16

  /** The failures the generated classes raise. */
  datatype SchemaError =
    | BadForm                                // "bad BER form"
    | BadTag                                 // "bad tag in s_<field>"
    | BadWrapper                             // "bad BER encoding: s_<field> tag bad"
    | Incomplete                             // "incomplete"
    | ExtraData(processed: nat, parts: nat)  // "bad BER: extra data <part>/<num_parts> processed"
    | ChoiceNotMatched                       // "bad BER encoding: choice not matched"
    | ChoiceMultiplySet                      // "CHOICE multiply set"
    | ChoiceNotSet                           // "CHOICE not set"
    | CannotImplicitlyTag                    // "cannot implicitly tag"
    | NullField                              // a field left null is dereferenced

  /** A node without its identifier: what an implicitly tagged value is made of. */
  datatype Body = PrimitiveBody(content: seq<byte>) | ConstructedBody(children: seq<Node>)

  /** `ber_encode(tag_type, tag)` of an opaque value: its body under the given tag. */
  function Retag(b: Body, cls: TagClass, tag: nat): (n: Node)
    ensures n.cls == cls && n.tag == tag
    ensures n.Constructed? <==> b.ConstructedBody?
  {
    match b
    case PrimitiveBody(content) => Primitive(cls, tag, content)
    case ConstructedBody(children) => Constructed(cls, tag, children)
  }

  /** A node seen without its tag, as a field decoder called with
      `check_tag == false` sees it. */
  function BodyOf(n: Node): (b: Body)
    ensures Retag(b, n.cls, n.tag) == n
  {
    match n
    case Primitive(_, _, content) => PrimitiveBody(content)
    case Constructed(_, _, children) => ConstructedBody(children)
  }

  /** Retagging loses nothing of the body. */
  lemma {:induction false} BodyOfRetag(b: Body, cls: TagClass, tag: nat)
    ensures BodyOf(Retag(b, cls, tag)) == b
  {
  }

  /** EXPLICIT: the value sits inside a constructed one-component wrapper
      carrying the field's tag. IMPLICIT: the field's tag replaces the value's own. */
  datatype Tagging = Explicit | Implicit

  /** One line of a SEQUENCE definition: `name [tag] EXPLICIT|IMPLICIT Type [OPTIONAL]`. */
  datatype FieldSpec = FieldSpec(tag: nat, tagging: Tagging, optional: bool)

  /** The value of a field: the wrapped node of an explicit field, the body
      of an implicit one. */
  datatype FieldValue = Wrapped(inner: Node) | Bare(body: Body)

  /** A value of the kind a tagging calls for. */
  predicate Fits(tagging: Tagging, v: FieldValue) {
    v.Wrapped? <==> tagging == Explicit
  }

  /** The test every generated decoder applies to a component:
      `p.tag_get() == tag && p.tag_type_get() == CONTEXT_SPECIFIC_TAG`. */
  predicate HasTag(p: Node, tag: nat) {
    p.tag == tag && p.cls == ContextSpecific
  }

  /** A field as `ber_encode` emits it. */
  function EncodeField(tag: nat, tagging: Tagging, v: FieldValue): (p: Node)
    requires Fits(tagging, v)
    ensures HasTag(p, tag)
  {
    match v
    case Wrapped(inner) => Constructed(ContextSpecific, tag, [inner])
    case Bare(body) => Retag(body, ContextSpecific, tag)
  }

  /** A component whose tag matched, as `ber_decode` takes it: an explicit
      wrapper must be constructed with exactly one component (None
      otherwise); an implicit one is handed over whole. */
  function DecodeField(tagging: Tagging, p: Node): (r: Option<FieldValue>)
    ensures r.None? <==> tagging == Explicit && !(p.Constructed? && |p.children| == 1)
    ensures r.Some? ==> Fits(tagging, r.value)
    ensures r.Some? && p.cls == ContextSpecific ==> EncodeField(p.tag, tagging, r.value) == p
  {
    match tagging
    case Explicit => if p.Constructed? && |p.children| == 1 then Some(Wrapped(p.children[0])) else None
    case Implicit => Some(Bare(BodyOf(p)))
  }

  /** A field the encoder emits is taken back as the same value. */
  lemma {:induction false} DecodeEncodedField(tag: nat, tagging: Tagging, v: FieldValue)
    requires Fits(tagging, v)
    ensures DecodeField(tagging, EncodeField(tag, tagging, v)) == Some(v)
  {
    if v.Bare? {
      BodyOfRetag(v.body, ContextSpecific, tag);
    }
  }

  /** The value of an optional explicit field, or null. */
  function Explicitly(o: Option<Node>): (r: Option<FieldValue>)
    ensures r.Some? <==> o.Some?
    ensures r.Some? ==> Fits(Explicit, r.value)
  {
    if o.Some? then Some(Wrapped(o.value)) else None
  }

  /** The value of an optional implicit field, or null. */
  function Implicitly(o: Option<Body>): (r: Option<FieldValue>)
    ensures r.Some? <==> o.Some?
    ensures r.Some? ==> Fits(Implicit, r.value)
  {
    if o.Some? then Some(Bare(o.value)) else None
  }

  /** The node an explicit field holds, if any. */
  function InnerOf(o: Option<FieldValue>): (r: Option<Node>)
    ensures Explicitly(r) == o || !(o.Some? ==> o.value.Wrapped?)
  {
    if o.Some? && o.value.Wrapped? then Some(o.value.inner) else None
  }

  /** The body an implicit field holds, if any. */
  function BodyOfValue(o: Option<FieldValue>): (r: Option<Body>)
    ensures Implicitly(r) == o || !(o.Some? ==> o.value.Bare?)
  {
    if o.Some? && o.value.Bare? then Some(o.value.body) else None
  }

  /** Some field at index `i` or later is mandatory: running out of components
      there is "incomplete" rather than a successful early return. */
  predicate MandatoryFrom(layout: seq<FieldSpec>, i: nat)
    decreases |layout| - i
  {
    i < |layout| && (!layout[i].optional || MandatoryFrom(layout, i + 1))
  }

  /** No two fields share a tag, as in every generated SEQUENCE. */
  predicate DistinctTags(layout: seq<FieldSpec>) {
    forall i, j :: 0 <= i < j < |layout| ==> layout[i].tag != layout[j].tag
  }

  /** The tags of the fields from index `i` on. */
  function TagsFrom(layout: seq<FieldSpec>, i: nat): set<nat> {
    set k | i <= k < |layout| :: layout[k].tag
  }

  /** `vs` holds the fields of `layout` from index `i` on, each present one of
      the kind its tagging calls for (None is Java's null). */
  predicate Fitting(layout: seq<FieldSpec>, i: nat, vs: seq<Option<FieldValue>>) {
    && i + |vs| == |layout|
    && forall k :: 0 <= k < |vs| && vs[k].Some? ==> Fits(layout[i + k].tagging, vs[k].value)
  }

  /** ... and every mandatory field among them is present. */
  predicate Conforms(layout: seq<FieldSpec>, i: nat, vs: seq<Option<FieldValue>>) {
    && Fitting(layout, i, vs)
    && forall k :: 0 <= k < |vs| && vs[k].None? ==> layout[i + k].optional
  }

  /** How many fields are present. */
  function PresentCount(vs: seq<Option<FieldValue>>): nat
    decreases |vs|
  {
    if |vs| == 0 then 0 else (if vs[0].Some? then 1 else 0) + PresentCount(vs[1..])
  }

  /** Counting from index `k` of a list: the field there, then the rest. */
  lemma {:induction false} PresentCountFrom(vs: seq<Option<FieldValue>>, k: nat)
    requires k < |vs|
    ensures PresentCount(vs[k..]) == (if vs[k].Some? then 1 else 0) + PresentCount(vs[k + 1..])
  {
    assert vs[k..][1..] == vs[k + 1..];
  }

  /** `count` fields left null. */
  function Absent(count: nat): (vs: seq<Option<FieldValue>>)
    ensures |vs| == count
    ensures forall k :: 0 <= k < count ==> vs[k].None?
  {
    seq(count, _ => None)
  }

  /** The walk of a generated SEQUENCE `ber_decode` over the components
      `parts`, at field `i` of `layout` and component index `part`:
      - out of components: "incomplete" while a mandatory field remains,
        otherwise the remaining (optional) fields are null;
      - a component carrying the field's context-specific tag is decoded as
        that field and consumed;
      - any other component skips an optional field without being consumed,
        and is "bad tag" for a mandatory one;
      - after the last field, a component left over is "extra data". */
  function DecodeFields(layout: seq<FieldSpec>, i: nat, parts: seq<Node>, part: nat)
    : (r: Result<seq<Option<FieldValue>>, SchemaError>)
    requires i <= |layout| && part <= |parts|
    ensures r.Ok? ==> Conforms(layout, i, r.value)
    ensures r.Ok? ==> PresentCount(r.value) == |parts| - part
    decreases |layout| - i
  {
    if i == |layout| then
      if part < |parts| then Err(ExtraData(part, |parts|)) else Ok([])
    else if part == |parts| then
      if MandatoryFrom(layout, i) then Err(Incomplete)
      else
        OptionalRest(layout, i);
        AbsentCount(|layout| - i);
        Ok(Absent(|layout| - i))
    else
      var f := layout[i];
      var p := parts[part];
      if HasTag(p, f.tag) then
        match DecodeField(f.tagging, p)
        case None => Err(BadWrapper)
        case Some(v) =>
          var rest :- DecodeFields(layout, i + 1, parts, part + 1);
          assert ([Some(v)] + rest)[1..] == rest;
          Ok([Some(v)] + rest)
      else if f.optional then
        var rest :- DecodeFields(layout, i + 1, parts, part);
        assert ([None] + rest)[1..] == rest;
        Ok([None] + rest)
      else Err(BadTag)
  }

  /** Without a mandatory field from `i` on, every remaining field is optional. */
  lemma {:induction false} OptionalRest(layout: seq<FieldSpec>, i: nat)
    requires i <= |layout| && !MandatoryFrom(layout, i)
    ensures forall k :: i <= k < |layout| ==> layout[k].optional
    decreases |layout| - i
  {
    if i < |layout| {
      OptionalRest(layout, i + 1);
    }
  }

  /** Null fields are not counted. */
  lemma {:induction false} AbsentCount(count: nat)
    ensures PresentCount(Absent(count)) == 0
  {
    if count > 0 {
      AbsentCount(count - 1);
      assert Absent(count)[1..] == Absent(count - 1);
    }
  }

  /** A count of zero means every field is null. */
  lemma {:induction false} NoneCounted(vs: seq<Option<FieldValue>>)
    requires PresentCount(vs) == 0
    ensures vs == Absent(|vs|)
    decreases |vs|
  {
    if |vs| > 0 {
      NoneCounted(vs[1..]);
      assert vs == [vs[0]] + vs[1..];
    }
  }

  /** The components a generated SEQUENCE `ber_encode` emits for the fields
      of `layout` from `i` on: each present field in layout order, tagged;
      a null mandatory field is dereferenced and fails. */
  function EncodeFields(layout: seq<FieldSpec>, i: nat, vs: seq<Option<FieldValue>>)
    : (r: Result<seq<Node>, SchemaError>)
    requires Fitting(layout, i, vs)
    ensures r.Ok? <==> Conforms(layout, i, vs)
    ensures r.Err? ==> r.error == NullField
    ensures r.Ok? ==> |r.value| == PresentCount(vs)
    ensures r.Ok? ==> forall k :: 0 <= k < |r.value| ==> r.value[k].cls == ContextSpecific && r.value[k].tag in TagsFrom(layout, i)
    decreases |vs|
  {
    if |vs| == 0 then Ok([])
    else
      assert Fitting(layout, i + 1, vs[1..]) by {
        forall k | 0 <= k < |vs[1..]| && vs[1..][k].Some?
          ensures Fits(layout[i + 1 + k].tagging, vs[1..][k].value)
        {
          assert vs[1..][k] == vs[k + 1];
        }
      }
      var rest := EncodeFields(layout, i + 1, vs[1..]);
      ConformsStep(layout, i, vs);
      if vs[0].None? then
        if layout[i].optional then rest else Err(NullField)
      else if rest.Err? then rest
      else
        var first := EncodeField(layout[i].tag, layout[i].tagging, vs[0].value);
        assert TagsFrom(layout, i + 1) <= TagsFrom(layout, i);
        Ok([first] + rest.value)
  }

  /** One step of the encoder over a conforming list: the first field's
      component, if it is set, before the components of the rest. */
  lemma {:induction false} EncodeFieldsStep(layout: seq<FieldSpec>, i: nat, vs: seq<Option<FieldValue>>)
    requires |vs| > 0 && Conforms(layout, i, vs)
    ensures Fitting(layout, i + 1, vs[1..]) && Conforms(layout, i + 1, vs[1..])
    ensures EncodeFields(layout, i, vs).value
            == (if vs[0].Some? then [EncodeField(layout[i].tag, layout[i].tagging, vs[0].value)] else [])
               + EncodeFields(layout, i + 1, vs[1..]).value
  {
    ConformsStep(layout, i, vs);
  }

  /** Conformance of a nonempty list is conformance of its head and of its tail. */
  lemma {:induction false} ConformsStep(layout: seq<FieldSpec>, i: nat, vs: seq<Option<FieldValue>>)
    requires |vs| > 0 && Fitting(layout, i, vs)
    ensures Fitting(layout, i + 1, vs[1..])
    ensures Conforms(layout, i, vs) <==> (vs[0].None? ==> layout[i].optional) && Conforms(layout, i + 1, vs[1..])
  {
    forall k | 0 <= k < |vs[1..]|
      ensures vs[1..][k] == vs[k + 1]
    {
    }
    if (vs[0].None? ==> layout[i].optional) && Conforms(layout, i + 1, vs[1..]) {
      forall k | 0 <= k < |vs| && vs[k].None?
        ensures layout[i + k].optional
      {
        if k > 0 {
          assert vs[1..][k - 1] == vs[k];
        }
      }
    }
  }

  /** Decoding the components that `EncodeFields` emits gives the same field
      values back, whichever optional fields are present: an absent optional
      field is skipped because the next component carries another field's tag. */
  lemma {:induction false} DecodeEncodedFields(layout: seq<FieldSpec>, i: nat, vs: seq<Option<FieldValue>>,
                                               parts: seq<Node>, part: nat)
    requires DistinctTags(layout) && Conforms(layout, i, vs)
    requires part <= |parts| && EncodeFields(layout, i, vs) == Ok(parts[part..])
    ensures DecodeFields(layout, i, parts, part) == Ok(vs)
    decreases |vs|
  {
    if |vs| > 0 {
      ConformsStep(layout, i, vs);
      var rest := EncodeFields(layout, i + 1, vs[1..]);
      if vs[0].None? {
        assert rest == Ok(parts[part..]);
        if part == |parts| {
          NoneCounted(vs[1..]);
          NoMandatoryLeft(layout, i, vs);
          assert vs == Absent(|vs|);
        } else {
          assert parts[part] == rest.value[0];
          assert layout[i].tag !in TagsFrom(layout, i + 1);
          DecodeEncodedFields(layout, i + 1, vs[1..], parts, part);
          assert [None] + vs[1..] == vs;
        }
      } else {
        var first := EncodeField(layout[i].tag, layout[i].tagging, vs[0].value);
        assert parts[part..] == [first] + rest.value;
        assert parts[part] == first;
        assert parts[part + 1..] == rest.value;
        DecodeEncodedField(layout[i].tag, layout[i].tagging, vs[0].value);
        DecodeEncodedFields(layout, i + 1, vs[1..], parts, part + 1);
        assert [vs[0]] + vs[1..] == vs;
      }
    }
  }

  /** All fields from `i` on null and conforming: none of them is mandatory. */
  lemma {:induction false} NoMandatoryLeft(layout: seq<FieldSpec>, i: nat, vs: seq<Option<FieldValue>>)
    requires Conforms(layout, i, vs) && forall k :: 0 <= k < |vs| ==> vs[k].None?
    ensures !MandatoryFrom(layout, i)
    decreases |vs|
  {
    if |vs| > 0 {
      ConformsStep(layout, i, vs);
      NoMandatoryLeft(layout, i + 1, vs[1..]);
    }
  }

  /** What the decoder accepts is exactly what the encoder emits: re-encoding
      the decoded fields gives back the components that were read. */
  lemma {:induction false} EncodeDecodedFields(layout: seq<FieldSpec>, i: nat, parts: seq<Node>, part: nat,
                                               vs: seq<Option<FieldValue>>)
    requires i <= |layout| && part <= |parts| && DecodeFields(layout, i, parts, part) == Ok(vs)
    ensures Fitting(layout, i, vs)
    ensures EncodeFields(layout, i, vs) == Ok(parts[part..])
    decreases |layout| - i
  {
    if i < |layout| && part < |parts| {
      var f := layout[i];
      var p := parts[part];
      ConformsStep(layout, i, vs);
      if HasTag(p, f.tag) {
        var v := DecodeField(f.tagging, p).value;
        EncodeDecodedFields(layout, i + 1, parts, part + 1, vs[1..]);
        assert parts[part..] == [p] + parts[part + 1..];
      } else {
        EncodeDecodedFields(layout, i + 1, parts, part, vs[1..]);
      }
    } else if i < |layout| {
      assert parts[part..] == [];
      assert vs == Absent(|layout| - i);
      AbsentFieldsEncode(layout, i, vs);
    } else {
      assert parts[part..] == [];
    }
  }

  /** Null fields emit no component. */
  lemma {:induction false} AbsentFieldsEncode(layout: seq<FieldSpec>, i: nat, vs: seq<Option<FieldValue>>)
    requires Conforms(layout, i, vs) && forall k :: 0 <= k < |vs| ==> vs[k].None?
    ensures EncodeFields(layout, i, vs) == Ok([])
    decreases |vs|
  {
    if |vs| > 0 {
      ConformsStep(layout, i, vs);
      AbsentFieldsEncode(layout, i + 1, vs[1..]);
    }
  }

  /** How many fields, from the front, reach up to the last present one. */
  function Settled(vs: seq<Option<FieldValue>>): (k: nat)
    ensures k <= |vs|
    decreases |vs|
  {
    if |vs| == 0 then 0
    else if vs[0].None? && Settled(vs[1..]) == 0 then 0
    else 1 + Settled(vs[1..])
  }

  /** Every field behind the settled ones is null, and the last settled one
      is present. */
  lemma {:induction false} SettledSpan(vs: seq<Option<FieldValue>>)
    ensures forall j :: Settled(vs) <= j < |vs| ==> vs[j].None?
    ensures Settled(vs) > 0 ==> vs[Settled(vs) - 1].Some?
    decreases |vs|
  {
    if |vs| > 0 {
      SettledSpan(vs[1..]);
      forall j | Settled(vs) <= j < |vs|
        ensures vs[j].None?
      {
        if j > 0 {
          assert vs[j] == vs[1..][j - 1];
        }
      }
      if Settled(vs) > 1 {
        assert vs[Settled(vs) - 1] == vs[1..][Settled(vs[1..]) - 1];
      }
    }
  }

  /** No field is present exactly when none is settled. */
  lemma {:induction false} SettledPresent(vs: seq<Option<FieldValue>>)
    ensures Settled(vs) == 0 <==> PresentCount(vs) == 0
    decreases |vs|
  {
    if |vs| > 0 {
      SettledPresent(vs[1..]);
    }
  }

  /** After the last present field of `vs` the decoder can only try a
      component against the null fields behind it; `extra` carries the tag
      of none of them. */
  predicate Unclaimed(layout: seq<FieldSpec>, vs: seq<Option<FieldValue>>, extra: Node) {
    forall k :: Settled(vs) <= k < |layout| ==> !HasTag(extra, layout[k].tag)
  }

  /** The first field of an encoded field list, seen from the decoder: a null
      one emits nothing, and the next component (if any) does not carry its
      tag; a present one is the next component and decodes back. */
  lemma {:induction false} EncodedFieldsHead(layout: seq<FieldSpec>, i: nat, vs: seq<Option<FieldValue>>,
                                             parts: seq<Node>, part: nat)
    requires DistinctTags(layout) && Conforms(layout, i, vs) && |vs| > 0
    requires part < |parts| && EncodeFields(layout, i, vs) == Ok(parts[part..|parts| - 1])
    ensures Conforms(layout, i + 1, vs[1..]) && i < |layout|
    ensures vs[0].None? ==> && layout[i].optional
                            && EncodeFields(layout, i + 1, vs[1..]) == Ok(parts[part..|parts| - 1])
                            && (part < |parts| - 1 ==> !HasTag(parts[part], layout[i].tag))
    ensures vs[0].Some? ==> && part < |parts| - 1
                            && HasTag(parts[part], layout[i].tag)
                            && DecodeField(layout[i].tagging, parts[part]) == vs[0]
                            && EncodeFields(layout, i + 1, vs[1..]) == Ok(parts[part + 1..|parts| - 1])
  {
    ConformsStep(layout, i, vs);
    var rest := EncodeFields(layout, i + 1, vs[1..]);
    if vs[0].None? {
      if part < |parts| - 1 {
        assert parts[part] == rest.value[0];
        assert layout[i].tag !in TagsFrom(layout, i + 1);
      }
    } else {
      var first := EncodeField(layout[i].tag, layout[i].tagging, vs[0].value);
      assert parts[part..|parts| - 1] == [first] + rest.value;
      assert parts[part] == first;
      assert parts[part + 1..|parts| - 1] == rest.value;
      DecodeEncodedField(layout[i].tag, layout[i].tagging, vs[0].value);
    }
  }

  /** A component behind the encoded fields that no null field after the last
      present one claims is refused as "extra data". */
  lemma {:induction false} ExtraComponentRefused(layout: seq<FieldSpec>, i: nat, vs: seq<Option<FieldValue>>,
                                                 parts: seq<Node>, part: nat)
    requires DistinctTags(layout) && Conforms(layout, i, vs)
    requires part < |parts| && EncodeFields(layout, i, vs) == Ok(parts[part..|parts| - 1])
    requires forall k :: i + Settled(vs) <= k < |layout| ==> !HasTag(parts[|parts| - 1], layout[k].tag)
    ensures DecodeFields(layout, i, parts, part) == Err(ExtraData(|parts| - 1, |parts|))
    decreases |vs|
  {
    if |vs| > 0 {
      EncodedFieldsHead(layout, i, vs, parts, part);
      SettledPresent(vs[1..]);
      if vs[0].None? {
        ExtraComponentRefused(layout, i + 1, vs[1..], parts, part);
      } else {
        ExtraComponentRefused(layout, i + 1, vs[1..], parts, part + 1);
      }
    }
  }

  /** ... and one that such a field does claim is taken for it: the walk
      then succeeds or fails on that field's wrapper, never with "extra data". */
  lemma {:induction false} ExtraComponentClaimed(layout: seq<FieldSpec>, i: nat, vs: seq<Option<FieldValue>>,
                                                 parts: seq<Node>, part: nat)
    requires DistinctTags(layout) && Conforms(layout, i, vs)
    requires part < |parts| && EncodeFields(layout, i, vs) == Ok(parts[part..|parts| - 1])
    requires exists k :: i + Settled(vs) <= k < |layout| && HasTag(parts[|parts| - 1], layout[k].tag)
    ensures DecodeFields(layout, i, parts, part).Ok? || DecodeFields(layout, i, parts, part) == Err(BadWrapper)
    decreases |vs|
  {
    if |vs| > 0 {
      EncodedFieldsHead(layout, i, vs, parts, part);
      SettledPresent(vs[1..]);
      if vs[0].Some? {
        ExtraComponentClaimed(layout, i + 1, vs[1..], parts, part + 1);
      } else if part == |parts| - 1 && HasTag(parts[part], layout[i].tag) {
        NoneCounted(vs[1..]);
        NoMandatoryLeft(layout, i + 1, vs[1..]);
      } else {
        ExtraComponentClaimed(layout, i + 1, vs[1..], parts, part);
      }
    }
  }

  /** A generated SEQUENCE `ber_decode`: the node must be constructed ("bad
      BER form" otherwise) and its components are walked field by field. Its
      own tag is not looked at: no generated decoder reads `check_tag`. */
  function DecodeSequence(layout: seq<FieldSpec>, n: Node): (r: Result<seq<Option<FieldValue>>, SchemaError>)
    ensures !n.Constructed? ==> r == Err(BadForm)
    ensures r.Ok? ==> Conforms(layout, 0, r.value) && PresentCount(r.value) == |n.children|
  {
    if !n.Constructed? then Err(BadForm) else DecodeFields(layout, 0, n.children, 0)
  }

  /** A generated SEQUENCE `ber_encode(tag_type, tag)`: the emitted fields
      under a constructed node with the given tag. */
  function EncodeSequence(layout: seq<FieldSpec>, vs: seq<Option<FieldValue>>, cls: TagClass, tag: nat)
    : (r: Result<Node, SchemaError>)
    requires Fitting(layout, 0, vs)
    ensures r.Ok? <==> Conforms(layout, 0, vs)
    ensures r.Err? ==> r.error == NullField
    ensures r.Ok? ==> && r.value.Constructed? && r.value.cls == cls && r.value.tag == tag
                      && |r.value.children| == PresentCount(vs)
                      && forall k :: 0 <= k < |r.value.children| ==> r.value.children[k].cls == ContextSpecific
  {
    var fields :- EncodeFields(layout, 0, vs);
    Ok(Constructed(cls, tag, fields))
  }

  /** Decoding an encoded SEQUENCE gives back every field, under any outer tag. */
  lemma {:induction false} SequenceRoundTrip(layout: seq<FieldSpec>, vs: seq<Option<FieldValue>>, cls: TagClass, tag: nat)
    requires DistinctTags(layout) && Conforms(layout, 0, vs)
    ensures EncodeSequence(layout, vs, cls, tag).Ok?
    ensures DecodeSequence(layout, EncodeSequence(layout, vs, cls, tag).value) == Ok(vs)
  {
    var parts := EncodeFields(layout, 0, vs).value;
    assert parts[0..] == parts;
    DecodeEncodedFields(layout, 0, vs, parts, 0);
  }

  /** A node the decoder accepts is exactly the encoding of what it decoded to. */
  lemma {:induction false} SequenceCanonical(layout: seq<FieldSpec>, n: Node, vs: seq<Option<FieldValue>>)
    requires DecodeSequence(layout, n) == Ok(vs)
    ensures Fitting(layout, 0, vs)
    ensures EncodeSequence(layout, vs, n.cls, n.tag) == Ok(n)
  {
    EncodeDecodedFields(layout, 0, n.children, 0, vs);
    assert n.children[0..] == n.children;
  }

  /** A component appended to an encoded SEQUENCE is refused as "extra data"
      exactly when no null field after the last present one claims it. */
  lemma {:induction false} SequenceExtraComponent(layout: seq<FieldSpec>, vs: seq<Option<FieldValue>>,
                                                  cls: TagClass, tag: nat, extra: Node)
    requires DistinctTags(layout) && Conforms(layout, 0, vs)
    ensures var parts := EncodeSequence(layout, vs, cls, tag).value.children + [extra];
            DecodeSequence(layout, Constructed(cls, tag, parts)) == Err(ExtraData(|parts| - 1, |parts|))
            <==> Unclaimed(layout, vs, extra)
  {
    var fields := EncodeFields(layout, 0, vs).value;
    var parts := fields + [extra];
    assert parts[0..|parts| - 1] == fields;
    assert parts[|parts| - 1] == extra;
    if Unclaimed(layout, vs, extra) {
      ExtraComponentRefused(layout, 0, vs, parts, 0);
    } else {
      ExtraComponentClaimed(layout, 0, vs, parts, 0);
    }
  }
}

=== FILE: ber_decoder.dfy ===
/** The recursive stream reader `doInput` and its wrapper `input`
    (asn1/BEREncoding.java). The source is the whole octet sequence and a read
    position in it: the position plays the part of the shared counter
    `numBytesRead`, and every call returns the position it stopped at. */
module BerDecoder {
  import opened Results
  import opened Digits
  import opened Octets
  import opened BerNode
  import opened BerIdentifier
  import opened BerLength
  import opened BerEncoding

  /** What one call reads: the end sentinel (the source was exhausted at the
      first identifier octet) or a node with the position after its last octet. */
  datatype Read = EndOfSource | Item(node: Node, end: nat)

  /** Components read for a constructed node, with the position after them. */
  datatype Components = Components(nodes: seq<Node>, end: nat)

  /** The end-of-contents test of the indefinite form: tag 0, class
      UNIVERSAL and a total length of 2. */
  predicate IsEndOfContents(n: Node) {
    n.tag == 0 && n.cls == Universal && TotalLength(n) == 2
  }

  /** The primitive loop of `doInput`: the next `count` octets from `pos` on,
      read one at a time. */
  function ReadOctets(s: seq<byte>, pos: nat, count: nat): (r: seq<byte>)
    requires pos + count <= |s|
    ensures |r| == count
    ensures forall k :: 0 <= k < count ==> r[k] == s[pos + k]
    ensures r == s[pos..pos + count]
    decreases count
  {
    if count == 0 then [] else [s[pos]] + ReadOctets(s, pos + 1, count - 1)
  }

  /** The octets the primitive loop reads are the ones standing there. */
  lemma {:induction false} ReadOctetsAt(s: seq<byte>, pos: nat, e: seq<byte>)
    requires At(s, pos, e)
    ensures ReadOctets(s, pos, |e|) == e
  {
    var r := ReadOctets(s, pos, |e|);
    AtAll(s, pos, e);
    forall k | 0 <= k < |e|
      ensures r[k] == e[k]
    {
      assert s[pos + k] == e[k];
    }
  }

  /** Reads one complete node from `pos` on: the identifier octets, then the
      length octets, then the contents. */
  function DecodeNode(s: seq<byte>, pos: nat): (r: Result<Read, BerError>)
    requires pos <= |s|
    ensures r == Ok(EndOfSource) <==> pos == |s|
    ensures r.Ok? && r.value.Item? ==> && pos + 2 <= r.value.end <= |s|
                                       && r.value.node.cls == ClassOfOctet(s[pos])
                                       && (r.value.node.Constructed? <==> ConstructedBit(s[pos]))
    decreases |s| - pos, 0
  {
    if pos == |s| then Ok(EndOfSource)
    else
      var id := DecodeIdentifier(s, pos);
      if id.Err? then Err(id.error)
      else
        var len := DecodeLength(s, id.value.1);
        if len.Err? then Err(len.error)
        else DecodeContents(s, len.value.1, id.value.0, len.value.0)
  }

  /** The contents part of `doInput`, from `at` on: an indefinite length on a
      primitive is refused, a primitive takes exactly `length` octets verbatim,
      and a constructed node reads components. */
  function DecodeContents(s: seq<byte>, at: nat, ident: Identifier, length: Length): (r: Result<Read, BerError>)
    requires at <= |s|
    ensures r.Ok? ==> && r.value.Item?
                      && at <= r.value.end <= |s|
                      && r.value.node.cls == ident.cls
                      && r.value.node.tag == ident.tag
                      && (r.value.node.Constructed? <==> ident.constructed)
    ensures !ident.constructed && length.Indefinite? ==> r == Err(CorruptedPrimitive)
    ensures !ident.constructed && length.Definite? && |s| - at < length.n ==> r == Err(UnexpectedEnd)
    ensures !ident.constructed && length.Definite? && length.n <= |s| - at
            ==> r == Ok(Item(Primitive(ident.cls, ident.tag, s[at..at + length.n]), at + length.n))
    decreases |s| - at, 2
  {
    match length
    case Indefinite =>
      if !ident.constructed then Err(CorruptedPrimitive)
      else
        var parts :- ReadUntilEndOfContents(s, at);
        Ok(Item(Constructed(ident.cls, ident.tag, parts.nodes), parts.end))
    case Definite(n) =>
      if !ident.constructed then
        if |s| - at < n then Err(UnexpectedEnd)
        else Ok(Item(Primitive(ident.cls, ident.tag, ReadOctets(s, at, n)), at + n))
      else
        var parts :- ReadDefinite(s, at, n, 0);
        Ok(Item(Constructed(ident.cls, ident.tag, parts.nodes), parts.end))
  }

  /** The definite-length loop: reads components while the count of octets
      actually consumed from the source, `total`, is below `length`. */
  function ReadDefinite(s: seq<byte>, pos: nat, length: nat, total: nat): (r: Result<Components, BerError>)
    requires pos <= |s|
    ensures r.Ok? ==> && pos <= r.value.end <= |s|
                      && total + (r.value.end - pos) >= length
                      && (total >= length <==> r.value.nodes == [])
    ensures r.Ok? && r.value.nodes == [] ==> r.value.end == pos
    decreases |s| - pos, 1
  {
    if length <= total then Ok(Components([], pos))
    else
      var c := DecodeNode(s, pos);
      if c.Err? then Err(c.error)
      else if c.value.EndOfSource? then Err(UnexpectedEnd)
      else
        var next := c.value.end;
        var rest := ReadDefinite(s, next, length, total + (next - pos));
        if rest.Err? then rest
        else Ok(Components([c.value.node] + rest.value.nodes, rest.value.end))
  }

  /** The indefinite-length loop: reads components until one passes the
      end-of-contents test; that one is consumed but not kept. */
  function ReadUntilEndOfContents(s: seq<byte>, pos: nat): (r: Result<Components, BerError>)
    requires pos <= |s|
    ensures r.Ok? ==> && pos + 2 <= r.value.end <= |s|
                      && forall i :: 0 <= i < |r.value.nodes| ==> !IsEndOfContents(r.value.nodes[i])
    ensures r.Ok? && r.value.nodes == [] ==> && DecodeNode(s, pos).Ok? && DecodeNode(s, pos).value.Item?
                                             && IsEndOfContents(DecodeNode(s, pos).value.node)
                                             && DecodeNode(s, pos).value.end == r.value.end
    decreases |s| - pos, 1
  {
    var c := DecodeNode(s, pos);
    if c.Err? then Err(c.error)
    else if c.value.EndOfSource? then Err(UnexpectedEnd)
    else
      var next := c.value.end;
      if IsEndOfContents(c.value.node) then Ok(Components([], next))
      else
        var rest := ReadUntilEndOfContents(s, next);
        if rest.Err? then rest
        else Ok(Components([c.value.node] + rest.value.nodes, rest.value.end))
  }

  /** The definite-length loop stops as soon as the count reaches `length`:
      the last component read started while the count was still below it. */
  lemma {:induction false} ReadDefiniteStops(s: seq<byte>, pos: nat, length: nat, total: nat)
    requires pos <= |s|
    requires ReadDefinite(s, pos, length, total).Ok? && ReadDefinite(s, pos, length, total).value.nodes != []
    ensures var r := ReadDefinite(s, pos, length, total).value;
            exists last: nat :: && pos <= last < r.end
                                && total + (last - pos) < length
                                && DecodeNode(s, last) == Ok(Item(r.nodes[|r.nodes| - 1], r.end))
    decreases |s| - pos
  {
    var r := ReadDefinite(s, pos, length, total).value;
    var c := DecodeNode(s, pos).value;
    var rest := ReadDefinite(s, c.end, length, total + (c.end - pos)).value;
    assert r.nodes == [c.node] + rest.nodes && r.end == rest.end;
    if rest.nodes == [] {
      assert DecodeNode(s, pos) == Ok(Item(r.nodes[|r.nodes| - 1], r.end));
    } else {
      ReadDefiniteStops(s, c.end, length, total + (c.end - pos));
      var last: nat :| && c.end <= last < rest.end
                       && total + (c.end - pos) + (last - c.end) < length
                       && DecodeNode(s, last) == Ok(Item(rest.nodes[|rest.nodes| - 1], rest.end));
      assert r.nodes[|r.nodes| - 1] == rest.nodes[|rest.nodes| - 1];
    }
  }

  /** The indefinite-length loop ends with a node that passes the
      end-of-contents test: the last node it reads is the marker, and the
      read stops right after it. */
  lemma {:induction false} ReadUntilEndsAtMarker(s: seq<byte>, pos: nat)
    requires pos <= |s| && ReadUntilEndOfContents(s, pos).Ok?
    ensures var r := ReadUntilEndOfContents(s, pos).value;
            exists last: nat :: && pos <= last < r.end
                                && DecodeNode(s, last).Ok? && DecodeNode(s, last).value.Item?
                                && IsEndOfContents(DecodeNode(s, last).value.node)
                                && DecodeNode(s, last).value.end == r.end
    decreases |s| - pos
  {
    var r := ReadUntilEndOfContents(s, pos).value;
    var c := DecodeNode(s, pos).value;
    if IsEndOfContents(c.node) {
      assert DecodeNode(s, pos).value.end == r.end;
    } else {
      ReadUntilEndsAtMarker(s, c.end);
      assert r.end == ReadUntilEndOfContents(s, c.end).value.end;
    }
  }

  /** `input`: reads the next object from a fresh source, whose counter starts
      at zero; the end sentinel comes back exactly when the source is empty. */
  function Input(s: seq<byte>): (r: Result<Read, BerError>)
    ensures r == Ok(EndOfSource) <==> |s| == 0
    ensures r.Ok? && r.value.Item? ==> 2 <= r.value.end <= |s|
  {
    DecodeNode(s, 0)
  }
}

=== FILE: ber_encoding.dfy ===
/** Sizes and octets of a whole node: `init`, `encoding_get` and `i_get_head`
    (asn1/BEREncoding.java). A constructed node is written in the definite
    form, its contents being its components' encodings in order. */
module BerEncoding {
  import opened Results
  import opened Digits
  import opened BerNode
  import opened Octets
  import opened BerIdentifier
  import opened BerLength

  /** Octet count of the contents: the content octets of a primitive, the sum
      of the components' total lengths for a constructed node. */
  function ContentLength(n: Node): nat
    decreases n, 0
  {
    match n
    case Primitive(_, _, content) => |content|
    case Constructed(_, _, children) => SumTotal(children)
  }

  /** Sum of the total lengths of a sequence of nodes. */
  function SumTotal(ns: seq<Node>): nat
    decreases ns, 2
  {
    if |ns| == 0 then 0 else TotalLength(ns[0]) + SumTotal(ns[1..])
  }

  /** `total_length()`: identifier octets plus length octets plus contents. */
  function TotalLength(n: Node): nat
    decreases n, 1
  {
    IdentifierSize(n.tag) + LengthSize(ContentLength(n)) + ContentLength(n)
  }

  /** Every node takes at least two octets: one identifier and one length octet. */
  lemma {:induction false} TotalLengthAtLeastTwo(n: Node)
    ensures TotalLength(n) >= 2
  {
  }

  /** A node whose own and nested content lengths all fit a Java `int`, so
      that its length octets can be produced. */
  predicate Encodable(n: Node)
    decreases n
  {
    && ContentLength(n) <= Int32Max
    && (n.Constructed? ==> forall i :: 0 <= i < |n.children| ==> Encodable(n.children[i]))
  }

  /** The identifier octets of a node. */
  function IdentifierOctets(n: Node): seq<byte> {
    EncodeIdentifier(n.cls, n.Constructed?, n.tag)
  }

  /** The length octets of a node (definite form). */
  function LengthOctets(n: Node): seq<byte>
    requires ContentLength(n) <= Int32Max
  {
    EncodeLength(ContentLength(n))
  }

  /** The head octets and the contents add up to the total length. */
  lemma {:induction false} HeadSize(n: Node)
    requires ContentLength(n) <= Int32Max
    ensures |IdentifierOctets(n)| + |LengthOctets(n)| + ContentLength(n) == TotalLength(n)
  {
  }

  /** `encoding_get`: the identifier octets, then the length octets, then the
      contents; exactly `total_length` octets in all. */
  function Encoding(n: Node): (r: seq<byte>)
    requires Encodable(n)
    ensures |r| == TotalLength(n)
    decreases n, 1
  {
    var head := IdentifierOctets(n) + LengthOctets(n);
    match n
    case Primitive(_, _, content) => head + content
    case Constructed(_, _, children) => head + EncodeAll(children)
  }

  /** The encodings of a sequence of nodes, concatenated in order. */
  function EncodeAll(ns: seq<Node>): (r: seq<byte>)
    requires forall i :: 0 <= i < |ns| ==> Encodable(ns[i])
    ensures |r| == SumTotal(ns)
    decreases ns, 2
  {
    if |ns| == 0 then [] else Encoding(ns[0]) + EncodeAll(ns[1..])
  }

  /** The result of `init`: identifier octets, length octets and total length. */
  datatype Head = Head(identifier: seq<byte>, lengthOctets: seq<byte>, totalLength: int)

  /** `init`: builds the identifier and length octets and records the total
      length, which counts the given content length on top of both. */
  function Init(tagType: int, constructed: bool, tag: int, length: int): (r: Result<Head, BerError>)
    requires length <= Int32Max
    ensures r.Ok? <==> ClassFromBits(tagType).Some? && tag >= 0
    ensures r.Err? ==> r == MakeIdentifier(tagType, constructed, tag).PropagateFailure()
    ensures r.Ok? ==> && r.value.totalLength == |r.value.identifier| + |r.value.lengthOctets| + length
                      && |r.value.identifier| >= 1
                      && r.value.identifier[0] / 64 * 64 == tagType
                      && (length <= MaxBerSize ==>
                            DecodeLength(r.value.lengthOctets, 0) ==
                              Ok((if length < 0 then Indefinite else Definite(length), |r.value.lengthOctets|)))
  {
    var identifier :- MakeIdentifier(tagType, constructed, tag);
    var lengthOctets := EncodeLength(length);
    LengthOctetsDecode(length);
    Ok(Head(identifier, lengthOctets, |identifier| + |lengthOctets| + length))
  }

  lemma {:induction false} LengthOctetsDecode(length: int)
    requires length <= Int32Max
    ensures length <= MaxBerSize ==>
              DecodeLength(EncodeLength(length), 0) ==
                Ok((if length < 0 then Indefinite else Definite(length), |EncodeLength(length)|))
  {
    if length <= MaxBerSize {
      AtWhole(EncodeLength(length));
      DecodeEncodedLength(EncodeLength(length), 0, length);
    }
  }

  /** The total length a node reports is the one `init` computes from its tag
      and content length. */
  lemma {:induction false} InitMatchesNode(n: Node)
    requires ContentLength(n) <= Int32Max
    ensures Init(n.cls.Bits(), n.Constructed?, n.tag, ContentLength(n))
            == Ok(Head(IdentifierOctets(n), LengthOctets(n), TotalLength(n)))
  {
  }

  /** The `BERConstructed(tag_type, tag, parts)` constructor: fails exactly as
      `init` does on a bad tag type or a negative tag number. */
  function MakeConstructed(tagType: int, tag: int, parts: seq<Node>): (r: Result<Node, BerError>)
    ensures ClassFromBits(tagType).None? ==> r == Err(InvalidTagType)
    ensures ClassFromBits(tagType).Some? && tag < 0 ==> r == Err(NegativeTag)
    ensures r.Ok? ==> && r.value.Constructed?
                      && r.value.cls.Bits() == tagType
                      && r.value.tag == tag
                      && r.value.children == parts
  {
    match ClassFromBits(tagType)
    case None => Err(InvalidTagType)
    case Some(cls) => if tag < 0 then Err(NegativeTag) else Ok(Constructed(cls, tag, parts))
  }
}

=== FILE: ber_examples.dfy ===
/** Concrete octet strings and what the codec makes of them
    (asn1/BEREncoding.java): the encoders' boundary cases, a definite and an
    indefinite object, the two reader quirks, and the error boundaries. */
module BerExamples {
  import opened Results
  import opened Digits
  import opened Octets
  import opened BerNode
  import opened BerIdentifier
  import opened BerLength
  import opened BerEncoding
  import opened BerDecoder
  import opened BerRoundTrip
  import opened BerIndefinite

  /** `make_length` at the boundaries of its three forms. */
  lemma {:induction false} LengthForms()
    ensures EncodeLength(-1) == [0x80]
    ensures EncodeLength(0) == [0x00]
    ensures EncodeLength(127) == [0x7F]
    ensures EncodeLength(128) == [0x81, 0x80]
    ensures EncodeLength(256) == [0x82, 0x01, 0x00]
    ensures EncodeLength(MaxBerSize) == [0x83, 0x04, 0x00, 0x00]
  {
    assert OctetCount(128) == 1;
    assert OctetCount(256) == 2;
    assert OctetCount(MaxBerSize) == 3 by {
      assert OctetCount(MaxBerSize / 256) == 2;
    }
  }

  /** `make_identifier` at the low/high tag-number boundary. */
  lemma {:induction false} IdentifierForms()
    ensures EncodeIdentifier(ContextSpecific, false, 30) == [0x9E]
    ensures EncodeIdentifier(Universal, false, 31) == [0x1F, 0x1F]
    ensures EncodeIdentifier(ContextSpecific, true, 200) == [0xBF, 0x81, 0x48]
  {
    assert TagDigits(200, true) == TagDigits(1, false) + [72];
  }

  /** A short-form primitive: context tag 3, one content octet. */
  lemma {:induction false} ReadPrimitive()
    ensures Input([0x83, 0x01, 0x05]) == Ok(Item(Primitive(ContextSpecific, 3, [5]), 3))
  {
    var s: seq<byte> := [0x83, 0x01, 0x05];
    assert DecodeIdentifier(s, 0) == Ok((Identifier(ContextSpecific, false, 3), 1));
    assert DecodeLength(s, 1) == Ok((Definite(1), 2));
    assert ReadOctets(s, 2, 1) == [5];
  }

  /** An indefinite-length constructed node with one primitive component. */
  lemma {:induction false} ReadIndefinite()
    ensures Input([0xA0, 0x80, 0x82, 0x01, 0x05, 0x00, 0x00])
            == Ok(Item(Constructed(ContextSpecific, 0, [Primitive(ContextSpecific, 2, [5])]), 7))
  {
    var s: seq<byte> := [0xA0, 0x80, 0x82, 0x01, 0x05, 0x00, 0x00];
    var child := Primitive(ContextSpecific, 2, [5]);
    var n := Constructed(ContextSpecific, 0, [child]);
    assert Encoding(child) == [0x82, 0x01, 0x05] by {
      assert IdentifierOctets(child) == [0x82];
      assert LengthOctets(child) == [0x01];
    }
    assert EncodeAll([child]) == Encoding(child) + EncodeAll([]);
    assert IdentifierOctets(n) == [0xA0];
    assert Enclosable(n.children);
    assert IndefiniteEncoding(n) == s;
    AtWhole(s);
    IndefiniteDecoding(s, 0, n);
  }

  /** Definite-length overshoot is accepted: the component takes two octets
      where the length promised one, and the reader stops after it. */
  lemma {:induction false} OvershootAccepted()
    ensures Input([0x30, 0x01, 0x04, 0x00]) == Ok(Item(Constructed(Universal, 16, [Primitive(Universal, 4, [])]), 4))
  {
    var s: seq<byte> := [0x30, 0x01, 0x04, 0x00];
    OvershootHead(s);
    OvershootComponents(s);
    DefiniteStep(s, 2, Identifier(Universal, true, 16), 1, [Primitive(Universal, 4, [])], 4);
  }

  /** The head of OvershootAccepted: a constructed SEQUENCE of length one. */
  lemma {:induction false} OvershootHead(s: seq<byte>)
    requires s == [0x30, 0x01, 0x04, 0x00]
    ensures DecodeNode(s, 0) == DecodeContents(s, 2, Identifier(Universal, true, 16), Definite(1))
  {
    assert DecodeIdentifier(s, 0) == Ok((Identifier(Universal, true, 16), 1));
    assert DecodeLength(s, 1) == Ok((Definite(1), 2));
    HeadStep(s, 0, Identifier(Universal, true, 16), 1, Definite(1), 2);
  }

  /** The definite loop of OvershootAccepted: one two-octet component
      against a length of one. */
  lemma {:induction false} OvershootComponents(s: seq<byte>)
    requires s == [0x30, 0x01, 0x04, 0x00]
    ensures ReadDefinite(s, 2, 1, 0) == Ok(Components([Primitive(Universal, 4, [])], 4))
  {
    var child := Primitive(Universal, 4, []);
    assert DecodeIdentifier(s, 2) == Ok((Identifier(Universal, false, 4), 3));
    assert DecodeLength(s, 3) == Ok((Definite(0), 4));
    HeadStep(s, 2, Identifier(Universal, false, 4), 3, Definite(0), 4);
    PrimitiveStep(s, 4, Identifier(Universal, false, 4), 0, [], 4);
    ReadDefiniteDone(s, 4, 1, 2, [], 4);
    ReadDefiniteStep(s, 2, 1, 0, child, 4, 2, [], 4, [child], 4);
  }

  /** The end-of-contents test also stops at a constructed 0x20 0x00, which
      is not the marker section 8.1.5 defines. */
  lemma {:induction false} ConstructedMarkerAccepted()
    ensures Input([0x30, 0x80, 0x20, 0x00]) == Ok(Item(Constructed(Universal, 16, []), 4))
  {
    var s: seq<byte> := [0x30, 0x80, 0x20, 0x00];
    var marker := Constructed(Universal, 0, []);
    assert DecodeIdentifier(s, 2) == Ok((Identifier(Universal, true, 0), 3));
    assert DecodeLength(s, 3) == Ok((Definite(0), 4));
    ReadDefiniteDone(s, 4, 0, 0, [], 4);
    DefiniteStep(s, 4, Identifier(Universal, true, 0), 0, [], 4);
    HeadStep(s, 2, Identifier(Universal, true, 0), 3, Definite(0), 4);
    assert IsEndOfContents(marker);
    ReadUntilDone(s, 2, marker, 4);
    assert DecodeIdentifier(s, 0) == Ok((Identifier(Universal, true, 16), 1));
    assert DecodeLength(s, 1) == Ok((Indefinite, 2));
    HeadStep(s, 0, Identifier(Universal, true, 16), 1, Indefinite, 2);
    IndefiniteStep(s, 2, Identifier(Universal, true, 16), [], 4);
  }

  /** An empty source gives the end sentinel; a source that ends inside the
      identifier, the length or the contents is an error. */
  lemma {:induction false} EndsOfSource()
    ensures Input([]) == Ok(EndOfSource)
    ensures Input([0x04]) == Err(UnexpectedEnd)
    ensures Input([0x1F, 0x81]) == Err(UnexpectedEnd)
    ensures Input([0x04, 0x82, 0x01]) == Err(UnexpectedEnd)
    ensures Input([0x04, 0x02, 0x01]) == Err(UnexpectedEnd)
  {
    assert DecodeIdentifier([0x1F, 0x81], 0) == Err(UnexpectedEnd);
    assert DecodeIdentifier([0x04, 0x82, 0x01], 0) == Ok((Identifier(Universal, false, 4), 1));
    assert DecodeIdentifier([0x04, 0x02, 0x01], 0) == Ok((Identifier(Universal, false, 4), 1));
  }

  /** More than four length octets are refused as too long. */
  lemma {:induction false} TooManyLengthOctets()
    ensures Input([0x04, 0x85, 0, 0, 0, 0, 1]) == Err(TooLong)
  {
    assert DecodeIdentifier([0x04, 0x85, 0, 0, 0, 0, 1], 0) == Ok((Identifier(Universal, false, 4), 1));
  }

  /** Four length octets whose assembled `int` is negative are refused. */
  lemma {:induction false} NegativeLength()
    ensures Input([0x04, 0x84, 0xFF, 0xFF, 0xFF, 0xFF]) == Err(TooLong)
  {
    var s: seq<byte> := [0x04, 0x84, 0xFF, 0xFF, 0xFF, 0xFF];
    assert ReadLengthDigits(s, 2, 4, 0) == 0xFFFF_FFFF;
    assert DecodeLength(s, 1) == Err(TooLong);
    assert DecodeIdentifier(s, 0) == Ok((Identifier(Universal, false, 4), 1));
  }

  /** A length one above MAX_BER_SIZE is refused. */
  lemma {:induction false} LengthAboveMaximum()
    ensures Input([0x04, 0x83, 0x04, 0x00, 0x01]) == Err(TooLong)
  {
    var s: seq<byte> := [0x04, 0x83, 0x04, 0x00, 0x01];
    assert ReadLengthDigits(s, 2, 3, 0) == MaxBerSize + 1;
    assert DecodeLength(s, 1) == Err(TooLong);
    assert DecodeIdentifier(s, 0) == Ok((Identifier(Universal, false, 4), 1));
  }

  /** An indefinite length on a primitive is refused. */
  lemma {:induction false} PrimitiveIndefiniteRefused()
    ensures Input([0x04, 0x80, 0x00, 0x00]) == Err(CorruptedPrimitive)
  {
    assert DecodeIdentifier([0x04, 0x80, 0x00, 0x00], 0) == Ok((Identifier(Universal, false, 4), 1));
  }
}

=== FILE: ber_identifier.dfy ===
/** Identifier octets, section 8.1.2 of ITU-T X.690: `make_identifier` and the
    identifier part of `doInput` (asn1/BEREncoding.java). */
module BerIdentifier {
  import opened Results
  import opened Digits
  import opened BerNode
  import opened Octets

  /** The three things an identifier carries. */
  datatype Identifier = Identifier(cls: TagClass, constructed: bool, tag: nat)

  /** Subsequent identifier octets as section 8.1.2.4 lays them out: bit 8 set on
      every octet but the last, and the last with bit 8 clear. */
  predicate TagDigitsShape(ds: seq<byte>) {
    && |ds| >= 1
    && (forall i :: 0 <= i < |ds| - 1 ==> ds[i] >= 128)
    && ds[|ds| - 1] < 128
  }

  /** How many base-128 digits `tag` needs: the fewest that can hold it. */
  function TagDigitCount(tag: nat): (k: nat)
    ensures k >= 1
    decreases tag
  {
    if tag < 128 then 1 else 1 + TagDigitCount(tag / 128)
  }

  /** Number of identifier octets for a tag number. */
  function IdentifierSize(tag: nat): nat {
    if tag <= 30 then 1 else 1 + TagDigitCount(tag)
  }

  /** The base-128 digits of `tag`, most significant first, as few as possible;
      bit 8 is set on every digit except the final one of the whole numeral
      (`last` says whether this numeral ends the identifier). */
  function TagDigits(tag: nat, last: bool): (ds: seq<byte>)
    ensures |ds| == TagDigitCount(tag)
    decreases tag
  {
    var flag := if last then 0 else 128;
    if tag < 128 then [tag + flag]
    else TagDigits(tag / 128, false) + [tag % 128 + flag]
  }

  /** The digits TagDigits writes are worth `tag` in base 128, lead with a
      nonzero digit (no padding), and carry bit 8 exactly where section 8.1.2.4
      puts it. */
  lemma {:induction false} TagDigitsValue(tag: nat, last: bool)
    ensures var ds := TagDigits(tag, last);
            && ValueOf(128, 0, ds) == tag
            && (tag > 0 ==> ds[0] % 128 != 0)
            && (forall i :: 0 <= i < |ds| - 1 ==> ds[i] >= 128)
            && (ds[|ds| - 1] >= 128 <==> !last)
    decreases tag
  {
    var flag := if last then 0 else 128;
    if tag < 128 {
      SingleDigit(tag, flag);
    } else {
      TagDigitsValue(tag / 128, false);
      AppendDigit(tag, flag, TagDigits(tag / 128, false));
    }
  }

  lemma {:induction false} SingleDigit(tag: nat, flag: nat)
    requires tag < 128 && (flag == 0 || flag == 128)
    ensures ValueOf(128, 0, [tag + flag]) == tag
  {
    assert [tag + flag][1..] == [];
  }

  lemma {:induction false} AppendDigit(tag: nat, flag: nat, high: seq<byte>)
    requires tag >= 128 && (flag == 0 || flag == 128)
    requires |high| >= 1 && ValueOf(128, 0, high) == tag / 128 && high[0] % 128 != 0
    requires forall i :: 0 <= i < |high| ==> high[i] >= 128
    ensures var ds := high + [tag % 128 + flag];
            && ValueOf(128, 0, ds) == tag
            && ds[0] % 128 != 0
            && (forall i :: 0 <= i < |ds| - 1 ==> ds[i] >= 128)
            && (ds[|ds| - 1] >= 128 <==> flag == 128)
  {
    var d := tag % 128 + flag;
    assert d % 128 == tag % 128;
    ValueOfAppend(128, 0, high, d);
  }

  /** Identifier octets of a (class, form, tag number) triple. */
  function EncodeIdentifier(cls: TagClass, constructed: bool, tag: nat): (r: seq<byte>)
    ensures |r| == IdentifierSize(tag)
    ensures ClassOfOctet(r[0]) == cls
    ensures ConstructedBit(r[0]) == constructed
    ensures |r| == 1 <==> tag <= 30
    ensures tag <= 30 ==> r[0] % 32 == tag
    ensures tag > 30 ==> r[0] % 32 == 0x1F
  {
    var b := cls.Bits() + (if constructed then 0x20 else 0);
    ClassOfOctetInverse(cls, (if constructed then 0x20 else 0) + (if tag <= 30 then tag else 0x1F));
    if tag <= 30 then [b + tag] else [b + 0x1F] + TagDigits(tag, true)
  }

  /** The high-tag-number form: after the escape octet come the fewest
      base-128 digits of the tag number, bit 8 set on all but the last. */
  lemma {:induction false} EncodeIdentifierHighTag(cls: TagClass, constructed: bool, tag: nat)
    requires tag > 30
    ensures var r := EncodeIdentifier(cls, constructed, tag);
            && TagDigitsShape(r[1..])
            && r[1] % 128 != 0
            && ValueOf(128, 0, r[1..]) == tag
  {
    var r := EncodeIdentifier(cls, constructed, tag);
    var ds := TagDigits(tag, true);
    TagDigitsValue(tag, true);
    assert r[1..] == ds;
  }

  /** `make_identifier` on the source's integer arguments: the tag type must
      have no bit outside 0xC0 set and the tag number must not be negative. */
  function MakeIdentifier(tagType: int, constructed: bool, tag: int): (r: Result<seq<byte>, BerError>)
    ensures ClassFromBits(tagType).None? ==> r == Err(InvalidTagType)
    ensures ClassFromBits(tagType).Some? && tag < 0 ==> r == Err(NegativeTag)
    ensures r.Ok? <==> ClassFromBits(tagType).Some? && tag >= 0
    ensures r.Ok? ==> && |r.value| >= 1
                      && r.value[0] / 64 * 64 == tagType
                      && ConstructedBit(r.value[0]) == constructed
                      && DecodeIdentifier(r.value, 0) == Ok((Identifier(ClassOfOctet(r.value[0]), constructed, tag), |r.value|))
  {
    match ClassFromBits(tagType)
    case None => Err(InvalidTagType)
    case Some(cls) =>
      if tag < 0 then Err(NegativeTag)
      else
        var enc := EncodeIdentifier(cls, constructed, tag);
        AtWhole(enc);
        DecodeEncodedIdentifier(enc, 0, cls, constructed, tag);
        Ok(enc)
  }

  /** Reads the base-128 continuation octets of a high tag number from `pos`
      on, shifting each into `acc`; returns the tag number and the position
      after its final octet, the first one with bit 8 clear. */
  function ReadTagDigits(s: seq<byte>, pos: nat, acc: nat): (r: Result<(nat, nat), BerError>)
    requires pos <= |s|
    ensures r.Ok? ==> pos < r.value.1 <= |s| && s[r.value.1 - 1] < 128
    ensures r.Err? <==> forall i :: pos <= i < |s| ==> s[i] >= 128
    ensures r.Err? ==> r.error == UnexpectedEnd
    decreases |s| - pos
  {
    if pos == |s| then Err(UnexpectedEnd)
    else
      var tag := acc * 128 + s[pos] % 128;
      if s[pos] >= 128 then ReadTagDigits(s, pos + 1, tag)
      else Ok((tag, pos + 1))
  }

  /** What ReadTagDigits reads is a run of base-128 digits in the shape of
      section 8.1.2.4, and the tag number is their value. */
  lemma {:induction false} ReadTagDigitsShape(s: seq<byte>, pos: nat, acc: nat)
    requires pos <= |s| && ReadTagDigits(s, pos, acc).Ok?
    ensures var r := ReadTagDigits(s, pos, acc).value;
            && TagDigitsShape(s[pos..r.1])
            && r.0 == ValueOf(128, acc, s[pos..r.1])
    decreases |s| - pos
  {
    var r := ReadTagDigits(s, pos, acc).value;
    if s[pos] >= 128 {
      ReadTagDigitsShape(s, pos + 1, acc * 128 + s[pos] % 128);
      assert s[pos..r.1][1..] == s[pos + 1..r.1];
    } else {
      assert s[pos..r.1][1..] == [];
    }
  }

  /** The identifier part of `doInput`, reading from `pos`: the first octet
      gives the class, the form and either the tag number or the escape 0x1F
      announcing base-128 digits. Returns the identifier and the position
      after its last octet. */
  function DecodeIdentifier(s: seq<byte>, pos: nat): (r: Result<(Identifier, nat), BerError>)
    requires pos < |s|
    ensures r.Ok? ==> && pos < r.value.1 <= |s|
                      && r.value.0.cls == ClassOfOctet(s[pos])
                      && r.value.0.constructed == ConstructedBit(s[pos])
    ensures r.Ok? && s[pos] % 32 != 0x1F ==> r.value.1 == pos + 1 && r.value.0.tag == s[pos] % 32
    ensures r.Err? <==> s[pos] % 32 == 0x1F && forall i :: pos < i < |s| ==> s[i] >= 128
    ensures r.Err? ==> r.error == UnexpectedEnd
  {
    var first := s[pos];
    var cls := ClassOfOctet(first);
    var cons := ConstructedBit(first);
    if first % 32 == 0x1F then
      var t :- ReadTagDigits(s, pos + 1, 0);
      Ok((Identifier(cls, cons, t.0), t.1))
    else
      Ok((Identifier(cls, cons, first % 32), pos + 1))
  }

  /** The high-tag-number form: the octets after the escape are a run of
      base-128 digits and the tag number is their value. */
  lemma {:induction false} DecodeIdentifierHighTag(s: seq<byte>, pos: nat)
    requires pos < |s| && s[pos] % 32 == 0x1F && DecodeIdentifier(s, pos).Ok?
    ensures var r := DecodeIdentifier(s, pos).value;
            && TagDigitsShape(s[pos + 1..r.1])
            && r.0.tag == ValueOf(128, 0, s[pos + 1..r.1])
  {
    ReadTagDigitsShape(s, pos + 1, 0);
  }

  /** A well-formed run of base-128 digits is read to its final octet and no further. */
  lemma {:induction false} ReadTagDigitsExact(s: seq<byte>, pos: nat, ds: seq<byte>, acc: nat)
    requires TagDigitsShape(ds) && At(s, pos, ds)
    ensures ReadTagDigits(s, pos, acc) == Ok((ValueOf(128, acc, ds), pos + |ds|))
    decreases |ds|
  {
    AtFirst(s, pos, ds);
    if |ds| == 1 {
      assert ds[0] < 128;
      assert ds[1..] == [];
    } else {
      assert ds[0] >= 128;
      assert TagDigitsShape(ds[1..]);
      ReadTagDigitsExact(s, pos + 1, ds[1..], acc * 128 + ds[0] % 128);
    }
  }

  /** Decoding the identifier octets of a triple recovers the triple and
      stops right after those octets, whatever follows them. */
  lemma {:induction false} DecodeEncodedIdentifier(s: seq<byte>, pos: nat, cls: TagClass, constructed: bool, tag: nat)
    requires At(s, pos, EncodeIdentifier(cls, constructed, tag))
    ensures pos < |s|
    ensures DecodeIdentifier(s, pos) == Ok((Identifier(cls, constructed, tag), pos + |EncodeIdentifier(cls, constructed, tag)|))
  {
    var enc := EncodeIdentifier(cls, constructed, tag);
    AtFirst(s, pos, enc);
    if tag > 30 {
      EncodeIdentifierHighTag(cls, constructed, tag);
      ReadTagDigitsExact(s, pos + 1, enc[1..], 0);
    }
  }
}

=== FILE: ber_indefinite.dfy ===
/** The indefinite-length form of a constructed node (section 8.1.3.6 of
    ITU-T X.690): the length octet 0x80, the components, then the two
    end-of-contents octets of section 8.1.5. `doInput` reads it back as the
    same node, the marker dropped (asn1/BEREncoding.java). */
module BerIndefinite {
  import opened Results
  import opened Digits
  import opened Octets
  import opened BerNode
  import opened BerIdentifier
  import opened BerLength
  import opened BerEncoding
  import opened BerDecoder
  import opened BerRoundTrip

  /** The end-of-contents octets 0x00 0x00, as the node the reader sees. */
  const EndOfContentsMarker: Node := Primitive(Universal, 0, [])

  /** Components that the reader can take back, none of which looks like the
      end-of-contents marker to the test of `doInput`. */
  predicate Enclosable(ns: seq<Node>) {
    forall i :: 0 <= i < |ns| ==> Decodable(ns[i]) && Encodable(ns[i]) && !IsEndOfContents(ns[i])
  }

  /** A constructed node written in the indefinite form. */
  function IndefiniteEncoding(n: Node): (r: seq<byte>)
    requires n.Constructed? && Enclosable(n.children)
    ensures |r| == IdentifierSize(n.tag) + 1 + SumTotal(n.children) + 2
  {
    IdentifierOctets(n) + [0x80] + EncodeAll(n.children) + [0, 0]
  }

  /** The marker is written as two zero octets and passes the reader's test. */
  lemma {:induction false} EndOfContentsOctets()
    ensures Encodable(EndOfContentsMarker) && Decodable(EndOfContentsMarker)
    ensures Encoding(EndOfContentsMarker) == [0, 0]
    ensures IsEndOfContents(EndOfContentsMarker)
  {
    assert IdentifierOctets(EndOfContentsMarker) == [0];
    assert LengthOctets(EndOfContentsMarker) == [0];
  }

  /** The indefinite loop reads back every component of a list of encodings
      and then consumes the end-of-contents octets behind them. */
  lemma {:induction false} ReadComponentsToMarker(s: seq<byte>, pos: nat, ns: seq<Node>)
    requires Enclosable(ns)
    requires At(s, pos, EncodeAll(ns)) && At(s, pos + SumTotal(ns), [0, 0])
    ensures pos + SumTotal(ns) + 2 <= |s|
    ensures ReadUntilEndOfContents(s, pos) == Ok(Components(ns, pos + SumTotal(ns) + 2))
    decreases ns
  {
    if |ns| > 0 {
      ReadComponentFirst(s, pos, ns);
    } else {
      EndOfContentsOctets();
      DecodeEncoding(s, pos, EndOfContentsMarker);
      ReadUntilDone(s, pos, EndOfContentsMarker, pos + 2);
    }
  }

  /** ReadComponentsToMarker for a nonempty list: the first component, then the rest. */
  lemma {:induction false} ReadComponentFirst(s: seq<byte>, pos: nat, ns: seq<Node>)
    requires |ns| > 0 && Enclosable(ns)
    requires At(s, pos, EncodeAll(ns)) && At(s, pos + SumTotal(ns), [0, 0])
    ensures pos + SumTotal(ns) + 2 <= |s|
    ensures ReadUntilEndOfContents(s, pos) == Ok(Components(ns, pos + SumTotal(ns) + 2))
    decreases ns, 0
  {
    var next := pos + TotalLength(ns[0]);
    var end := next + SumTotal(ns[1..]) + 2;
    assert && end == pos + SumTotal(ns) + 2 && next <= end <= |s|
           && ReadUntilEndOfContents(s, next) == Ok(Components(ns[1..], end)) by {
      TailAt(s, pos, ns);
      ReadComponentsToMarker(s, next, ns[1..]);
    }
    ReadFirstComponent(s, pos, ns, next, end);
  }

  /** The rest of an enclosed list sits right behind its first component. */
  lemma {:induction false} TailAt(s: seq<byte>, pos: nat, ns: seq<Node>)
    requires |ns| > 0 && Enclosable(ns)
    requires At(s, pos, EncodeAll(ns)) && At(s, pos + SumTotal(ns), [0, 0])
    ensures Enclosable(ns[1..]) && At(s, pos + TotalLength(ns[0]), EncodeAll(ns[1..]))
    ensures At(s, pos + TotalLength(ns[0]) + SumTotal(ns[1..]), [0, 0])
    ensures SumTotal(ns) == TotalLength(ns[0]) + SumTotal(ns[1..])
  {
    EnclosableTail(ns);
    EncodeAllAt(s, pos, ns);
  }

  /** Once the rest of an enclosed list is read up to the marker, so is the
      whole list: its first component is read back from its encoding. */
  lemma {:induction false} ReadFirstComponent(s: seq<byte>, pos: nat, ns: seq<Node>, next: nat, end: nat)
    requires |ns| > 0 && Enclosable(ns) && At(s, pos, EncodeAll(ns))
    requires next == pos + TotalLength(ns[0]) && next <= |s|
    requires ReadUntilEndOfContents(s, next) == Ok(Components(ns[1..], end))
    ensures ReadUntilEndOfContents(s, pos) == Ok(Components(ns, end))
  {
    EnclosableTail(ns);
    FirstDecodes(s, pos, ns);
    ReadUntilStep(s, pos, ns[0], pos + TotalLength(ns[0]), ns[1..], end, ns);
  }

  /** The head of an enclosable list can be read back, and its tail is enclosable. */
  lemma {:induction false} EnclosableTail(ns: seq<Node>)
    requires |ns| > 0 && Enclosable(ns)
    ensures Decodable(ns[0]) && Encodable(ns[0]) && !IsEndOfContents(ns[0])
    ensures Enclosable(ns[1..])
  {
    forall i | 0 <= i < |ns[1..]|
      ensures Decodable(ns[1..][i]) && Encodable(ns[1..][i]) && !IsEndOfContents(ns[1..][i])
    {
      assert ns[1..][i] == ns[i + 1];
    }
  }

  /** The four parts of an indefinite-length encoding, each at its own position. */
  lemma {:induction false} IndefiniteAt(s: seq<byte>, pos: nat, n: Node)
    requires n.Constructed? && Enclosable(n.children) && At(s, pos, IndefiniteEncoding(n))
    ensures var id := IdentifierOctets(n);
            && At(s, pos, id)
            && At(s, pos + |id|, [0x80])
            && At(s, pos + |id| + 1, EncodeAll(n.children))
            && At(s, pos + |id| + 1 + SumTotal(n.children), [0, 0])
  {
    var id := IdentifierOctets(n);
    var body := EncodeAll(n.children);
    AtAppend(s, pos, id + [0x80] + body, [0, 0]);
    AtAppend(s, pos, id + [0x80], body);
    AtAppend(s, pos, id, [0x80]);
  }

  /** Reading a constructed node's indefinite-length encoding gives the node
      back, its components in order and the marker dropped, and stops right
      after the marker. */
  lemma {:induction false} IndefiniteDecoding(s: seq<byte>, pos: nat, n: Node)
    requires n.Constructed? && Enclosable(n.children) && At(s, pos, IndefiniteEncoding(n))
    ensures pos + |IndefiniteEncoding(n)| <= |s|
    ensures DecodeNode(s, pos) == Ok(Item(n, pos + |IndefiniteEncoding(n)|))
  {
    var at := pos + |IdentifierOctets(n)| + 1;
    var end := at + SumTotal(n.children) + 2;
    assert end == pos + |IndefiniteEncoding(n)|;
    assert ReadUntilEndOfContents(s, at) == Ok(Components(n.children, end)) && end <= |s| by {
      IndefiniteAt(s, pos, n);
      ReadComponentsToMarker(s, at, n.children);
    }
    IndefiniteHead(s, pos, n);
    IndefiniteNodeStep(s, pos, at, n, end);
  }

  /** A constructed node whose head leads to indefinite contents, and whose
      contents read back as its children, is read back whole. */
  lemma {:induction false} IndefiniteNodeStep(s: seq<byte>, pos: nat, at: nat, n: Node, end: nat)
    requires n.Constructed? && pos <= at <= |s|
    requires DecodeNode(s, pos) == DecodeContents(s, at, Identifier(n.cls, true, n.tag), Indefinite)
    requires ReadUntilEndOfContents(s, at) == Ok(Components(n.children, end))
    ensures DecodeNode(s, pos) == Ok(Item(n, end))
  {
    IndefiniteStep(s, at, Identifier(n.cls, true, n.tag), n.children, end);
  }

  /** The identifier octets and the length octet 0x80 of an indefinite
      encoding lead the reader to its components. */
  lemma {:induction false} IndefiniteHead(s: seq<byte>, pos: nat, n: Node)
    requires n.Constructed? && Enclosable(n.children) && At(s, pos, IndefiniteEncoding(n))
    ensures pos + |IdentifierOctets(n)| + 1 <= |s|
    ensures DecodeNode(s, pos) == DecodeContents(s, pos + |IdentifierOctets(n)| + 1, Identifier(n.cls, true, n.tag), Indefinite)
  {
    var p1 := pos + |IdentifierOctets(n)|;
    IndefiniteHeadOctets(s, pos, n);
    HeadStep(s, pos, Identifier(n.cls, true, n.tag), p1, Indefinite, p1 + 1);
  }

  /** The head octets of an indefinite encoding decode to the node's
      identifier and the indefinite length. */
  lemma {:induction false} IndefiniteHeadOctets(s: seq<byte>, pos: nat, n: Node)
    requires n.Constructed? && Enclosable(n.children) && At(s, pos, IndefiniteEncoding(n))
    ensures var p1 := pos + |IdentifierOctets(n)|;
            && pos < p1 < |s|
            && DecodeIdentifier(s, pos) == Ok((Identifier(n.cls, true, n.tag), p1))
            && DecodeLength(s, p1) == Ok((Indefinite, p1 + 1))
  {
    IndefiniteAt(s, pos, n);
    DecodeEncodedIdentifier(s, pos, n.cls, true, n.tag);
    DecodeEncodedLength(s, pos + |IdentifierOctets(n)|, -1);
  }
}

=== FILE: ber_length.dfy ===
/** Length octets, section 8.1.3 of ITU-T X.690: `make_length` and the length
    part of `doInput` (asn1/BEREncoding.java). */
module BerLength {
  import opened Results
  import opened Digits
  import opened BerNode
  import opened Octets

  /** A decoded length: a definite octet count, or the indefinite form whose
      contents end with an end-of-contents marker (the source's -1). */
  datatype Length = Definite(n: nat) | Indefinite

  /** How many base-256 digits `n` needs: the fewest that can hold it. */
  function OctetCount(n: nat): (k: nat)
    ensures k >= 1 && n < Pow(256, k)
    ensures k > 1 ==> Pow(256, k - 1) <= n
    decreases n
  {
    if n < 256 then 1
    else
      var k := 1 + OctetCount(n / 256);
      assert n / 256 < Pow(256, k - 1);
      assert k - 1 > 1 ==> Pow(256, k - 2) <= n / 256;
      k
  }

  /** The low `count` base-256 digits of `n`, most significant first. */
  function BigEndian(n: nat, count: nat): (r: seq<byte>)
    ensures |r| == count
    decreases count
  {
    if count == 0 then [] else BigEndian(n / 256, count - 1) + [n % 256]
  }

  /** When `count` digits can hold `n`, BigEndian loses nothing: the digits
      are worth `n` again. */
  lemma {:induction false} BigEndianValue(n: nat, count: nat)
    requires n < Pow(256, count)
    ensures ValueOf(256, 0, BigEndian(n, count)) == n
    decreases count
  {
    if count > 0 {
      assert n / 256 < Pow(256, count - 1);
      BigEndianValue(n / 256, count - 1);
      ValueOfAppend(256, 0, BigEndian(n / 256, count - 1), n % 256);
    }
  }

  /** Number of length octets for a definite length. */
  function LengthSize(length: nat): nat {
    if length < 128 then 1 else 1 + OctetCount(length)
  }

  /** Length octets of `make_length`; a negative length asks for the indefinite
      form. The argument is a Java `int`. */
  function EncodeLength(length: int): (r: seq<byte>)
    requires length <= Int32Max
    ensures length < 0 ==> r == [0x80]
    ensures 0 <= length < 128 ==> r == [length]
    ensures length >= 128 ==> && 2 <= |r| <= 5
                              && r[0] == 0x80 + (|r| - 1)
                              && |r| - 1 == OctetCount(length)
    ensures length >= 0 ==> |r| == LengthSize(length)
  {
    if length < 0 then [0x80]
    else if length < 128 then [length]
    else
      var count := OctetCount(length);
      CountOfInt(length);
      [0x80 + count] + BigEndian(length, count)
  }

  /** The long form: after the count octet come the fewest base-256 digits
      of the length, most significant first. */
  lemma {:induction false} EncodeLengthLongForm(length: int)
    requires 128 <= length <= Int32Max
    ensures ValueOf(256, 0, EncodeLength(length)[1..]) == length
  {
    var count := OctetCount(length);
    BigEndianValue(length, count);
    assert EncodeLength(length)[1..] == BigEndian(length, count);
  }

  /** A Java `int` never needs more than four length octets. */
  lemma {:induction false} CountOfInt(n: nat)
    requires n <= Int32Max
    ensures OctetCount(n) <= 4
  {
    var k := OctetCount(n);
    assert Pow(256, 4) == 0x1_0000_0000;
    if k > 4 {
      PowMonotone(256, 4, k - 1);
    }
  }

  /** The signed 32-bit value of a 32-bit pattern, as Java's `int` holds it. */
  function ToInt32(v: nat): (i: int)
    requires v < 0x1_0000_0000
    ensures -0x8000_0000 <= i <= Int32Max
    ensures (v - i) % 0x1_0000_0000 == 0
  {
    if v <= Int32Max then v else v - 0x1_0000_0000
  }

  /** The long-form loop of `doInput`: shifts the next `count` octets from
      `pos` on into `acc`, most significant first. */
  function ReadLengthDigits(s: seq<byte>, pos: nat, count: nat, acc: nat): (v: nat)
    requires pos + count <= |s|
    decreases count
  {
    if count == 0 then acc else ReadLengthDigits(s, pos + 1, count - 1, acc * 256 + s[pos])
  }

  /** The long-form loop computes the base-256 value of the octets it reads. */
  lemma {:induction false} ReadLengthDigitsValue(s: seq<byte>, pos: nat, count: nat, acc: nat)
    requires pos + count <= |s|
    ensures ReadLengthDigits(s, pos, count, acc) == ValueOf(256, acc, s[pos..pos + count])
    decreases count
  {
    if count > 0 {
      ReadLengthDigitsValue(s, pos + 1, count - 1, acc * 256 + s[pos]);
      assert s[pos..pos + count][1..] == s[pos + 1..pos + 1 + (count - 1)];
    }
  }

  /** At most four long-form octets assemble a value below 2^32, a pattern of
      Java's 32-bit `int`. */
  lemma {:induction false} LengthDigitsBound(s: seq<byte>, pos: nat, count: nat)
    requires pos + count <= |s| && count <= 4
    ensures ReadLengthDigits(s, pos, count, 0) < 0x1_0000_0000
  {
    ReadLengthDigitsValue(s, pos, count, 0);
    ValueOfBound(256, s[pos..pos + count]);
    PowMonotone(256, count, 4);
    assert Pow(256, 4) == 0x1_0000_0000;
  }

  /** The length part of `doInput`, reading from `pos`. Returns the length and
      the position after the length octets. Up to four long-form octets are
      accepted, and the assembled value must lie between 0 and MAX_BER_SIZE. */
  function DecodeLength(s: seq<byte>, pos: nat): (r: Result<(Length, nat), BerError>)
    requires pos <= |s|
    ensures pos == |s| ==> r == Err(UnexpectedEnd)
    ensures r.Ok? ==> pos < r.value.1 <= |s| && r.value.1 <= pos + 5
    ensures r.Ok? ==> (r.value.0 == Indefinite <==> s[pos] == 0x80)
    ensures r.Ok? && r.value.0.Definite? ==> r.value.0.n <= MaxBerSize
    ensures pos < |s| && s[pos] < 0x80 ==> r == Ok((Definite(s[pos]), pos + 1))
    ensures pos < |s| && s[pos] > 0x84 ==> r == Err(TooLong)
    ensures pos < |s| && 0x80 < s[pos] <= 0x84 && |s| < pos + 1 + (s[pos] - 0x80) ==> r == Err(UnexpectedEnd)
  {
    if pos == |s| then Err(UnexpectedEnd)
    else if s[pos] < 0x80 then Ok((Definite(s[pos]), pos + 1))
    else if s[pos] == 0x80 then Ok((Indefinite, pos + 1))
    else
      var count := s[pos] % 0x80;
      if 4 < count then Err(TooLong)
      else if |s| < pos + 1 + count then Err(UnexpectedEnd)
      else
        LengthDigitsBound(s, pos + 1, count);
        var length := ToInt32(ReadLengthDigits(s, pos + 1, count, 0));
        if length < 0 || MaxBerSize < length then Err(TooLong)
        else Ok((Definite(length), pos + 1 + count))
  }

  /** The long form in full: the count octet 0x81..0x84 announces that many
      base-256 digits, whose value is the length when it is at most
      MAX_BER_SIZE; a larger value, or one whose top bit makes the Java `int`
      negative, is refused as too long. */
  lemma {:induction false} DecodeLengthLongForm(s: seq<byte>, pos: nat)
    requires pos < |s| && 0x80 < s[pos] <= 0x84 && pos + 1 + (s[pos] - 0x80) <= |s|
    ensures var end := pos + 1 + (s[pos] - 0x80);
            var v := ValueOf(256, 0, s[pos + 1..end]);
            DecodeLength(s, pos) == if v <= MaxBerSize then Ok((Definite(v), end)) else Err(TooLong)
  {
    var count := s[pos] - 0x80;
    assert count == s[pos] % 0x80;
    ReadLengthDigitsValue(s, pos + 1, count, 0);
    LengthDigitsBound(s, pos + 1, count);
    var v := ReadLengthDigits(s, pos + 1, count, 0);
    assert v <= MaxBerSize ==> ToInt32(v) == v;
    assert MaxBerSize < v ==> ToInt32(v) < 0 || MaxBerSize < ToInt32(v);
  }

  /** Decoding the length octets of a definite length the decoder accepts
      recovers it and stops right after those octets; the indefinite form is
      recognised as such. */
  lemma {:induction false} DecodeEncodedLength(s: seq<byte>, pos: nat, length: int)
    requires length <= MaxBerSize && At(s, pos, EncodeLength(length))
    ensures pos + |EncodeLength(length)| <= |s|
    ensures DecodeLength(s, pos) == Ok((if length < 0 then Indefinite else Definite(length), pos + |EncodeLength(length)|))
  {
    var enc := EncodeLength(length);
    AtFirst(s, pos, enc);
    if length >= 128 {
      EncodeLengthLongForm(length);
      AtSlice(s, pos + 1, enc[1..]);
      DecodeLengthLongForm(s, pos);
    }
  }
}

=== FILE: ber_node.dfy ===
/** The TLV value of the Basic Encoding Rules (ITU-T X.690, ISO/IEC 8825-1):
    tag classes, the two node variants, the codec's error kinds and its
    constants (asn1/BEREncoding.java). */
module BerNode {
  import opened Results
  import opened Digits

  /** Bit patterns of the four tag classes in bits 8 and 7 of the first
      identifier octet (UNIVERSAL_TAG .. PRIVATE_TAG). */
  const UniversalBits: byte := 0x00
  const ApplicationBits: byte := 0x40
  const ContextSpecificBits: byte := 0x80
  const PrivateBits: byte := 0xC0

  /** Largest definite length the decoder accepts from a long-form length (MAX_BER_SIZE). */
  const MaxBerSize: nat := 65536 * 4

  /** Largest value of a Java `int`. */
  const Int32Max: nat := 0x7FFF_FFFF

  datatype TagClass = Universal | Application | ContextSpecific | Private {

    /** The class's bit pattern in an identifier octet. */
    function Bits(): byte {
      match this
      case Universal => UniversalBits
      case Application => ApplicationBits
      case ContextSpecific => ContextSpecificBits
      case Private => PrivateBits
    }
  }

  /** The tag class named by an integer `tag_type`; absent when the integer has
      any bit outside 0xC0 set, which is exactly when the source rejects it. */
  function ClassFromBits(tagType: int): (c: Option<TagClass>)
    ensures c.Some? <==> tagType in {0x00, 0x40, 0x80, 0xC0}
    ensures c.Some? ==> c.value.Bits() == tagType
  {
    if tagType == UniversalBits then Some(Universal)
    else if tagType == ApplicationBits then Some(Application)
    else if tagType == ContextSpecificBits then Some(ContextSpecific)
    else if tagType == PrivateBits then Some(Private)
    else None
  }

  /** The class encoded by bits 8 and 7 of an identifier octet (`octet & 0xC0`). */
  function ClassOfOctet(octet: byte): (c: TagClass)
    ensures c.Bits() == octet / 64 * 64
  {
    var bits := octet / 64 * 64;
    if bits == UniversalBits then Universal
    else if bits == ApplicationBits then Application
    else if bits == ContextSpecificBits then ContextSpecific
    else Private
  }

  /** An octet whose bits 8 and 7 are a class's pattern is read back as that class. */
  lemma {:induction false} ClassOfOctetInverse(c: TagClass, low: nat)
    requires low < 64
    ensures ClassOfOctet(c.Bits() + low) == c
  {
  }

  /** Bit 6 of an identifier octet: set for a constructed encoding. */
  predicate ConstructedBit(octet: byte) {
    octet / 32 % 2 == 1
  }

  /** A decoded or constructed BER object. A primitive carries its content
      octets verbatim; a constructed one carries its components in order. */
  datatype Node =
    | Primitive(cls: TagClass, tag: nat, content: seq<byte>)
    | Constructed(cls: TagClass, tag: nat, children: seq<Node>)

  /** The failures the codec raises (ASN1Exception and ASN1EncodingException). */
  datatype BerError =
    | InvalidTagType        // "Invalid ASN.1 tag type"
    | NegativeTag           // "ASN.1 tag value is negative"
    | UnexpectedEnd         // "Unexpected end in BER encoding"
    | TooLong               // "BER encoding too long"
    | CorruptedPrimitive    // "BER encoding corrupted primitive"
}

=== FILE: ber_prefix.dfy ===
/** The reader never looks past the last octet of what it returns
    (asn1/BEREncoding.java): a node read from a source is read the same from
    any longer source that starts with it. So a source cut short anywhere
    inside a node's encoding, definite or indefinite, is an error. */
module BerPrefix {
  import opened Results
  import opened Digits
  import opened Octets
  import opened BerNode
  import opened BerIdentifier
  import opened BerLength
  import opened BerEncoding
  import opened BerDecoder
  import opened BerRoundTrip
  import opened BerIndefinite

  /** The base-128 tag digits stop at the first octet with bit 8 clear. */
  lemma {:induction false} TagDigitsExtend(s: seq<byte>, t: seq<byte>, pos: nat, acc: nat)
    requires s <= t && pos <= |s| && ReadTagDigits(s, pos, acc).Ok?
    ensures ReadTagDigits(t, pos, acc) == ReadTagDigits(s, pos, acc)
    decreases |s| - pos
  {
    assert t[pos] == s[pos];
    if s[pos] >= 128 {
      TagDigitsExtend(s, t, pos + 1, acc * 128 + s[pos] % 128);
    }
  }

  /** The identifier octets are read the same from a longer source. */
  lemma {:induction false} IdentifierExtends(s: seq<byte>, t: seq<byte>, pos: nat)
    requires s <= t && pos < |s| && DecodeIdentifier(s, pos).Ok?
    ensures DecodeIdentifier(t, pos) == DecodeIdentifier(s, pos)
  {
    assert t[pos] == s[pos];
    if s[pos] % 32 == 0x1F {
      TagDigitsExtend(s, t, pos + 1, 0);
    }
  }

  /** The long-form digits lie inside the shorter source. */
  lemma {:induction false} LengthDigitsExtend(s: seq<byte>, t: seq<byte>, pos: nat, count: nat, acc: nat)
    requires s <= t && pos + count <= |s|
    ensures ReadLengthDigits(t, pos, count, acc) == ReadLengthDigits(s, pos, count, acc)
    decreases count
  {
    if count > 0 {
      assert t[pos] == s[pos];
      LengthDigitsExtend(s, t, pos + 1, count - 1, acc * 256 + s[pos]);
    }
  }

  /** The length octets are read the same from a longer source. */
  lemma {:induction false} LengthExtends(s: seq<byte>, t: seq<byte>, pos: nat)
    requires s <= t && pos <= |s| && DecodeLength(s, pos).Ok?
    ensures DecodeLength(t, pos) == DecodeLength(s, pos)
  {
    assert t[pos] == s[pos];
    if 0x80 < s[pos] {
      var count := s[pos] % 0x80;
      LengthDigitsExtend(s, t, pos + 1, count, 0);
    }
  }

  /** A node read from `s` is read the same, and ends at the same position,
      from any source that starts with `s`. */
  lemma {:induction false} NodeExtends(s: seq<byte>, t: seq<byte>, pos: nat)
    requires s <= t && pos <= |s|
    requires DecodeNode(s, pos).Ok? && DecodeNode(s, pos).value.Item?
    ensures DecodeNode(t, pos) == DecodeNode(s, pos)
    decreases |s| - pos, 0
  {
    var id := DecodeIdentifier(s, pos).value;
    IdentifierExtends(s, t, pos);
    var len := DecodeLength(s, id.1).value;
    LengthExtends(s, t, id.1);
    ContentsExtends(s, t, len.1, id.0, len.0);
  }

  /** The contents of a node are read the same from a longer source. */
  lemma {:induction false} ContentsExtends(s: seq<byte>, t: seq<byte>, at: nat, ident: Identifier, length: Length)
    requires s <= t && at <= |s| && DecodeContents(s, at, ident, length).Ok?
    ensures DecodeContents(t, at, ident, length) == DecodeContents(s, at, ident, length)
    decreases |s| - at, 2
  {
    match length
    case Indefinite =>
      UntilExtends(s, t, at);
    case Definite(n) =>
      if !ident.constructed {
        assert t[at..at + n] == s[at..at + n];
      } else {
        DefiniteExtends(s, t, at, n, 0);
      }
  }

  /** The definite-length loop reads the same components from a longer source. */
  lemma {:induction false} DefiniteExtends(s: seq<byte>, t: seq<byte>, pos: nat, length: nat, total: nat)
    requires s <= t && pos <= |s| && ReadDefinite(s, pos, length, total).Ok?
    ensures ReadDefinite(t, pos, length, total) == ReadDefinite(s, pos, length, total)
    decreases |s| - pos, 1
  {
    if total < length {
      var c := DecodeNode(s, pos).value;
      var nextTotal := total + (c.end - pos);
      var rest := ReadDefinite(s, c.end, length, nextTotal).value;
      NodeExtends(s, t, pos);
      DefiniteExtends(s, t, c.end, length, nextTotal);
      var all := [c.node] + rest.nodes;
      ReadDefiniteStep(s, pos, length, total, c.node, c.end, nextTotal, rest.nodes, rest.end, all, rest.end);
      ReadDefiniteStep(t, pos, length, total, c.node, c.end, nextTotal, rest.nodes, rest.end, all, rest.end);
    }
  }

  /** The indefinite-length loop reads the same components from a longer source. */
  lemma {:induction false} UntilExtends(s: seq<byte>, t: seq<byte>, pos: nat)
    requires s <= t && pos <= |s| && ReadUntilEndOfContents(s, pos).Ok?
    ensures ReadUntilEndOfContents(t, pos) == ReadUntilEndOfContents(s, pos)
    decreases |s| - pos, 1
  {
    var c := DecodeNode(s, pos).value;
    NodeExtends(s, t, pos);
    if !IsEndOfContents(c.node) {
      UntilExtends(s, t, c.end);
    }
  }

  /** A source cut short anywhere inside a node's definite encoding is an
      error: `input` on a proper, nonempty prefix never yields a node. */
  lemma {:induction false} Truncated(n: Node, k: nat)
    requires Decodable(n) && Encodable(n) && 0 < k < TotalLength(n)
    ensures Input(Encoding(n)[..k]).Err?
  {
    var e := Encoding(n);
    AtFront(e, []);
    assert e + [] == e;
    DecodeEncoding(e, 0, n);
    var s := e[..k];
    if Input(s).Ok? {
      assert Input(s).value.Item?;
      NodeExtends(s, e, 0);
      assert false;
    }
  }

  /** The same for the indefinite form: a nonempty proper prefix of it,
      the end-of-contents octets cut off in part or in full, is an error. */
  lemma {:induction false} TruncatedIndefinite(n: Node, k: nat)
    requires n.Constructed? && Enclosable(n.children) && 0 < k < |IndefiniteEncoding(n)|
    ensures Input(IndefiniteEncoding(n)[..k]).Err?
  {
    var e := IndefiniteEncoding(n);
    AtFront(e, []);
    assert e + [] == e;
    IndefiniteDecoding(e, 0, n);
    var s := e[..k];
    if Input(s).Ok? {
      assert Input(s).value.Item?;
      NodeExtends(s, e, 0);
      assert false;
    }
  }
}

=== FILE: ber_roundtrip.dfy ===
/** What the reader and the writer promise each other: decoding a node's
    definite encoding gives the node back, the indefinite form decodes to the
    same node without its end-of-contents marker (asn1/BEREncoding.java).
    That a source cut short inside an object is an error is
    BerPrefix.Truncated. */
module BerRoundTrip {
  import opened Results
  import opened Digits
  import opened Octets
  import opened BerNode
  import opened BerIdentifier
  import opened BerLength
  import opened BerEncoding
  import opened BerDecoder

  /** A node whose own and nested content lengths are all within the
      decoder's MAX_BER_SIZE bound. */
  predicate Decodable(n: Node)
    decreases n
  {
    && ContentLength(n) <= MaxBerSize
    && (n.Constructed? ==> forall i :: 0 <= i < |n.children| ==> Decodable(n.children[i]))
  }

  lemma {:induction false} DecodableIsEncodable(n: Node)
    requires Decodable(n)
    ensures Encodable(n)
    decreases n
  {
    if n.Constructed? {
      forall i | 0 <= i < |n.children| {
        DecodableIsEncodable(n.children[i]);
      }
    }
  }

  /** The octets after the identifier and length octets. */
  function ContentOctets(n: Node): seq<byte>
    requires Encodable(n)
  {
    match n
    case Primitive(_, _, content) => content
    case Constructed(_, _, children) => EncodeAll(children)
  }

  /** The three parts of a node's encoding, each at its own position. */
  lemma {:induction false} EncodingAt(s: seq<byte>, pos: nat, n: Node)
    requires Encodable(n) && At(s, pos, Encoding(n))
    ensures var id := IdentifierOctets(n);
            var lo := LengthOctets(n);
            && At(s, pos, id)
            && At(s, pos + |id|, lo)
            && At(s, pos + |id| + |lo|, ContentOctets(n))
            && |id| + |lo| + |ContentOctets(n)| == TotalLength(n)
  {
    var id := IdentifierOctets(n);
    var lo := LengthOctets(n);
    assert Encoding(n) == (id + lo) + ContentOctets(n);
    AtAppend(s, pos, id + lo, ContentOctets(n));
    AtAppend(s, pos, id, lo);
  }

  /** The first encoding of a list, and the rest of the list after it. */
  lemma {:induction false} EncodeAllAt(s: seq<byte>, pos: nat, ns: seq<Node>)
    requires |ns| > 0 && (forall i :: 0 <= i < |ns| ==> Encodable(ns[i]))
    requires At(s, pos, EncodeAll(ns))
    ensures At(s, pos, Encoding(ns[0]))
    ensures At(s, pos + TotalLength(ns[0]), EncodeAll(ns[1..]))
    ensures SumTotal(ns) == TotalLength(ns[0]) + SumTotal(ns[1..])
  {
    AtAppend(s, pos, Encoding(ns[0]), EncodeAll(ns[1..]));
  }

  // Single reader steps, each stated about an arbitrary source so that the
  // round-trip proofs only chain them. Positions and totals are passed in
  // explicitly, so that every reader application a proof mentions matches
  // one of these statements term for term.

  /** After the identifier and the length octets the reader continues with the contents. */
  lemma {:induction false} HeadStep(s: seq<byte>, pos: nat, ident: Identifier, p1: nat, length: Length, p2: nat)
    requires pos < |s| && DecodeIdentifier(s, pos) == Ok((ident, p1))
    requires p1 <= |s| && DecodeLength(s, p1) == Ok((length, p2))
    ensures p2 <= |s|
    ensures DecodeNode(s, pos) == DecodeContents(s, p2, ident, length)
  {
  }

  lemma {:induction false} PrimitiveStep(s: seq<byte>, at: nat, ident: Identifier, length: nat,
                                         content: seq<byte>, end: nat)
    requires !ident.constructed && at + length <= |s| && end == at + length
    requires ReadOctets(s, at, length) == content
    ensures DecodeContents(s, at, ident, Definite(length)) == Ok(Item(Primitive(ident.cls, ident.tag, content), end))
  {
  }

  lemma {:induction false} DefiniteStep(s: seq<byte>, at: nat, ident: Identifier, length: nat, nodes: seq<Node>, end: nat)
    requires ident.constructed && at <= |s|
    requires ReadDefinite(s, at, length, 0) == Ok(Components(nodes, end))
    ensures DecodeContents(s, at, ident, Definite(length))
            == Ok(Item(Constructed(ident.cls, ident.tag, nodes), end))
  {
  }

  lemma {:induction false} IndefiniteStep(s: seq<byte>, at: nat, ident: Identifier, nodes: seq<Node>, end: nat)
    requires ident.constructed && at <= |s|
    requires ReadUntilEndOfContents(s, at) == Ok(Components(nodes, end))
    ensures DecodeContents(s, at, ident, Indefinite)
            == Ok(Item(Constructed(ident.cls, ident.tag, nodes), end))
  {
  }

  lemma {:induction false} ReadDefiniteStep(s: seq<byte>, pos: nat, length: nat, total: nat, node: Node, next: nat,
                                            nextTotal: nat, nodes: seq<Node>, end: nat, all: seq<Node>, allEnd: nat)
    requires pos <= next <= |s| && total < length && nextTotal == total + (next - pos)
    requires all == [node] + nodes && allEnd == end
    requires DecodeNode(s, pos) == Ok(Item(node, next))
    requires ReadDefinite(s, next, length, nextTotal) == Ok(Components(nodes, end))
    ensures ReadDefinite(s, pos, length, total) == Ok(Components(all, allEnd))
  {
  }

  lemma {:induction false} ReadDefiniteDone(s: seq<byte>, pos: nat, length: nat, total: nat, nodes: seq<Node>, end: nat)
    requires pos <= |s| && length <= total && nodes == [] && end == pos
    ensures ReadDefinite(s, pos, length, total) == Ok(Components(nodes, end))
  {
  }

  lemma {:induction false} ReadUntilStep(s: seq<byte>, pos: nat, node: Node, next: nat,
                                         nodes: seq<Node>, end: nat, all: seq<Node>)
    requires pos <= next <= |s| && !IsEndOfContents(node) && all == [node] + nodes
    requires DecodeNode(s, pos) == Ok(Item(node, next))
    requires ReadUntilEndOfContents(s, next) == Ok(Components(nodes, end))
    ensures ReadUntilEndOfContents(s, pos) == Ok(Components(all, end))
  {
  }

  lemma {:induction false} ReadUntilDone(s: seq<byte>, pos: nat, marker: Node, next: nat)
    requires pos <= |s| && IsEndOfContents(marker)
    requires DecodeNode(s, pos) == Ok(Item(marker, next))
    ensures ReadUntilEndOfContents(s, pos) == Ok(Components([], next))
  {
  }

  /** Decoding a node's definite encoding, wherever it stands in the source,
      gives the node back and stops right after its last octet. */
  lemma {:induction false} DecodeEncoding(s: seq<byte>, pos: nat, n: Node)
    requires Decodable(n) && Encodable(n) && At(s, pos, Encoding(n))
    ensures pos + TotalLength(n) <= |s|
    ensures DecodeNode(s, pos) == Ok(Item(n, pos + TotalLength(n)))
    decreases n, 1
  {
    EncodingAt(s, pos, n);
    if n.Primitive? {
      DecodePrimitiveParts(s, pos, n);
    } else {
      DecodeConstructedParts(s, pos, n);
    }
  }

  /** The identifier and length octets of a node lead the reader to its contents. */
  lemma {:induction false} DecodeHead(s: seq<byte>, pos: nat, n: Node)
    requires ContentLength(n) <= MaxBerSize
    requires At(s, pos, IdentifierOctets(n)) && At(s, pos + |IdentifierOctets(n)|, LengthOctets(n))
    ensures pos + |IdentifierOctets(n)| + |LengthOctets(n)| <= |s|
    ensures DecodeNode(s, pos) == DecodeContents(s, pos + |IdentifierOctets(n)| + |LengthOctets(n)|,
                                                 Identifier(n.cls, n.Constructed?, n.tag),
                                                 Definite(ContentLength(n)))
  {
    var id := IdentifierOctets(n);
    var lo := LengthOctets(n);
    HeadOctets(s, pos, n);
    HeadStep(s, pos, Identifier(n.cls, n.Constructed?, n.tag), pos + |id|, Definite(ContentLength(n)), pos + |id| + |lo|);
  }

  /** The identifier and length octets of a node decode to its identifier
      and its content length, each stopping right after its own octets. */
  lemma {:induction false} HeadOctets(s: seq<byte>, pos: nat, n: Node)
    requires ContentLength(n) <= MaxBerSize
    requires At(s, pos, IdentifierOctets(n)) && At(s, pos + |IdentifierOctets(n)|, LengthOctets(n))
    ensures var p1 := pos + |IdentifierOctets(n)|;
            && pos < p1 <= |s|
            && DecodeIdentifier(s, pos) == Ok((Identifier(n.cls, n.Constructed?, n.tag), p1))
            && DecodeLength(s, p1) == Ok((Definite(ContentLength(n)), p1 + |LengthOctets(n)|))
  {
    DecodeEncodedIdentifier(s, pos, n.cls, n.Constructed?, n.tag);
    DecodeEncodedLength(s, pos + |IdentifierOctets(n)|, ContentLength(n));
  }

  /** DecodeEncoding for a primitive node, its encoding split into its three parts. */
  lemma {:induction false} DecodePrimitiveParts(s: seq<byte>, pos: nat, n: Node)
    requires n.Primitive? && ContentLength(n) <= MaxBerSize
    requires At(s, pos, IdentifierOctets(n)) && At(s, pos + |IdentifierOctets(n)|, LengthOctets(n))
    requires At(s, pos + |IdentifierOctets(n)| + |LengthOctets(n)|, n.content)
    ensures pos + TotalLength(n) <= |s|
    ensures DecodeNode(s, pos) == Ok(Item(n, pos + TotalLength(n)))
  {
    DecodeHead(s, pos, n);
    var at := pos + |IdentifierOctets(n)| + |LengthOctets(n)|;
    ReadOctetsAt(s, at, n.content);
    PrimitiveStep(s, at, Identifier(n.cls, false, n.tag), ContentLength(n), n.content, pos + TotalLength(n));
  }

  /** DecodeEncoding for a constructed node, its encoding split into its three parts. */
  lemma {:induction false} DecodeConstructedParts(s: seq<byte>, pos: nat, n: Node)
    requires n.Constructed? && Decodable(n) && Encodable(n)
    requires At(s, pos, IdentifierOctets(n)) && At(s, pos + |IdentifierOctets(n)|, LengthOctets(n))
    requires At(s, pos + |IdentifierOctets(n)| + |LengthOctets(n)|, EncodeAll(n.children))
    ensures pos + TotalLength(n) <= |s|
    ensures DecodeNode(s, pos) == Ok(Item(n, pos + TotalLength(n)))
    decreases n, 0
  {
    var at := pos + |IdentifierOctets(n)| + |LengthOctets(n)|;
    var end := at + ContentLength(n);
    assert end == pos + TotalLength(n) by {
      HeadSize(n);
    }
    assert at <= |s| && DecodeNode(s, pos) == DecodeContents(s, at, Identifier(n.cls, true, n.tag), Definite(ContentLength(n))) by {
      DecodeHead(s, pos, n);
    }
    assert end <= |s| && ReadDefinite(s, at, ContentLength(n), 0) == Ok(Components(n.children, end)) by {
      DecodeChildren(s, at, n);
    }
    ConstructedStep(s, pos, at, Identifier(n.cls, n.Constructed?, n.tag), ContentLength(n), n, end);
  }

  /** A constructed node whose head leads to its contents and whose contents
      read back as its children is read back whole. */
  lemma {:induction false} ConstructedStep(s: seq<byte>, pos: nat, at: nat, ident: Identifier, length: nat,
                                           n: Node, end: nat)
    requires n.Constructed? && ident == Identifier(n.cls, true, n.tag) && pos <= at <= |s|
    requires DecodeNode(s, pos) == DecodeContents(s, at, ident, Definite(length))
    requires ReadDefinite(s, at, length, 0) == Ok(Components(n.children, end))
    ensures DecodeNode(s, pos) == Ok(Item(n, end))
  {
    DefiniteStep(s, at, ident, length, n.children, end);
  }

  /** The contents of a constructed node's definite encoding read back as its children. */
  lemma {:induction false} DecodeChildren(s: seq<byte>, at: nat, n: Node)
    requires n.Constructed? && Decodable(n) && Encodable(n)
    requires At(s, at, EncodeAll(n.children))
    ensures at + ContentLength(n) <= |s|
    ensures ReadDefinite(s, at, ContentLength(n), 0) == Ok(Components(n.children, at + ContentLength(n)))
    decreases n.children, 4
  {
    forall i | 0 <= i < |n.children|
      ensures Decodable(n.children[i]) && Encodable(n.children[i])
    {
      DecodableIsEncodable(n.children[i]);
    }
    ReadEncodedComponents(s, at, n.children, ContentLength(n), 0);
  }

  /** The definite-length loop reads back every component of a list of
      encodings, and stops once their octets are used up. */
  lemma {:induction false} ReadEncodedComponents(s: seq<byte>, pos: nat, ns: seq<Node>, length: nat, total: nat)
    requires forall i :: 0 <= i < |ns| ==> Decodable(ns[i]) && Encodable(ns[i])
    requires At(s, pos, EncodeAll(ns)) && total + SumTotal(ns) == length
    ensures pos + SumTotal(ns) <= |s|
    ensures ReadDefinite(s, pos, length, total) == Ok(Components(ns, pos + SumTotal(ns)))
    decreases ns, 3
  {
    if |ns| > 0 {
      ReadEncodedFirst(s, pos, ns, length, total);
    } else {
      ReadDefiniteDone(s, pos, length, total, ns, pos + SumTotal(ns));
    }
  }

  /** ReadEncodedComponents for a nonempty list: the first component, then the rest. */
  lemma {:induction false} ReadEncodedFirst(s: seq<byte>, pos: nat, ns: seq<Node>, length: nat, total: nat)
    requires |ns| > 0 && forall i :: 0 <= i < |ns| ==> Decodable(ns[i]) && Encodable(ns[i])
    requires At(s, pos, EncodeAll(ns)) && total + SumTotal(ns) == length
    ensures pos + SumTotal(ns) <= |s|
    ensures ReadDefinite(s, pos, length, total) == Ok(Components(ns, pos + SumTotal(ns)))
    decreases ns, 2
  {
    var next, nextTotal := pos + TotalLength(ns[0]), total + TotalLength(ns[0]);
    var end := next + SumTotal(ns[1..]);
    assert && end == pos + SumTotal(ns) && next <= end <= |s|
           && ReadDefinite(s, next, length, nextTotal) == Ok(Components(ns[1..], end)) by {
      EncodedTailAt(s, pos, ns);
      ReadEncodedComponents(s, next, ns[1..], length, nextTotal);
    }
    ReadDefiniteFirst(s, pos, ns, length, total, next, nextTotal, end);
  }

  /** The rest of a list of encodings sits right behind its first one. */
  lemma {:induction false} EncodedTailAt(s: seq<byte>, pos: nat, ns: seq<Node>)
    requires |ns| > 0 && forall i :: 0 <= i < |ns| ==> Decodable(ns[i]) && Encodable(ns[i])
    requires At(s, pos, EncodeAll(ns))
    ensures forall i :: 0 <= i < |ns[1..]| ==> Decodable(ns[1..][i]) && Encodable(ns[1..][i])
    ensures At(s, pos + TotalLength(ns[0]), EncodeAll(ns[1..]))
    ensures SumTotal(ns) == TotalLength(ns[0]) + SumTotal(ns[1..])
  {
    EncodeAllAt(s, pos, ns);
  }

  /** Once the rest of a list of encodings is read within the length, so is
      the whole list: its first component is read back from its encoding. */
  lemma {:induction false} ReadDefiniteFirst(s: seq<byte>, pos: nat, ns: seq<Node>, length: nat, total: nat,
                                            next: nat, nextTotal: nat, end: nat)
    requires |ns| > 0 && forall i :: 0 <= i < |ns| ==> Decodable(ns[i]) && Encodable(ns[i])
    requires At(s, pos, EncodeAll(ns)) && total + SumTotal(ns) == length
    requires next == pos + TotalLength(ns[0]) && nextTotal == total + TotalLength(ns[0]) && next <= |s|
    requires ReadDefinite(s, next, length, nextTotal) == Ok(Components(ns[1..], end))
    ensures ReadDefinite(s, pos, length, total) == Ok(Components(ns, end))
    decreases ns, 1
  {
    FirstDecodes(s, pos, ns);
    ReadDefiniteStep(s, pos, length, total, ns[0], next, nextTotal, ns[1..], end, ns, end);
  }

  /** The first encoding of a list is read back as the list's first node. */
  lemma {:induction false} FirstDecodes(s: seq<byte>, pos: nat, ns: seq<Node>)
    requires |ns| > 0 && forall i :: 0 <= i < |ns| ==> Decodable(ns[i]) && Encodable(ns[i])
    requires At(s, pos, EncodeAll(ns))
    ensures pos + TotalLength(ns[0]) <= |s| && 2 <= TotalLength(ns[0])
    ensures DecodeNode(s, pos) == Ok(Item(ns[0], pos + TotalLength(ns[0])))
    ensures ns == [ns[0]] + ns[1..]
    decreases ns, 0
  {
    EncodeAllAt(s, pos, ns);
    DecodeEncoding(s, pos, ns[0]);
    TotalLengthAtLeastTwo(ns[0]);
    assert [ns[0]] + ns[1..] == ns;
  }

  /** The round trip from a fresh source: `input` on a node's encoding, with
      anything after it, gives the node back. */
  lemma {:induction false} InputEncoding(n: Node, rest: seq<byte>)
    requires Decodable(n) && Encodable(n)
    ensures Input(Encoding(n) + rest) == Ok(Item(n, TotalLength(n)))
  {
    AtFront(Encoding(n), rest);
    InputAt(Encoding(n) + rest, n);
  }

  /** `input` on a source that starts with a node's encoding. */
  lemma {:induction false} InputAt(s: seq<byte>, n: Node)
    requires Decodable(n) && Encodable(n) && At(s, 0, Encoding(n))
    ensures Input(s) == Ok(Item(n, TotalLength(n)))
  {
    DecodeEncoding(s, 0, n);
  }
}

=== FILE: digits.dfy ===
/** Positional numerals over octets, as the identifier and length codecs use them:
    base 128 for tag numbers and base 256 for long-form lengths. */
module Digits {

  type byte = x: int | 0 <= x < 256

  function Pow(base: nat, k: nat): (p: nat)
    requires base >= 1
    ensures p >= 1
  {
    if k == 0 then 1 else base * Pow(base, k - 1)
  }

  /** The value a reader accumulates from `acc` by shifting in the digits of
      `ds` one octet at a time, most significant first (`acc = acc * base + d`);
      each octet contributes its remainder modulo `base`, so for base 128 the
      continuation bit (bit 8) is ignored. */
  function ValueOf(base: nat, acc: nat, ds: seq<byte>): nat
    requires base >= 1
    decreases |ds|
  {
    if |ds| == 0 then acc else ValueOf(base, acc * base + ds[0] % base, ds[1..])
  }

  /** Appending one digit shifts the value and adds that digit. */
  lemma {:induction false} ValueOfAppend(base: nat, acc: nat, ds: seq<byte>, d: byte)
    requires base >= 1
    ensures ValueOf(base, acc, ds + [d]) == ValueOf(base, acc, ds) * base + d % base
    decreases |ds|
  {
    if |ds| == 0 {
      assert ds + [d] == [d];
      assert [d][1..] == [];
    } else {
      assert (ds + [d])[0] == ds[0];
      assert (ds + [d])[1..] == ds[1..] + [d];
      ValueOfAppend(base, acc * base + ds[0] % base, ds[1..], d);
    }
  }

  /** A numeral of k digits read from zero stays below base^k. */
  lemma {:induction false} ValueOfBound(base: nat, ds: seq<byte>)
    requires base >= 1
    ensures ValueOf(base, 0, ds) < Pow(base, |ds|)
    decreases |ds|
  {
    if |ds| > 0 {
      var init := ds[..|ds| - 1];
      var last := ds[|ds| - 1];
      assert init + [last] == ds;
      ValueOfBound(base, init);
      ValueOfAppend(base, 0, init, last);
      var v := ValueOf(base, 0, init);
      var m := last % base;
      assert m < base;
      MulMonotone(v + 1, Pow(base, |init|), base);
      assert v * base + m < (v + 1) * base;
      assert Pow(base, |ds|) == base * Pow(base, |init|);
    }
  }

  lemma {:induction false} MulMonotone(a: nat, b: nat, c: nat)
    requires a <= b
    ensures a * c <= b * c
  {
  }

  lemma {:induction false} PowMonotone(base: nat, a: nat, b: nat)
    requires base >= 1 && a <= b
    ensures Pow(base, a) <= Pow(base, b)
    decreases b
  {
    if a < b {
      PowMonotone(base, a, b - 1);
      MulMonotone(1, base, Pow(base, b - 1));
    }
  }
}

=== FILE: octets.dfy ===
/** A byte source read from a position: the decoder never slices its input,
    it moves a read position forward through it, as the stream behind
    `doInput` does. `At(s, pos, e)` says that the octets `e` stand in `s`
    from position `pos` on. */
module Octets {
  import opened Digits

  predicate At(s: seq<byte>, pos: nat, e: seq<byte>) {
    pos + |e| <= |s| && MatchesFrom(s, pos, e, 0)
  }

  /** The octets of `e` from index `i` on agree with the source, one octet at
      a time; the recursive form keeps `At` from exposing a quantifier to
      every proof that mentions it. */
  predicate MatchesFrom(s: seq<byte>, pos: nat, e: seq<byte>, i: nat)
    requires pos + |e| <= |s| && i <= |e|
    decreases |e| - i
  {
    i == |e| || (s[pos + i] == e[i] && MatchesFrom(s, pos, e, i + 1))
  }

  lemma {:induction false} MatchesFromAll(s: seq<byte>, pos: nat, e: seq<byte>, i: nat)
    requires pos + |e| <= |s| && i <= |e|
    ensures MatchesFrom(s, pos, e, i) <==> forall k :: i <= k < |e| ==> s[pos + k] == e[k]
    decreases |e| - i
  {
    if i < |e| {
      MatchesFromAll(s, pos, e, i + 1);
    }
  }

  /** At, octet by octet. */
  lemma {:induction false} AtAll(s: seq<byte>, pos: nat, e: seq<byte>)
    ensures At(s, pos, e) <==> pos + |e| <= |s| && forall k :: 0 <= k < |e| ==> s[pos + k] == e[k]
  {
    if pos + |e| <= |s| {
      MatchesFromAll(s, pos, e, 0);
    }
  }

  /** A concatenation stands at a position exactly when its two parts stand
      one after the other. */
  lemma {:induction false} AtAppend(s: seq<byte>, pos: nat, a: seq<byte>, b: seq<byte>)
    ensures At(s, pos, a + b) <==> At(s, pos, a) && At(s, pos + |a|, b)
  {
    AtAll(s, pos, a + b);
    AtAll(s, pos, a);
    AtAll(s, pos + |a|, b);
    if At(s, pos, a) && At(s, pos + |a|, b) {
      forall k | 0 <= k < |a + b|
        ensures s[pos + k] == (a + b)[k]
      {
        if k >= |a| {
          assert s[pos + |a| + (k - |a|)] == b[k - |a|];
        }
      }
    }
    if At(s, pos, a + b) {
      forall k | 0 <= k < |a|
        ensures s[pos + k] == a[k]
      {
        assert s[pos + k] == (a + b)[k];
      }
      forall k | 0 <= k < |b|
        ensures s[pos + |a| + k] == b[k]
      {
        assert s[pos + (|a| + k)] == (a + b)[|a| + k];
      }
    }
  }

  /** The first octet, and the remaining ones one position further on. */
  lemma {:induction false} AtFirst(s: seq<byte>, pos: nat, e: seq<byte>)
    requires At(s, pos, e) && |e| >= 1
    ensures pos < |s| && s[pos] == e[0]
    ensures At(s, pos + 1, e[1..])
  {
    AtAll(s, pos, e);
    AtAll(s, pos + 1, e[1..]);
    assert s[pos + 0] == e[0];
    forall k | 0 <= k < |e| - 1
      ensures s[pos + 1 + k] == e[1..][k]
    {
      assert s[pos + (k + 1)] == e[k + 1];
    }
  }

  /** The octets standing at a position are the slice of the source there. */
  lemma {:induction false} AtSlice(s: seq<byte>, pos: nat, e: seq<byte>)
    requires At(s, pos, e)
    ensures s[pos..pos + |e|] == e
  {
    AtAll(s, pos, e);
    forall k | 0 <= k < |e|
      ensures s[pos..pos + |e|][k] == e[k]
    {
      assert s[pos + k] == e[k];
    }
  }

  /** Every sequence stands at the front of itself followed by anything. */
  lemma {:induction false} AtFront(e: seq<byte>, rest: seq<byte>)
    ensures At(e + rest, 0, e)
  {
    AtAll(e + rest, 0, e);
    forall k | 0 <= k < |e|
      ensures (e + rest)[0 + k] == e[k]
    {
    }
  }

  /** Every sequence stands at the front of itself. */
  lemma {:induction false} AtWhole(e: seq<byte>)
    ensures At(e, 0, e)
  {
    AtAll(e, 0, e);
    forall k | 0 <= k < |e|
      ensures e[0 + k] == e[k]
    {
    }
  }
}

=== FILE: order_state.dfy ===
/** `OrderStatusInfo_orderState` of CIP-Order-ES
    (z3950/ESFormat_CIPOrder/OrderStatusInfo_orderState.java), a CHOICE of
    two explicitly tagged alternatives: staticState [1] and dynamicState [2]. */
module OrderStateSchema {
  import opened Results
  import opened BerNode
  import opened AsnSchema
  import opened AsnChoice

  /** The object's alternatives; None is a null reference. */
  datatype OrderState = OrderState(staticState: Option<Node>, dynamicState: Option<Node>)

  /** The alternatives in the order the generated code tries them. */
  const Alternatives: seq<Alternative> := [Alternative(1, Explicit), Alternative(2, Explicit)]

  /** Exactly one alternative is set. */
  predicate Chosen(p: OrderState) {
    p.staticState.Some? != p.dynamicState.Some?
  }

  /** The alternatives in order, and how many of them are set. */
  function Values(p: OrderState): (vs: seq<Option<FieldValue>>)
    ensures FitsAlternatives(Alternatives, vs)
    ensures CountFrom(vs, 0) == (if p.staticState.Some? then 1 else 0) + (if p.dynamicState.Some? then 1 else 0)
  {
    var vs := [Explicitly(p.staticState), Explicitly(p.dynamicState)];
    assert CountFrom(vs, 2) == 0;
    assert CountFrom(vs, 1) == if p.dynamicState.Some? then 1 else 0;
    vs
  }

  /** The object `ber_decode` leaves behind once alternative `k` matched. */
  function FromChoice(k: nat, v: FieldValue): (p: OrderState)
    requires k < |Alternatives| && Fits(Explicit, v)
    ensures Chosen(p) && Values(p) == OnlyAt(|Alternatives|, k, v)
  {
    if k == 0 then OrderState(Some(v.inner), None) else OrderState(None, Some(v.inner))
  }

  /** `ber_decode`: the node's own tag picks the alternative, whose wrapper
      must be constructed with one component; any other tag is "choice not
      matched". */
  function Decode(n: Node): (r: Result<OrderState, SchemaError>)
    ensures r.Ok? ==> Chosen(r.value)
    ensures r.Ok? && r.value.staticState.Some? ==> n == Constructed(ContextSpecific, 1, [r.value.staticState.value])
    ensures r.Ok? && r.value.dynamicState.Some? ==> n == Constructed(ContextSpecific, 2, [r.value.dynamicState.value])
    ensures r == Err(ChoiceNotMatched) <==> !HasTag(n, 1) && !HasTag(n, 2)
    ensures r == Err(BadForm) <==> (HasTag(n, 1) || HasTag(n, 2)) && !(n.Constructed? && |n.children| == 1)
  {
    var (k, v) :- DecodeChoice(Alternatives, 0, n);
    Ok(FromChoice(k, v))
  }

  /** `ber_encode()`: the set alternative in its wrapper; both set is
      "CHOICE multiply set", neither is "CHOICE not set". */
  function Encode(p: OrderState): (r: Result<Node, SchemaError>)
    ensures r.Ok? <==> Chosen(p)
    ensures r == Err(ChoiceMultiplySet) <==> p.staticState.Some? && p.dynamicState.Some?
    ensures r == Err(ChoiceNotSet) <==> p.staticState.None? && p.dynamicState.None?
    ensures r.Ok? && p.staticState.Some? ==> r.value == Constructed(ContextSpecific, 1, [p.staticState.value])
    ensures r.Ok? && p.dynamicState.Some? ==> r.value == Constructed(ContextSpecific, 2, [p.dynamicState.value])
  {
    EncodeChoice(Alternatives, Values(p), 0, None)
  }

  /** `ber_encode(tag_type, tag)`: refused for every CHOICE, as AsnChoice.ImplicitTagLosesChoice explains. */
  function EncodeTagged(p: OrderState, cls: TagClass, tag: nat): (r: Result<Node, SchemaError>)
    ensures r.Err? && r.error == CannotImplicitlyTag
  {
    Err(CannotImplicitlyTag)
  }

  /** AsnChoice.ChoiceRoundTrip for these alternatives: one set alternative decodes back from its encoding. */
  lemma {:induction false} RoundTrip(p: OrderState)
    requires Chosen(p)
    ensures Encode(p).Ok? && Decode(Encode(p).value) == Ok(p)
  {
    var vs := Values(p);
    var k := if p.staticState.Some? then 0 else 1;
    ChoiceRoundTrip(Alternatives, vs, k);
  }

  /** AsnChoice.ChoiceCanonical for these alternatives: the decoder accepts exactly the encoder's output. */
  lemma {:induction false} Canonical(n: Node, p: OrderState)
    requires Decode(n) == Ok(p)
    ensures Encode(p) == Ok(n)
  {
    var (k, v) := DecodeChoice(Alternatives, 0, n).value;
    ChoiceCanonical(Alternatives, n, k, v);
  }

  /** Why the implicit tag is refused: under one implicit tag the two
      alternatives holding the same value would be one node. */
  lemma {:induction false} ImplicitTagLoss(x: Node, cls: TagClass, tag: nat)
    ensures var a := Encode(OrderState(Some(x), None));
            var b := Encode(OrderState(None, Some(x)));
            a.Ok? && b.Ok? && a != b && Retag(BodyOf(a.value), cls, tag) == Retag(BodyOf(b.value), cls, tag)
  {
    ImplicitTagLosesChoice(Alternatives, 0, 1, Wrapped(x), cls, tag);
  }
}

=== FILE: other_charges.dfy ===
/** `Costs_otherCharges` of RecordSyntax-explain
    (z3950/RS_Explain/Costs_otherCharges.java), a SEQUENCE of two
    implicitly tagged mandatory fields: forWhat [1] and charge [2]. The
    field's tag replaces the value's own, so a field is the value's body
    under a context-specific tag. */
module OtherChargesSchema {
  import opened Results
  import opened BerNode
  import opened AsnSchema

  /** The object's fields; None is a null reference. */
  datatype OtherCharges = OtherCharges(forWhat: Option<Body>, charge: Option<Body>)

  /** The field layout the generated code walks. */
  const Layout: seq<FieldSpec> := [FieldSpec(1, Implicit, false), FieldSpec(2, Implicit, false)]

  /** Both fields are set. */
  predicate Complete(o: OtherCharges) {
    o.forWhat.Some? && o.charge.Some?
  }

  /** The fields in layout order. */
  function Fields(o: OtherCharges): (vs: seq<Option<FieldValue>>)
    ensures Fitting(Layout, 0, vs)
  {
    [Implicitly(o.forWhat), Implicitly(o.charge)]
  }

  /** The fields conform to the layout exactly when both are set, and then
      two components are emitted. */
  lemma {:induction false} FieldsConform(o: OtherCharges)
    ensures Conforms(Layout, 0, Fields(o)) <==> Complete(o)
    ensures Complete(o) ==> PresentCount(Fields(o)) == 2
  {
    var vs := Fields(o);
    if !Complete(o) {
      assert vs[0].None? || vs[1].None?;
    }
    PresentCountFrom(vs, 1);
    PresentCountFrom(vs, 0);
    assert vs[0..] == vs;
  }

  /** The object built from decoded fields. */
  function FromFields(vs: seq<Option<FieldValue>>): (o: OtherCharges)
    requires |vs| == |Layout|
    ensures Conforms(Layout, 0, vs) ==> Fields(o) == vs
  {
    OtherCharges(BodyOfValue(vs[0]), BodyOfValue(vs[1]))
  }

  /** `ber_decode`: exactly two components, under context-specific [1] and
      [2]; fewer is "incomplete", a wrong tag "bad tag", more "extra data". */
  function Decode(n: Node): (r: Result<OtherCharges, SchemaError>)
    ensures !n.Constructed? ==> r == Err(BadForm)
    ensures n.Constructed? && |n.children| < 2 && (forall k :: 0 <= k < |n.children| ==> HasTag(n.children[k], k + 1))
            ==> r == Err(Incomplete)
    ensures n.Constructed? && |n.children| >= 1 && !HasTag(n.children[0], 1) ==> r == Err(BadTag)
    ensures n.Constructed? && |n.children| >= 2 && HasTag(n.children[0], 1) && !HasTag(n.children[1], 2)
            ==> r == Err(BadTag)
    ensures n.Constructed? && |n.children| > 2 && HasTag(n.children[0], 1) && HasTag(n.children[1], 2)
            ==> r == Err(ExtraData(2, |n.children|))
    ensures r.Ok? ==> Complete(r.value) && |n.children| == 2
  {
    var vs :- DecodeSequence(Layout, n);
    FieldsConform(FromFields(vs));
    Ok(FromFields(vs))
  }

  /** `ber_encode(tag_type, tag)`: both fields under their tags; a null
      field fails. */
  function Encode(o: OtherCharges, cls: TagClass, tag: nat): (r: Result<Node, SchemaError>)
    ensures r.Ok? <==> Complete(o)
    ensures r.Err? ==> r.error == NullField
    ensures r.Ok? ==> && r.value.Constructed? && r.value.cls == cls && r.value.tag == tag
                      && |r.value.children| == 2
  {
    FieldsConform(o);
    EncodeSequence(Layout, Fields(o), cls, tag)
  }

  /** `Encode` emits forWhat's body under [1], then charge's under [2]. */
  lemma {:induction false} EncodeEmits(o: OtherCharges, cls: TagClass, tag: nat)
    requires Complete(o)
    ensures Encode(o, cls, tag)
            == Ok(Constructed(cls, tag, [Retag(o.forWhat.value, ContextSpecific, 1), Retag(o.charge.value, ContextSpecific, 2)]))
  {
    var vs := Fields(o);
    FieldsConform(o);
    EncodeFieldsStep(Layout, 0, vs);
    EncodeFieldsStep(Layout, 1, vs[1..]);
    assert vs[1..][1..] == [];
    var e1 := EncodeFields(Layout, 1, vs[1..]).value;
    assert e1 == [Retag(o.charge.value, ContextSpecific, 2)];
    assert EncodeFields(Layout, 0, vs).value == [Retag(o.forWhat.value, ContextSpecific, 1)] + e1;
    assert Encode(o, cls, tag) == Ok(Constructed(cls, tag, EncodeFields(Layout, 0, vs).value));
    assert [Retag(o.forWhat.value, ContextSpecific, 1)] + e1
           == [Retag(o.forWhat.value, ContextSpecific, 1), Retag(o.charge.value, ContextSpecific, 2)];
  }

  /** `ber_encode()`: Encode under the universal SEQUENCE tag; SequenceRoundTrip makes it decode back. */
  function EncodeDefault(o: OtherCharges): (r: Result<Node, SchemaError>)
    ensures r.Ok? <==> Complete(o)
    ensures r.Ok? ==> r.value.cls == Universal && r.value.tag == SequenceTag && Decode(r.value) == Ok(o)
  {
    if Complete(o) then
      RoundTrip(o, Universal, SequenceTag);
      Encode(o, Universal, SequenceTag)
    else
      Encode(o, Universal, SequenceTag)
  }

  /** AsnSchema.SequenceRoundTrip for this layout: a conforming object decodes back from its encoding. */
  lemma {:induction false} RoundTrip(o: OtherCharges, cls: TagClass, tag: nat)
    requires Complete(o)
    ensures Encode(o, cls, tag).Ok? && Decode(Encode(o, cls, tag).value) == Ok(o)
  {
    FieldsConform(o);
    SequenceRoundTrip(Layout, Fields(o), cls, tag);
  }

  /** AsnSchema.SequenceCanonical for this layout: the decoder accepts exactly the encoder's output. */
  lemma {:induction false} Canonical(n: Node, o: OtherCharges)
    requires Decode(n) == Ok(o)
    ensures Encode(o, n.cls, n.tag) == Ok(n)
  {
    var vs := DecodeSequence(Layout, n).value;
    SequenceCanonical(Layout, n, vs);
  }

  /** Any third component, whatever its tag, is "extra data". */
  lemma {:induction false} ExtraComponent(o: OtherCharges, cls: TagClass, tag: nat, extra: Node)
    requires Complete(o)
    ensures var parts := Encode(o, cls, tag).value.children + [extra];
            Decode(Constructed(cls, tag, parts)) == Err(ExtraData(2, 3))
  {
    FieldsConform(o);
    var vs := Fields(o);
    assert Settled(vs) == 2 by {
      SettledSpan(vs);
      assert vs[1].Some?;
    }
    SequenceExtraComponent(Layout, vs, cls, tag, extra);
  }

  /** A second component under another tag than [2] is "bad tag". */
  lemma {:induction false} ChargeMistagged(cls: TagClass, tag: nat, a: Body, b: Body)
    ensures Decode(Constructed(cls, tag, [Retag(a, ContextSpecific, 1), Retag(b, ContextSpecific, 3)])) == Err(BadTag)
  {
    var parts := [Retag(a, ContextSpecific, 1), Retag(b, ContextSpecific, 3)];
    assert DecodeFields(Layout, 1, parts, 1) == Err(BadTag);
  }
}

=== FILE: package_spec.dfy ===
/** `PackageSpec` of CIP2-4-Order-ES (z3950/ESFormat_CIP2_4Order/PackageSpec.java),
    a SEQUENCE of six explicitly tagged fields:
    packageId [1] and packagePrice [2], both optional; package [3],
    packageMedium [4] and packageKByteSize [5], all mandatory; and
    otherInfo [6], optional. */
module PackageSpecSchema {
  import opened Results
  import opened BerNode
  import opened AsnSchema

  /** The object's fields; None is a null reference. */
  datatype PackageSpec = PackageSpec(
    packageId: Option<Node>,
    packagePrice: Option<Node>,
    package: Option<Node>,
    packageMedium: Option<Node>,
    packageKByteSize: Option<Node>,
    otherInfo: Option<Node>)

  /** The field layout the generated code walks. */
  const Layout: seq<FieldSpec> := [
    FieldSpec(1, Explicit, true),
    FieldSpec(2, Explicit, true),
    FieldSpec(3, Explicit, false),
    FieldSpec(4, Explicit, false),
    FieldSpec(5, Explicit, false),
    FieldSpec(6, Explicit, true)]

  /** The mandatory fields are set. */
  predicate Complete(p: PackageSpec) {
    p.package.Some? && p.packageMedium.Some? && p.packageKByteSize.Some?
  }

  /** How many of the optional fields are set (`num_fields - 3` in `ber_encode`). */
  function OptionalCount(p: PackageSpec): nat {
    (if p.packageId.Some? then 1 else 0) + (if p.packagePrice.Some? then 1 else 0)
    + (if p.otherInfo.Some? then 1 else 0)
  }

  /** The fields in layout order. */
  function Fields(p: PackageSpec): (vs: seq<Option<FieldValue>>)
    ensures Fitting(Layout, 0, vs)
  {
    [Explicitly(p.packageId), Explicitly(p.packagePrice), Explicitly(p.package),
     Explicitly(p.packageMedium), Explicitly(p.packageKByteSize), Explicitly(p.otherInfo)]
  }

  /** The fields conform to the layout exactly when the mandatory ones are
      set, and then the encoder emits three components plus one per set
      optional field. */
  lemma {:induction false} FieldsConform(p: PackageSpec)
    ensures Conforms(Layout, 0, Fields(p)) <==> Complete(p)
    ensures Complete(p) ==> PresentCount(Fields(p)) == 3 + OptionalCount(p)
  {
    var vs := Fields(p);
    if Complete(p) {
      forall k | 0 <= k < |vs| && vs[k].None?
        ensures Layout[k].optional
      {
        assert k != 2 && k != 3 && k != 4;
      }
    } else {
      assert vs[2].None? || vs[3].None? || vs[4].None?;
    }
    PresentCountFrom(vs, 5);
    PresentCountFrom(vs, 4);
    PresentCountFrom(vs, 3);
    PresentCountFrom(vs, 2);
    PresentCountFrom(vs, 1);
    PresentCountFrom(vs, 0);
    assert vs[0..] == vs;
  }

  /** The object built from decoded fields. */
  function FromFields(vs: seq<Option<FieldValue>>): (p: PackageSpec)
    requires |vs| == |Layout|
    ensures Conforms(Layout, 0, vs) ==> Fields(p) == vs
  {
    PackageSpec(InnerOf(vs[0]), InnerOf(vs[1]), InnerOf(vs[2]), InnerOf(vs[3]), InnerOf(vs[4]), InnerOf(vs[5]))
  }

  /** `ber_decode`: a constructed node whose components are the fields in
      layout order, each in a one-component context-specific wrapper; the
      optional ones may be left out. So the first component must carry one
      of the tags [1], [2] or [3], and be a wrapper of one. */
  function Decode(n: Node): (r: Result<PackageSpec, SchemaError>)
    ensures !n.Constructed? ==> r == Err(BadForm)
    ensures n.Constructed? && |n.children| == 0 ==> r == Err(Incomplete)
    ensures n.Constructed? && |n.children| >= 1
            && !HasTag(n.children[0], 1) && !HasTag(n.children[0], 2) && !HasTag(n.children[0], 3)
            ==> r == Err(BadTag)
    ensures n.Constructed? && |n.children| >= 1
            && (HasTag(n.children[0], 1) || HasTag(n.children[0], 2) || HasTag(n.children[0], 3))
            && !(n.children[0].Constructed? && |n.children[0].children| == 1)
            ==> r == Err(BadWrapper)
    ensures r.Ok? ==> Complete(r.value) && |n.children| == 3 + OptionalCount(r.value)
  {
    var vs :- DecodeSequence(Layout, n);
    FieldsConform(FromFields(vs));
    Ok(FromFields(vs))
  }

  /** An object with every field null, as the no-argument constructor
      leaves it. */
  const Empty := PackageSpec(None, None, None, None, None, None)

  /** `ber_decode` called on an object that already holds values, as the
      generated code is written. The mandatory fields are always assigned,
      and otherInfo is reset to null before the optional tail. packageId and
      packagePrice are only assigned when their components are present, so
      an absent one keeps the object's earlier value. Errors are Decode's. */
  function DecodeIntoAsWritten(prior: PackageSpec, n: Node): (r: Result<PackageSpec, SchemaError>)
    ensures r.Ok? <==> Decode(n).Ok?
    ensures r.Err? ==> r == Decode(n)
    ensures r.Ok? ==> && r.value.package == Decode(n).value.package
                      && r.value.packageMedium == Decode(n).value.packageMedium
                      && r.value.packageKByteSize == Decode(n).value.packageKByteSize
                      && r.value.otherInfo == Decode(n).value.otherInfo
    ensures r.Ok? ==> && (r.value.packageId.Some? <==> Decode(n).value.packageId.Some? || prior.packageId.Some?)
                      && (r.value.packagePrice.Some? <==> Decode(n).value.packagePrice.Some? || prior.packagePrice.Some?)
  {
    var p :- Decode(n);
    Ok(p.(packageId := if p.packageId.Some? then p.packageId else prior.packageId,
          packagePrice := if p.packagePrice.Some? then p.packagePrice else prior.packagePrice))
  }

  /** The constructor from a BER decodes into a fresh object, and there the
      as-written decode is Decode. */
  lemma {:induction false} DecodeIntoEmpty(n: Node)
    ensures DecodeIntoAsWritten(Empty, n) == Decode(n)
  {
  }

  /** Decoding into a filled object agrees with Decode exactly when no
      optional field the input leaves out was set before. */
  lemma {:induction false} DecodeIntoAgrees(prior: PackageSpec, n: Node)
    requires Decode(n).Ok?
    ensures DecodeIntoAsWritten(prior, n) == Decode(n)
            <==> && (Decode(n).value.packageId.None? ==> prior.packageId.None?)
                 && (Decode(n).value.packagePrice.None? ==> prior.packagePrice.None?)
  {
  }

  /** The three mandatory components alone, decoded into an object whose
      packageId is set, leave that packageId in place: the result is not what
      the input encodes, and it has one optional field more than the input
      has components for. */
  lemma {:induction false} StalePackageIdAsWritten(id: Node, a: Node, b: Node, c: Node)
    ensures var n := Constructed(Universal, SequenceTag,
                       [Constructed(ContextSpecific, 3, [a]), Constructed(ContextSpecific, 4, [b]),
                        Constructed(ContextSpecific, 5, [c])]);
            var r := DecodeIntoAsWritten(Empty.(packageId := Some(id)), n);
            && r.Ok? && r.value.packageId == Some(id)
            && Decode(n).Ok? && Decode(n).value.packageId == None
            && |n.children| != 3 + OptionalCount(r.value)
  {
  }

  /** `ber_encode(tag_type, tag)`: the set fields in layout order, each in
      its wrapper; a null mandatory field fails. */
  function Encode(p: PackageSpec, cls: TagClass, tag: nat): (r: Result<Node, SchemaError>)
    ensures r.Ok? <==> Complete(p)
    ensures r.Err? ==> r.error == NullField
    ensures r.Ok? ==> && r.value.Constructed? && r.value.cls == cls && r.value.tag == tag
                      && |r.value.children| == 3 + OptionalCount(p)
  {
    FieldsConform(p);
    EncodeSequence(Layout, Fields(p), cls, tag)
  }

  /** `ber_encode()`: Encode under the universal SEQUENCE tag; SequenceRoundTrip makes it decode back. */
  function EncodeDefault(p: PackageSpec): (r: Result<Node, SchemaError>)
    ensures r.Ok? <==> Complete(p)
    ensures r.Ok? ==> r.value.cls == Universal && r.value.tag == SequenceTag && Decode(r.value) == Ok(p)
  {
    if Complete(p) then
      RoundTrip(p, Universal, SequenceTag);
      Encode(p, Universal, SequenceTag)
    else
      Encode(p, Universal, SequenceTag)
  }

  /** AsnSchema.SequenceRoundTrip for this layout: a conforming object decodes back from its encoding. */
  lemma {:induction false} RoundTrip(p: PackageSpec, cls: TagClass, tag: nat)
    requires Complete(p)
    ensures Encode(p, cls, tag).Ok? && Decode(Encode(p, cls, tag).value) == Ok(p)
  {
    FieldsConform(p);
    SequenceRoundTrip(Layout, Fields(p), cls, tag);
  }

  /** AsnSchema.SequenceCanonical for this layout: the decoder accepts exactly the encoder's output. */
  lemma {:induction false} Canonical(n: Node, p: PackageSpec)
    requires Decode(n) == Ok(p)
    ensures Encode(p, n.cls, n.tag) == Ok(n)
  {
    var vs := DecodeSequence(Layout, n).value;
    SequenceCanonical(Layout, n, vs);
  }

  /** A component appended to the encoding is "extra data" unless otherInfo
      is null and the component carries its tag [6]: the walk reaches it after
      packageKByteSize, and only otherInfo can still take it. */
  lemma {:induction false} ExtraComponent(p: PackageSpec, cls: TagClass, tag: nat, extra: Node)
    requires Complete(p)
    ensures var parts := Encode(p, cls, tag).value.children + [extra];
            Decode(Constructed(cls, tag, parts)) == Err(ExtraData(|parts| - 1, |parts|))
            <==> p.otherInfo.Some? || !HasTag(extra, 6)
  {
    FieldsConform(p);
    var vs := Fields(p);
    assert Settled(vs) == if p.otherInfo.Some? then 6 else 5 by {
      SettledSpan(vs);
      assert vs[4].Some? && (p.otherInfo.Some? ==> vs[5].Some?);
    }
    SequenceExtraComponent(Layout, vs, cls, tag, extra);
  }

  /** Running out of components before packageKByteSize is "incomplete". */
  lemma {:induction false} MissingKByteSize(cls: TagClass, tag: nat, a: Node, b: Node)
    ensures Decode(Constructed(cls, tag, [Constructed(ContextSpecific, 3, [a]), Constructed(ContextSpecific, 4, [b])]))
            == Err(Incomplete)
  {
    var parts := [Constructed(ContextSpecific, 3, [a]), Constructed(ContextSpecific, 4, [b])];
    assert MandatoryFrom(Layout, 4);
    assert DecodeFields(Layout, 4, parts, 2) == Err(Incomplete);
    assert DecodeFields(Layout, 3, parts, 1) == Err(Incomplete);
    assert DecodeFields(Layout, 2, parts, 0) == Err(Incomplete);
  }

  /** A mandatory field under the right number but the wrong class is "bad tag". */
  lemma {:induction false} WrongClassForPackage(cls: TagClass, tag: nat, a: Node)
    ensures Decode(Constructed(cls, tag, [Constructed(Application, 3, [a])])) == Err(BadTag)
  {
  }

  /** A wrapper holding two components is refused. */
  lemma {:induction false} WrapperOfTwo(cls: TagClass, tag: nat, a: Node, b: Node)
    ensures Decode(Constructed(cls, tag, [Constructed(ContextSpecific, 1, [a, b])])) == Err(BadWrapper)
  {
  }
}

=== FILE: processing_option.dfy ===
/** `ProcessingOptionValue` of CIP2-4-Order-ES
    (z3950/Cip2_4FormattedProductProcessingOptions/ProcessingOptionValue.java),
    a CHOICE of two explicitly tagged alternatives: numericProcessingOptionValue
    [1] and stringProcessingOptionValue [2]. The class comment lists four
    other alternatives; the code handles these two. */
module ProcessingOptionSchema {
  import opened Results
  import opened BerNode
  import opened AsnSchema
  import opened AsnChoice

  /** The object's alternatives; None is a null reference. */
  datatype ProcessingOptionValue = ProcessingOptionValue(numericValue: Option<Node>, stringValue: Option<Node>)

  /** The alternatives in the order the generated code tries them. */
  const Alternatives: seq<Alternative> := [Alternative(1, Explicit), Alternative(2, Explicit)]

  /** Exactly one alternative is set. */
  predicate Chosen(p: ProcessingOptionValue) {
    p.numericValue.Some? != p.stringValue.Some?
  }

  /** The alternatives in order, and how many of them are set. */
  function Values(p: ProcessingOptionValue): (vs: seq<Option<FieldValue>>)
    ensures FitsAlternatives(Alternatives, vs)
    ensures CountFrom(vs, 0) == (if p.numericValue.Some? then 1 else 0) + (if p.stringValue.Some? then 1 else 0)
  {
    var vs := [Explicitly(p.numericValue), Explicitly(p.stringValue)];
    assert CountFrom(vs, 2) == 0;
    assert CountFrom(vs, 1) == if p.stringValue.Some? then 1 else 0;
    vs
  }

  /** The object `ber_decode` leaves behind once alternative `k` matched. */
  function FromChoice(k: nat, v: FieldValue): (p: ProcessingOptionValue)
    requires k < |Alternatives| && Fits(Explicit, v)
    ensures Chosen(p) && Values(p) == OnlyAt(|Alternatives|, k, v)
  {
    if k == 0 then ProcessingOptionValue(Some(v.inner), None) else ProcessingOptionValue(None, Some(v.inner))
  }

  /** `ber_decode`: the node's own tag picks the alternative, whose wrapper
      must be constructed with one component; any other tag is "choice not
      matched". */
  function Decode(n: Node): (r: Result<ProcessingOptionValue, SchemaError>)
    ensures r.Ok? ==> Chosen(r.value)
    ensures r.Ok? && r.value.numericValue.Some? ==> n == Constructed(ContextSpecific, 1, [r.value.numericValue.value])
    ensures r.Ok? && r.value.stringValue.Some? ==> n == Constructed(ContextSpecific, 2, [r.value.stringValue.value])
    ensures r == Err(ChoiceNotMatched) <==> !HasTag(n, 1) && !HasTag(n, 2)
    ensures r == Err(BadForm) <==> (HasTag(n, 1) || HasTag(n, 2)) && !(n.Constructed? && |n.children| == 1)
  {
    var (k, v) :- DecodeChoice(Alternatives, 0, n);
    Ok(FromChoice(k, v))
  }

  /** `ber_encode()`: the set alternative in its wrapper; both set is
      "CHOICE multiply set", neither is "CHOICE not set". */
  function Encode(p: ProcessingOptionValue): (r: Result<Node, SchemaError>)
    ensures r.Ok? <==> Chosen(p)
    ensures r == Err(ChoiceMultiplySet) <==> p.numericValue.Some? && p.stringValue.Some?
    ensures r == Err(ChoiceNotSet) <==> p.numericValue.None? && p.stringValue.None?
    ensures r.Ok? && p.numericValue.Some? ==> r.value == Constructed(ContextSpecific, 1, [p.numericValue.value])
    ensures r.Ok? && p.stringValue.Some? ==> r.value == Constructed(ContextSpecific, 2, [p.stringValue.value])
  {
    EncodeChoice(Alternatives, Values(p), 0, None)
  }

  /** `ber_encode(tag_type, tag)`: refused for every CHOICE, as AsnChoice.ImplicitTagLosesChoice explains. */
  function EncodeTagged(p: ProcessingOptionValue, cls: TagClass, tag: nat): (r: Result<Node, SchemaError>)
    ensures r.Err? && r.error == CannotImplicitlyTag
  {
    Err(CannotImplicitlyTag)
  }

  /** AsnChoice.ChoiceRoundTrip for these alternatives: one set alternative decodes back from its encoding. */
  lemma {:induction false} RoundTrip(p: ProcessingOptionValue)
    requires Chosen(p)
    ensures Encode(p).Ok? && Decode(Encode(p).value) == Ok(p)
  {
    var vs := Values(p);
    var k := if p.numericValue.Some? then 0 else 1;
    ChoiceRoundTrip(Alternatives, vs, k);
  }

  /** AsnChoice.ChoiceCanonical for these alternatives: the decoder accepts exactly the encoder's output. */
  lemma {:induction false} Canonical(n: Node, p: ProcessingOptionValue)
    requires Decode(n) == Ok(p)
    ensures Encode(p) == Ok(n)
  {
    var (k, v) := DecodeChoice(Alternatives, 0, n).value;
    ChoiceCanonical(Alternatives, n, k, v);
  }

  /** Why the implicit tag is refused: under one implicit tag the two
      alternatives holding the same value would be one node. */
  lemma {:induction false} ImplicitTagLoss(x: Node, cls: TagClass, tag: nat)
    ensures var a := Encode(ProcessingOptionValue(Some(x), None));
            var b := Encode(ProcessingOptionValue(None, Some(x)));
            a.Ok? && b.Ok? && a != b && Retag(BodyOf(a.value), cls, tag) == Retag(BodyOf(b.value), cls, tag)
  {
    ImplicitTagLosesChoice(Alternatives, 0, 1, Wrapped(x), cls, tag);
  }
}

=== FILE: results.dfy ===
/** Failure-compatible wrappers used throughout the model: a value that may be
    absent (Java's null) and a computation that may fail (Java's exceptions). */
module Results {

  datatype Option<+T> = None | Some(value: T)

  datatype Result<+T, +E> = Ok(value: T) | Err(error: E) {

    predicate IsFailure() {
      Err?
    }

    function PropagateFailure<U>(): Result<U, E>
      requires Err?
    {
      Err(error)
    }

    function Extract(): T
      requires Ok?
    {
      value
    }
  }
}

=== FILE: scene_selection.dfy ===
/** `FormattedSceneSelectionOptions` of CIP2-4-Order-ES
    (z3950/CIP2_4FormattedSceneSelectionOptions/FormattedSceneSelectionOptions.java),
    a SEQUENCE of four explicitly tagged fields: sceneType [1], mandatory;
    horizontalSelection [2], verticalSelection [3] and temporalSelection [4],
    all optional.

    The generated `ber_encode` guards the horizontalSelection field with a
    test of verticalSelection. `FieldArrayAsWritten` models the field array
    it builds; `Encode` is the encoder with the guard testing the field it
    emits, and is the one the round trip is proved for. */
module SceneSelectionSchema {
  import opened Results
  import opened BerNode
  import opened AsnSchema

  /** The object's fields; None is a null reference. */
  datatype SceneSelection = SceneSelection(
    sceneType: Option<Node>,
    horizontalSelection: Option<Node>,
    verticalSelection: Option<Node>,
    temporalSelection: Option<Node>)

  /** The field layout the generated code walks. */
  const Layout: seq<FieldSpec> := [
    FieldSpec(1, Explicit, false),
    FieldSpec(2, Explicit, true),
    FieldSpec(3, Explicit, true),
    FieldSpec(4, Explicit, true)]

  /** The mandatory field is set. */
  predicate Complete(s: SceneSelection) {
    s.sceneType.Some?
  }

  /** How many optional fields are set (`num_fields - 1` in `ber_encode`). */
  function OptionalCount(s: SceneSelection): nat {
    (if s.horizontalSelection.Some? then 1 else 0) + (if s.verticalSelection.Some? then 1 else 0)
    + (if s.temporalSelection.Some? then 1 else 0)
  }

  /** The fields in layout order. */
  function Fields(s: SceneSelection): (vs: seq<Option<FieldValue>>)
    ensures Fitting(Layout, 0, vs)
  {
    [Explicitly(s.sceneType), Explicitly(s.horizontalSelection),
     Explicitly(s.verticalSelection), Explicitly(s.temporalSelection)]
  }

  /** The fields conform to the layout exactly when sceneType is set, and
      then one component is emitted per set field. */
  lemma {:induction false} FieldsConform(s: SceneSelection)
    ensures Conforms(Layout, 0, Fields(s)) <==> Complete(s)
    ensures Complete(s) ==> PresentCount(Fields(s)) == 1 + OptionalCount(s)
  {
    var vs := Fields(s);
    if Complete(s) {
      forall k | 0 <= k < |vs| && vs[k].None?
        ensures Layout[k].optional
      {
        assert k != 0;
      }
    } else {
      assert vs[0].None?;
    }
    PresentCountFrom(vs, 3);
    PresentCountFrom(vs, 2);
    PresentCountFrom(vs, 1);
    PresentCountFrom(vs, 0);
    assert vs[0..] == vs;
  }

  /** The object built from decoded fields. */
  function FromFields(vs: seq<Option<FieldValue>>): (s: SceneSelection)
    requires |vs| == |Layout|
    ensures Conforms(Layout, 0, vs) ==> Fields(s) == vs
  {
    SceneSelection(InnerOf(vs[0]), InnerOf(vs[1]), InnerOf(vs[2]), InnerOf(vs[3]))
  }

  /** `ber_decode`: sceneType first, then whichever optional fields follow in
      layout order; decoding stops successfully when the components run out
      after sceneType, and an empty node is "incomplete". */
  function Decode(n: Node): (r: Result<SceneSelection, SchemaError>)
    ensures !n.Constructed? ==> r == Err(BadForm)
    ensures n.Constructed? && |n.children| == 0 ==> r == Err(Incomplete)
    ensures n.Constructed? && |n.children| >= 1 && !HasTag(n.children[0], 1) ==> r == Err(BadTag)
    ensures n.Constructed? && |n.children| >= 1 && HasTag(n.children[0], 1)
            && !(n.children[0].Constructed? && |n.children[0].children| == 1)
            ==> r == Err(BadWrapper)
    ensures r.Ok? ==> Complete(r.value) && |n.children| == 1 + OptionalCount(r.value)
  {
    var vs :- DecodeSequence(Layout, n);
    FieldsConform(FromFields(vs));
    Ok(FromFields(vs))
  }

  /** `ber_encode(tag_type, tag)` with each optional field guarded by its own
      null test: sceneType under [1], then every set optional field under its
      own tag. A null sceneType fails. */
  function Encode(s: SceneSelection, cls: TagClass, tag: nat): (r: Result<Node, SchemaError>)
    ensures r.Ok? <==> Complete(s)
    ensures r.Err? ==> r.error == NullField
    ensures r.Ok? ==> && r.value.Constructed? && r.value.cls == cls && r.value.tag == tag
                      && |r.value.children| == 1 + OptionalCount(s)
  {
    FieldsConform(s);
    EncodeSequence(Layout, Fields(s), cls, tag)
  }

  /** `ber_encode()` over the corrected Encode, under the universal SEQUENCE tag;
      SequenceRoundTrip makes it decode back. */
  function EncodeDefault(s: SceneSelection): (r: Result<Node, SchemaError>)
    ensures r.Ok? <==> Complete(s)
    ensures r.Ok? ==> r.value.cls == Universal && r.value.tag == SequenceTag && Decode(r.value) == Ok(s)
  {
    if Complete(s) then
      RoundTrip(s, Universal, SequenceTag);
      Encode(s, Universal, SequenceTag)
    else
      Encode(s, Universal, SequenceTag)
  }

  /** AsnSchema.SequenceRoundTrip for this layout: a conforming object decodes back from its encoding. */
  lemma {:induction false} RoundTrip(s: SceneSelection, cls: TagClass, tag: nat)
    requires Complete(s)
    ensures Encode(s, cls, tag).Ok? && Decode(Encode(s, cls, tag).value) == Ok(s)
  {
    FieldsConform(s);
    SequenceRoundTrip(Layout, Fields(s), cls, tag);
  }

  /** AsnSchema.SequenceCanonical for this layout: the decoder accepts exactly the encoder's output. */
  lemma {:induction false} Canonical(n: Node, s: SceneSelection)
    requires Decode(n) == Ok(s)
    ensures Encode(s, n.cls, n.tag) == Ok(n)
  {
    var vs := DecodeSequence(Layout, n).value;
    SequenceCanonical(Layout, n, vs);
  }

  /** A component appended to the encoding is "extra data" unless it carries
      the tag of an optional field that is null and has only null fields
      behind it: the walk reaches it after the last set field and tries it
      against those. */
  lemma {:induction false} ExtraComponent(s: SceneSelection, cls: TagClass, tag: nat, extra: Node)
    requires Complete(s)
    ensures var parts := Encode(s, cls, tag).value.children + [extra];
            Decode(Constructed(cls, tag, parts)) == Err(ExtraData(|parts| - 1, |parts|))
            <==> && !(HasTag(extra, 4) && s.temporalSelection.None?)
                 && !(HasTag(extra, 3) && s.verticalSelection.None? && s.temporalSelection.None?)
                 && !(HasTag(extra, 2) && s.horizontalSelection.None? && s.verticalSelection.None?
                      && s.temporalSelection.None?)
  {
    FieldsConform(s);
    var vs := Fields(s);
    var settled := if s.temporalSelection.Some? then 4 else if s.verticalSelection.Some? then 3
                   else if s.horizontalSelection.Some? then 2 else 1;
    assert Settled(vs) == settled by {
      SettledSpan(vs);
      assert vs[settled - 1].Some?;
    }
    SequenceExtraComponent(Layout, vs, cls, tag, extra);
  }

  /** A first component under another tag than [1] is "bad tag", even when it
      is one of the optional fields. */
  lemma {:induction false} SceneTypeMistagged(cls: TagClass, tag: nat, a: Node)
    ensures Decode(Constructed(cls, tag, [Constructed(ContextSpecific, 2, [a])])) == Err(BadTag)
  {
  }

  /** The wrapper of the field with tag `tag` around `v`. */
  function Wrap(tag: nat, v: Node): (p: Node)
    ensures HasTag(p, tag) && p.Constructed? && p.children == [v]
  {
    EncodeField(tag, Explicit, Wrapped(v))
  }

  /** The wrapper of an optional field under `tag`, or nothing when it is null. */
  function WrapOptional(tag: nat, o: Option<Node>): (ps: seq<Node>)
    ensures |ps| <= 1 && (o.Some? <==> |ps| == 1)
  {
    if o.Some? then [Wrap(tag, o.value)] else []
  }

  /** The components `Encode` emits, field by field. */
  function Emitted(s: SceneSelection): (ps: seq<Node>)
    requires Complete(s)
  {
    [Wrap(1, s.sceneType.value)]
    + (WrapOptional(2, s.horizontalSelection)
       + (WrapOptional(3, s.verticalSelection) + WrapOptional(4, s.temporalSelection)))
  }

  /** `Encode` emits exactly `Emitted`. */
  lemma {:induction false} EncodeEmits(s: SceneSelection, cls: TagClass, tag: nat)
    requires Complete(s)
    ensures Encode(s, cls, tag) == Ok(Constructed(cls, tag, Emitted(s)))
  {
    var vs := Fields(s);
    FieldsConform(s);
    var vs1, vs2, vs3 := vs[1..], vs[1..][1..], vs[1..][1..][1..];
    EncodeFieldsStep(Layout, 0, vs);
    EncodeFieldsStep(Layout, 1, vs1);
    EncodeFieldsStep(Layout, 2, vs2);
    EncodeFieldsStep(Layout, 3, vs3);
    assert vs3[1..] == [];
    var e3 := EncodeFields(Layout, 3, vs3).value;
    assert e3 == WrapOptional(4, s.temporalSelection);
    var e2 := EncodeFields(Layout, 2, vs2).value;
    assert e2 == WrapOptional(3, s.verticalSelection) + e3;
    var e1 := EncodeFields(Layout, 1, vs1).value;
    assert e1 == WrapOptional(2, s.horizontalSelection) + e2;
    assert EncodeFields(Layout, 0, vs).value == [Wrap(1, s.sceneType.value)] + e1;
  }

  /** The field array `ber_encode` builds as written: sized by counting every
      set field, then filled by guards in which the one for
      horizontalSelection tests verticalSelection. Dereferencing a null
      field fails; a slot no guard fills stays null. */
  function FieldArrayAsWritten(s: SceneSelection): (r: Result<seq<Option<Node>>, SchemaError>)
    ensures r.Ok? ==> |r.value| == 1 + OptionalCount(s)
    ensures r.Err? ==> r.error == NullField
  {
    var numFields := 1 + OptionalCount(s);
    if s.sceneType.None? then Err(NullField)
    else if s.verticalSelection.Some? && s.horizontalSelection.None? then Err(NullField)
    else
      var filled :=
        [Wrap(1, s.sceneType.value)]
        + (if s.verticalSelection.Some? then [Wrap(2, s.horizontalSelection.value)] else [])
        + (if s.verticalSelection.Some? then [Wrap(3, s.verticalSelection.value)] else [])
        + (if s.temporalSelection.Some? then [Wrap(4, s.temporalSelection.value)] else []);
      Ok(seq(numFields, k requires 0 <= k < numFields => if k < |filled| then Some(filled[k]) else None))
  }

  /** With horizontalSelection set and verticalSelection null, the code as
      written leaves horizontalSelection out of the array and a null in its
      last slot, while `Encode` emits it and decodes it back. */
  lemma {:induction false} HorizontalDroppedAsWritten(s: SceneSelection, cls: TagClass, tag: nat)
    requires s.sceneType.Some? && s.horizontalSelection.Some? && s.verticalSelection.None?
    ensures FieldArrayAsWritten(s).Ok?
    ensures var slots := FieldArrayAsWritten(s).value;
            && slots[|slots| - 1].None?
            && forall k :: 0 <= k < |slots| ==> slots[k] != Some(Wrap(2, s.horizontalSelection.value))
    ensures Wrap(2, s.horizontalSelection.value) in Encode(s, cls, tag).value.children
    ensures Decode(Encode(s, cls, tag).value) == Ok(s)
  {
    EncodeEmits(s, cls, tag);
    RoundTrip(s, cls, tag);
    assert Emitted(s)[1] == Wrap(2, s.horizontalSelection.value);
  }

  /** With verticalSelection set and horizontalSelection null, the code as
      written dereferences the null horizontalSelection, while `Encode` succeeds. */
  lemma {:induction false} NullHorizontalAsWritten(s: SceneSelection, cls: TagClass, tag: nat)
    requires s.sceneType.Some? && s.horizontalSelection.None? && s.verticalSelection.Some?
    ensures FieldArrayAsWritten(s) == Err(NullField)
    ensures Encode(s, cls, tag).Ok?
  {
  }

  /** When horizontalSelection and verticalSelection are both set or both
      null, the guard makes no difference: the array as written holds
      exactly the components `Encode` emits. */
  lemma {:induction false} AsWrittenAgrees(s: SceneSelection, cls: TagClass, tag: nat)
    requires Complete(s) && (s.horizontalSelection.Some? <==> s.verticalSelection.Some?)
    ensures FieldArrayAsWritten(s).Ok?
    ensures var slots := FieldArrayAsWritten(s).value;
            var children := Encode(s, cls, tag).value.children;
            |slots| == |children| && forall k :: 0 <= k < |slots| ==> slots[k] == Some(children[k])
  {
    EncodeEmits(s, cls, tag);
  }
}

=== FILE: units_supported.dfy ===
/** `ProximitySupport_unitsSupported` of RecordSyntax-explain
    (z3950/RS_Explain/ProximitySupport_unitsSupported.java), a CHOICE of two
    implicitly tagged alternatives: known [1] and private [2]. The
    alternative's tag replaces the value's own, so the node is the value's
    body under a context-specific tag and no wrapper is checked. */
module UnitsSupportedSchema {
  import opened Results
  import opened BerNode
  import opened AsnSchema
  import opened AsnChoice

  /** The object's alternatives; None is a null reference. */
  datatype UnitsSupported = UnitsSupported(known: Option<Body>, privateUnits: Option<Body>)

  /** The alternatives in the order the generated code tries them. */
  const Alternatives: seq<Alternative> := [Alternative(1, Implicit), Alternative(2, Implicit)]

  /** Exactly one alternative is set. */
  predicate Chosen(u: UnitsSupported) {
    u.known.Some? != u.privateUnits.Some?
  }

  /** The alternatives in order, and how many of them are set. */
  function Values(u: UnitsSupported): (vs: seq<Option<FieldValue>>)
    ensures FitsAlternatives(Alternatives, vs)
    ensures CountFrom(vs, 0) == (if u.known.Some? then 1 else 0) + (if u.privateUnits.Some? then 1 else 0)
  {
    var vs := [Implicitly(u.known), Implicitly(u.privateUnits)];
    assert CountFrom(vs, 2) == 0;
    assert CountFrom(vs, 1) == if u.privateUnits.Some? then 1 else 0;
    vs
  }

  /** The object `ber_decode` leaves behind once alternative `k` matched. */
  function FromChoice(k: nat, v: FieldValue): (u: UnitsSupported)
    requires k < |Alternatives| && Fits(Implicit, v)
    ensures Chosen(u) && Values(u) == OnlyAt(|Alternatives|, k, v)
  {
    if k == 0 then UnitsSupported(Some(v.body), None) else UnitsSupported(None, Some(v.body))
  }

  /** `ber_decode`: the node's own tag picks the alternative, which takes the
      node whole; any other tag is "choice not matched", the only error. */
  function Decode(n: Node): (r: Result<UnitsSupported, SchemaError>)
    ensures r.Ok? ==> Chosen(r.value)
    ensures r.Ok? && r.value.known.Some? ==> n == Retag(r.value.known.value, ContextSpecific, 1)
    ensures r.Ok? && r.value.privateUnits.Some? ==> n == Retag(r.value.privateUnits.value, ContextSpecific, 2)
    ensures r.Err? <==> !HasTag(n, 1) && !HasTag(n, 2)
    ensures r.Err? ==> r.error == ChoiceNotMatched
  {
    var (k, v) :- DecodeChoice(Alternatives, 0, n);
    Ok(FromChoice(k, v))
  }

  /** `ber_encode()`: the set alternative's body under its tag; both set is
      "CHOICE multiply set", neither is "CHOICE not set". */
  function Encode(u: UnitsSupported): (r: Result<Node, SchemaError>)
    ensures r.Ok? <==> Chosen(u)
    ensures r == Err(ChoiceMultiplySet) <==> u.known.Some? && u.privateUnits.Some?
    ensures r == Err(ChoiceNotSet) <==> u.known.None? && u.privateUnits.None?
    ensures r.Ok? && u.known.Some? ==> r.value == Retag(u.known.value, ContextSpecific, 1)
    ensures r.Ok? && u.privateUnits.Some? ==> r.value == Retag(u.privateUnits.value, ContextSpecific, 2)
  {
    EncodeChoice(Alternatives, Values(u), 0, None)
  }

  /** `ber_encode(tag_type, tag)`: refused for every CHOICE, as AsnChoice.ImplicitTagLosesChoice explains. */
  function EncodeTagged(u: UnitsSupported, cls: TagClass, tag: nat): (r: Result<Node, SchemaError>)
    ensures r.Err? && r.error == CannotImplicitlyTag
  {
    Err(CannotImplicitlyTag)
  }

  /** AsnChoice.ChoiceRoundTrip for these alternatives: one set alternative decodes back from its encoding. */
  lemma {:induction false} RoundTrip(u: UnitsSupported)
    requires Chosen(u)
    ensures Encode(u).Ok? && Decode(Encode(u).value) == Ok(u)
  {
    var vs := Values(u);
    var k := if u.known.Some? then 0 else 1;
    ChoiceRoundTrip(Alternatives, vs, k);
  }

  /** AsnChoice.ChoiceCanonical for these alternatives: the decoder accepts exactly the encoder's output. */
  lemma {:induction false} Canonical(n: Node, u: UnitsSupported)
    requires Decode(n) == Ok(u)
    ensures Encode(u) == Ok(n)
  {
    var (k, v) := DecodeChoice(Alternatives, 0, n).value;
    ChoiceCanonical(Alternatives, n, k, v);
  }

  /** Why the implicit tag is refused: under one implicit tag a known unit
      and a private unit with the same body would be one node. */
  lemma {:induction false} ImplicitTagLoss(b: Body, cls: TagClass, tag: nat)
    ensures var x := Encode(UnitsSupported(Some(b), None));
            var y := Encode(UnitsSupported(None, Some(b)));
            x.Ok? && y.Ok? && x != y && Retag(BodyOf(x.value), cls, tag) == Retag(BodyOf(y.value), cls, tag)
  {
    ImplicitTagLosesChoice(Alternatives, 0, 1, Bare(b), cls, tag);
  }
}
